=== FILE: README.md ===
# git-secrets core, modelled in Dafny

git-secrets keeps secret files encrypted inside a git repository. Its
metadata lives in a SQLite database under `<repo>/.gitsecrets`:

- users, teams, collections and tracked files;
- six many-to-many relations: team members, collection contents, and four
  kinds of access grant (file→user, file→team, collection→user,
  collection→team);
- a view, `files_access_view`, that lists every (file, user) pair joined by
  one of the four grant paths.

A tracked file is encrypted with OpenPGP to the public keys of everyone who
can reach it. It is decrypted with the operator's private key. Each file row
stores two signatures that show whether the file changed since it was last
recorded:

- a SHA-256 of its contents;
- a SHA-256 of the comma-joined, sorted ids of the users with access.

The model covers the storage layer (UUID tables, relationship tables, the
six relations, the access view and its resolver), the key store and its
cache, the file layout, the pure helpers, and the manager operations built
on them. It covers both the TypeScript manager and its JavaScript
predecessor (`Legacy`).

## How the model is organised

- `Wrappers`: `Option`, `Result` and the tri-state `Response`
  (Success / Warning / Error) that every manager mutation returns.
- `Seqs`, `Sorting`, `Strings`: the JavaScript runtime pieces the core
  relies on. These are `filter`, `map`, `flatMap` of pairs,
  `[...new Set(xs)].sort()` under the default string order, `join` and
  `split`.
- `TablesBase`, `Tables`: UUID tables and relationship tables, as lists of
  rows.
  - A lookup by a column answers the first matching row.
  - A relationship table keeps its pairs distinct.
  - A relationship query answers its rows in (key1, key2) order.
- `Relations`: the six relation classes and which key each argument
  becomes.
- `Views`: the access view as the union of the four grant paths, and the
  two resolvers on top of it.
- `Io`: the directory layout, `isInitialized`, content signatures, and
  POSIX `path.resolve`.
- `Encryption`: key files on disk and the per-process key cache.
- `Db`: the whole database as one immutable `Store`.
- `Access`: the access manager and the batch application of changes.
- `Managers`: creating entities, membership, contents and grants, and
  stored versus live signatures.
- `Crypto`: `cryptoOperationOnFile`, `encryptFile`, `decryptFile`, and the
  bulk operations.
- `Legacy`: the JavaScript manager and tables, where they differ. Lemmas
  relate the removals (`RemoveBy*Agrees`), the file grant
  (`AccessAddAgrees`), the signature refresh (`UpdateFileSignaturesAgree`),
  adding users and teams (`AddUserLegacyAgrees`, `AddTeamLegacyAgrees`) and
  the key file names (`KeysDirAgrees`) to the TypeScript version.
  `AddFileLegacy`, `AddUsersToTeams`, `AddAccessToFiles`,
  `EncryptFileLegacy` and `DecryptFileLegacy` are characterised on their
  own, without such a lemma.

Every operation maps a `World` to a new `World` plus a `Response`. A
`World` is the store, the disk (a map from absolute path to text, plus a set
of directories) and the key wrapper. The environment (`Env`) is a set of
parameters:

- git's path normaliser;
- the hash function;
- the armored-key reader;
- the OpenPGP engine.

Generated UUIDs and generated key material are passed in as arguments.

## Model

| member | source | states |
|---|---|---|
| `Seqs.Dedup` | src/db/views.ts:30 | `[...new Set(xs)]` keeps exactly the elements of `xs`, each once |
| `Seqs.Cross` | src/managers.ts:245 | the `flatMap`/`map` cross product holds every (x, y) with x from the first list and y from the second, and has \|xs\|·\|ys\| entries |
| `Seqs.CrossOrder` | src/managers.ts:245 | the product is in `flatMap` order: entry i·\|ys\| + j pairs `xs[i]` with `ys[j]` |
| `Sorting.Sort` | src/db/views.ts:30 | `sort()` yields an ascending permutation of its input |
| `Sorting.SortedUnique` | src/db/views.ts:30 | `[...new Set(xs)].sort()` is ascending, has no repeats, and holds exactly the elements of `xs` |
| `Sorting.SortedDistinctUnique` | src/db/views.ts:30 | two ascending, repeat-free lists with the same elements are equal, so any sort algorithm gives the same answer |
| `Sorting.SortedUniqueCanonical` | src/db/views.ts:30 | the deduplicated, sorted list depends only on which elements occur, not on their order or how often they repeat |
| `Strings.LexIsTotalOrder` | src/db/views.ts:30 | the default string order of `sort()` is a total order (antisymmetric, transitive, total) |
| `Strings.SplitCount` | src/utils.ts:36 | `split(';')` yields one more piece than there are separators |
| `Strings.SplitJoin` | src/utils.ts:36 | joining the pieces of `split(c)` with `c` gives back the string |
| `Strings.NatToString` | src/utils.ts:73 | `${index}` is a non-empty string of decimal digits |
| `TablesBase.PairLeIsTotalOrder` | src/db/tables.base.ts:59-64 | `ORDER BY key1, key2` is a total order on pairs |
| `TablesBase.AddRelationship` | src/db/tables.base.ts:82-88 | `INSERT ... ON CONFLICT DO NOTHING` adds exactly the pair; if the pair was present nothing changes; rows stay distinct |
| `TablesBase.RemoveRelationship` | src/db/tables.base.ts:90-96 | the DELETE removes exactly the pair; an absent pair changes nothing; rows stay distinct |
| `TablesBase.AddRelationshipIdempotent` | src/db/tables.base.ts:82-88 | adding a pair twice is adding it once |
| `TablesBase.AddThenRemove` | src/db/tables.base.ts:82-96 | removing a pair just added to a table that lacked it restores the table row for row |
| `TablesBase.FindAll` | src/db/tables.base.ts:59-64 | the query answers a sorted permutation of the table's rows |
| `TablesBase.FindAllByKey1` | src/db/tables.base.ts:66-72 | answers exactly the rows with that key1, sorted, without repeats when the table has none |
| `TablesBase.FindAllByKey2` | src/db/tables.base.ts:74-80 | answers exactly the rows with that key2, sorted, without repeats when the table has none |
| `TablesBase.FindFirst` | src/db/tables.base.ts:29-36 | `WHERE col = :k LIMIT 1` answers nothing iff no row has the key, and otherwise the first row that has it |
| `TablesBase.FindFirstAppend` | src/db/tables.base.ts:29-36 | appending a row never changes an existing match; a key with no match is then answered by the new row if it carries that key |
| `TablesBase.RemoveWhere` | src/db/tables.base.ts:38-43 | `DELETE WHERE id = :id` removes exactly the rows with that id; without such rows the table is unchanged |
| `Tables.GetByEmail` | src/db/tables.ts:57-63 | null iff no user has the email; otherwise a user with that email |
| `Tables.GetTeamByName` | src/db/tables.ts:85-91 | null iff no team has the name; otherwise a team with that name |
| `Tables.GetCollectionByName` | src/managers.ts:278 | null iff no collection has the name; otherwise a collection with that name |
| `Tables.GetByPath` | src/db/tables.ts:127-133 | null iff no file has the path; otherwise a file with that path |
| `Tables.FindFile` | src/db/tables.base.ts:29-36 | `findOne(id)` answers nothing iff no row has the id; otherwise that row |
| `Tables.ChosenId` | src/db/tables.ts:66 | the destructuring default `id = uuid()` replaces only a missing id |
| `Tables.CreateUser` | src/db/tables.ts:65-71 | appends one row and returns its id; afterwards a free email looks up the new user and every other lookup answers as before |
| `Tables.CreateTeam` | src/db/tables.ts:93-99 | same as `CreateUser`, for team names |
| `Tables.CreateCollection` | src/managers.ts:285 | same as `CreateTeam`, for collection names |
| `Tables.CreateFile` | src/db/tables.ts:135-141 | same as `CreateUser`, for paths and for ids |
| `Tables.UpdateFile` | src/db/tables.ts:143-157 | refused iff a path is given (its parameter is never bound) or no field is truthy (empty SET clause); otherwise only the rows with that id change, and only in the truthy signature fields |
| `Tables.RemoveByEmail` | src/db/tables.ts:73-77 | an unknown email throws (`None`); an empty id returns early; otherwise exactly the rows with the user's id go |
| `Tables.RemoveByName` | src/db/tables.ts:101-105 | same as `RemoveByEmail`, for team names |
| `Tables.RemoveByPath` | src/db/tables.ts:159-163 | same as `RemoveByEmail`, for paths |
| `Tables.RemoveFile` | src/db/tables.base.ts:38-43 | exactly the rows with that id go; an unknown id changes nothing |
| `Tables.UniquePathsAppend` | src/db/tables.ts:135-141 | inserting a row with an untracked path keeps the unique index on paths |
| `Tables.GetByPathFirst` | src/db/tables.ts:127-133 | the first row that carries a path is the one `getByPath` finds |
| `Tables.AppendedRowFound` | src/db/tables.ts:135-157 | create then update keeps paths unique, and the new row is the one its path finds |
| `Tables.FindFileByOwnId` | src/db/tables.base.ts:29-36 | under the primary key, `findOne` of a row's id finds that row |
| `Relations.Add` | src/db/relations.ts:17-93 | each relation's `add` puts the pair (first-named entity, second-named entity) into its own relation and no other |
| `Relations.Remove` | src/db/relations.ts:17-93 | each relation's `remove` deletes exactly the pair its `add` inserts, in its own relation only |
| `Relations.AddIdempotent` | src/db/relations.ts:17-93 | `add` twice is `add` once |
| `Relations.AddThenRemoveRestores` | src/db/relations.ts:17-93 | `remove` undoes an `add` of an absent pair row for row |
| `Views.ViewRowsMatchGrantPaths` | src/db/views.ts:23-41 | the view lists (f, u) iff a direct grant, a team grant, a collection grant or a collection-team grant connects them |
| `Views.FindAllUsersIds` | src/db/views.ts:23-31 | answers exactly the users that some view row pairs with the file, ascending, each once |
| `Views.FindAllFileIds` | src/db/views.ts:33-41 | answers exactly the files that some view row pairs with the user, ascending, each once |
| `Views.FindAllUsersIdsCanonical` | src/db/views.ts:23-31 | the answer depends only on which rows the view holds, not on their order or repeats |
| `Views.FindAllFileIdsCanonical` | src/db/views.ts:33-41 | the same for the per-user query |
| `Views.AccessSymmetric` | src/db/views.ts:23-41 | u is resolved for f exactly when f is resolved for u |
| `Views.ResolvedUsersAreGrantees` | src/db/views.ts:23-31 | the resolved users of a file are exactly those with a grant path to it |
| `Views.HasAccessMonotone` | src/db/views.ts:23-41 | access only grows as relations grow |
| `Views.AddNeverRevokes` | src/db/relations.ts:17-93 | no relation `add` removes a resolved user |
| `Views.RemoveNeverGrants` | src/db/relations.ts:17-93 | no relation `remove` adds a resolved user |
| `Utils.ToArray` | src/utils.ts:15-17 | an array is kept, another truthy value is wrapped, a falsy value gives `[]` |
| `Utils.ToArrayIdempotent` | src/utils.ts:15-17 | normalising twice is normalising once |
| `Utils.Items` | src/utils.ts:15-17 | `toArray` of a string-or-list argument: missing or empty gives `[]`, one string gives one item, a list is kept |
| `Utils.ItemsAgreeWithToArray` | src/utils.ts:15-17 | `Items` is `toArray` read back as strings |
| `Utils.RawIndex` | src/managers.ts:237 | indexing the argument as passed: an element of a list, but a character of a single string |
| `Utils.Flatten` | src/utils.ts:65-90 | the flattened object holds no objects or arrays |
| `Utils.FlattenPrimitive` | src/utils.ts:84-86 | a primitive field lands at `prefix + separator + key`, or at `key` at the top level |
| `Utils.FlattenNested` | src/utils.ts:80-82 | a nested object is flattened under the parent key as prefix |
| `Utils.FlattenArrayItem` | src/utils.ts:70-77 | a primitive array item lands at `key[i]` with its value, whatever the other items are |
| `Utils.FlattenArrayObjectItem` | src/utils.ts:70-77 | an object or array item is flattened with `key[i]` as its prefix, and every entry it produces survives the later items |
| `Utils.LaterItemsKeep` | src/utils.ts:71-77 | an entry written under item i is not overwritten by any later item of the same array |
| `Utils.ItemKeysApart` | src/utils.ts:73-75 | no key starts with both `key[i]` and `key[j]` for distinct indices, so items never write into each other's keys |
| `Utils.ItemKeyInjective` | src/utils.ts:73-75 | distinct indices give distinct `key[i]` keys |
| `Utils.NatToStringInjective` | src/utils.ts:73-75 | distinct indices render differently |
| `Utils.FlattenKeysExtendPrefix` | src/utils.ts:65-90 | below the top level every key starts with the prefix and separator |
| `Utils.FlattenOfFlat` | src/utils.ts:65-90 | an object whose values are all primitive flattens at the top level to itself |
| `Utils.Statements` | src/utils.ts:35-38 | one statement per `;`, each ending in its only `;` |
| `Utils.StatementsRebuildScript` | src/utils.ts:35-38 | the statements plus the dropped tail spell the script again |
| `Utils.RunSequentially` | src/utils.ts:35-38 | each statement is prepared against the database the earlier ones produced; the failure reported is the first one, and the database returned keeps the effects of every statement before it (no rollback) |
| `Utils.RunSequentiallyAppend` | src/utils.ts:35-38 | a script split in two runs as its first part and then, if that succeeded, its second part from where the first left off |
| `Utils.RunAsTransaction` | src/utils.ts:40-47 | every statement is prepared against the starting database before any runs: a preparation failure is reported iff some statement does not prepare there, and it names the first such statement; any failure rolls the database back; otherwise the prepared statements run in order |
| `Utils.FirstUnprepared` | src/utils.ts:41-44 | the position reported is the first whose statement does not prepare, the one `map` throws on |
| `Utils.SucceedsWhenPrepared` | src/utils.ts:35-47 | a successful sequential run gives the same result when the statements are already prepared |
| `Utils.RunnersAgreeOnSuccess` | src/utils.ts:35-47 | when every statement prepares against the starting database and the sequential run succeeds, the transaction gives the same database |
| `Utils.RunnersDivergeOnForwardReference` | src/utils.ts:35-47 | `CREATE TABLE t(x INTEGER);INSERT INTO t VALUES (1);` on an empty database succeeds sequentially, but the transaction fails to prepare the INSERT and leaves the database empty |
| `Io.StateDirsUnderGitSecrets` | src/io.ts:40-63 | the keys and data directories are distinct children of `<repo>/.gitsecrets` |
| `Io.KeyPathsNeverCollide` | src/io.ts:40-63 | no public-key path is ever a private-key path |
| `Io.KeyPathsDifferOnlyInSuffix` | src/io.ts:40-63 | a user's two key files share their stem and differ only in `.public` / `.private` |
| `Io.PublicKeyPath` | src/io.ts:56-58 | the public key file lies directly in the keys directory and is named `<userId>.public` |
| `Io.PrivateKeyPath` | src/io.ts:59-61 | the private key file lies directly in the keys directory and is named `<userId>.private` |
| `Io.KeyPathsInjective` | src/io.ts:56-61 | distinct users have distinct key files, with `Resolve` as concatenation (see Left out) |
| `Io.ResolveAgreesWithPathResolve` | src/io.ts:45-61 | for a normalised absolute directory and a relative name of plain segments, `path.resolve` is concatenation with `/` |
| `Io.KeysDirSegments` | src/io.ts:43-47 | the keys directory of a repository at a normalised path is that path with `.gitsecrets` and `keys` appended |
| `Io.KeyPathsInjectiveUnderPathResolve` | src/io.ts:56-61 | under `path.resolve`, ids without `/` have distinct key files |
| `Io.KeyPathsCollideUnderPathResolve` | src/io.ts:56-61 | under `path.resolve`, the id `x/../b` has the same key file as the id `b` |
| `Io.IsInitialized` | src/io.ts:65-72 | true iff the tool directory, keys directory, settings, local settings and database all exist |
| `Io.SignedText` | src/io.ts:75-76 | the file's text when there is a file at the path, and `""` when nothing is there; a directory there also gives `""` (see Left out) |
| `Io.ContentSignature` | src/io.ts:74-78 | the hash of the file's text, or of `""` when the file is absent |
| `Io.MissingSignsLikeEmpty` | src/io.ts:74-78 | a missing file and an empty file sign alike |
| `Io.SignatureDependsOnlyOnContents` | src/io.ts:74-78 | two disks that agree on the file give the same signature |
| `Encryption.ReadKeys` | src/encryption.ts:45-74 | each half of a cold read is present iff its file exists, and holds that file's key; where no key path is a directory, present iff `existsSync` holds |
| `Encryption.KeysOf` | src/encryption.ts:45-74 | a cached id answers from the cache, any other from disk |
| `Encryption.CreateKeyPair` | src/encryption.ts:24-43 | writes both key files, leaves every other file alone, and caches the new pair |
| `Encryption.GetUserKeys` | src/encryption.ts:45-74 | a cached id answers from the cache and changes nothing; otherwise the disk pair is returned and cached, missing halves included |
| `Encryption.RemoveUserKeys` | src/encryption.ts:76-82 | both key files are gone afterwards; nothing else is touched or added; where no key path is a directory, `existsSync` is false for both afterwards |
| `Encryption.GetUserKeysCoherent` | src/encryption.ts:45-74 | a read never changes what any later read answers |
| `Encryption.GetUserKeysStable` | src/encryption.ts:45-74 | a second read answers like the first and changes nothing |
| `Encryption.CreateThenGet` | src/encryption.ts:24-74 | create then read in the same process answers the new pair |
| `Encryption.CreateThenColdRead` | src/encryption.ts:24-74 | create then read in a later process finds the same pair on disk |
| `Encryption.RemoveUserKeysIdempotent` | src/encryption.ts:76-82 | removing twice is removing once |
| `Encryption.RemovedKeysStillCached` | src/encryption.ts:45-82 | removal does not invalidate the cache: a cached user still gets the old pair |
| `Encryption.RemovedKeysColdRead` | src/encryption.ts:45-82 | a cold read after removal finds neither half |
| `Encryption.PublicKeysOf` | src/managers.ts:515-518 | one answer per id, each the key that id's read answers, and the cache stays coherent |
| `Access.AccessChange` | src/managers.ts:67-99 | each grant relation gains (or loses) the pair of its two ids exactly when both ids are truthy; team members and collection contents are untouched |
| `Access.AccessRemoveUndoesAdd` | src/managers.ts:67-99 | `remove` with the same record undoes an `add` of absent pairs |
| `Access.ApplyLinks` | src/managers.ts:245-250 | one relation call per link, in order: a pair ends up present iff it was present and not removed, or was added |
| `Access.ApplyGrants` | src/managers.ts:395-405 | one access-manager call per record: the same, in the four grant relations only |
| `Access.CrossPairs` | src/managers.ts:389-392 | the pairs of the cross product: every (x, y) with x from xs and y from ys, and \|xs\|·\|ys\| entries |
| `Access.CrossPairsOrder` | src/managers.ts:389-392 | the pairs are in `flatMap` order: entry i·\|ys\| + j is (`xs[i]`, `ys[j]`) |
| `Managers.AccessSignature` | src/managers.ts:101-105 | the hash of the comma-joined ids of exactly the users with a grant path to the file, ascending and each once |
| `Managers.AccessSignatureDependsOnGrantees` | src/managers.ts:101-105 | the access signature depends only on who can reach the file |
| `Managers.AccessSignatureWithoutGrantees` | src/managers.ts:101-105 | a file nobody can reach signs as the hash of `""` |
| `Managers.GetFileSignatures` | src/managers.ts:532-538 | nothing iff the file is untracked; otherwise its live contents and access signatures |
| `Managers.StoreSignatures` | src/managers.ts:540-547 | the intended update: the row with that id is in sync with the given signatures, and every other row is unchanged |
| `Managers.StoreSignaturesAsWritten` | src/managers.ts:546 | the call as written is always refused with an empty SET clause |
| `Managers.UpdateFileSignatures` | src/managers.ts:540-547 | stores the file's live signatures in its row; an unknown id changes nothing; no other row or relation changes |
| `Managers.LiveSignaturesSurviveRefresh` | src/managers.ts:540-547 | a refresh does not change the live signatures it stored |
| `Managers.RefreshedFileInSync` | src/managers.ts:540-547 | after a refresh the tracked file is in sync |
| `Managers.AddUser` | src/managers.ts:177-196 | a taken email warns and changes nothing; a failed key generation errors and changes nothing; otherwise keys are written and cached, and the new user is what the email finds; emails stay unique |
| `Managers.AddUserTwiceWarns` | src/managers.ts:177-196 | adding an email just added warns and changes nothing |
| `Managers.AddTeam` | src/managers.ts:198-209 | a taken name warns and changes nothing; otherwise the new team is what the name finds; names stay unique |
| `Managers.AddTeamTwiceWarns` | src/managers.ts:198-209 | adding a name just added warns and changes nothing |
| `Managers.AddCollection` | src/managers.ts:275-291 | the same as `AddTeam`, for collections |
| `Managers.AddFile` | src/managers.ts:254-273 | a tracked (normalised) path warns and changes nothing; otherwise one row is appended under the new id, which the path then finds; paths stay unique |
| `Managers.AddFileTwiceWarns` | src/managers.ts:254-273 | adding a path just added warns and changes nothing |
| `Managers.NewFileRow` | src/managers.ts:264-267 | the created row, after its refresh, keeps paths unique and is what its path finds |
| `Managers.AddedFileInSync` | src/managers.ts:254-273 | a newly added file starts in sync |
| `Managers.ResolveAll` | src/managers.ts:226-242 | all ids, or the index of the first item that does not resolve (every earlier one did) |
| `Managers.LinksOfPairs` | src/managers.ts:245-250 | the links made for a list of pairs touch exactly those pairs, in one relation |
| `Managers.ApplyPairs` | src/managers.ts:245-250 | one relation call per pair: the named relation gains (or loses) exactly the pairs, and the others stay row for row |
| `Managers.ModifyTeamUsers` | src/managers.ts:219-252 | the first unknown team, then the first unknown email, is an error that changes nothing; otherwise exactly teams×users is added to or removed from the team members; the store stays consistent |
| `Managers.ModifyCollectionFiles` | src/managers.ts:301-335 | the same for collections×files, with paths normalised |
| `Managers.TeamErrorNameAsWrittenTruncates` | src/managers.ts:237 | for a single unknown name, the message as written names one character of it |
| `Managers.GrantsForCross` | src/managers.ts:389-392 | the grants for a cross product touch exactly that product, in one relation |
| `Managers.AccessGrantsTouch` | src/managers.ts:389-405 | the grants touch exactly files×users, files×teams, collections×users and collections×teams |
| `Managers.GrantAccess` | src/managers.ts:394-405 | exactly those pairs are added or removed; team members and collection contents are untouched |
| `Managers.GrantThenRevoke` | src/managers.ts:337-343 | revoking what was just granted removes every touched pair and keeps every other pair as before |
| `Managers.ResolveAccess` | src/managers.ts:352-386 | resolves files, collections, teams, then users; reports the first failure in that order; resolved ids are non-empty |
| `Managers.ModifyAccess` | src/managers.ts:345-408 | an unresolved name is an error that changes nothing; otherwise exactly the four cross products are added or removed; the store stays consistent |
| `Crypto.PresentKeys` | src/managers.ts:452 | keeps exactly the keys that are not null |
| `Crypto.RecipientKeys` | src/managers.ts:451-452 | the public keys of exactly the users resolved for the file; the key cache stays coherent |
| `Crypto.RecipientsAreGrantees` | src/managers.ts:515-518 | a file is encrypted to exactly the keys of users with a grant path to it |
| `Crypto.CryptoOperationOnFile` | src/managers.ts:425-474 | unknown file, then unknown user, then the `modified` guard, then a missing private key (an error naming the operation and the email) each end the call with the database and disk unchanged; otherwise the engine runs on the file with the grantees' keys; the database never changes |
| `Crypto.GuardRefuses` | src/managers.ts:437-447 | as written, the guard refuses exactly the files whose stored signatures are not in sync with their live ones; the intended guard refuses exactly those in sync |
| `Crypto.GuardAsWrittenRefusesModified` | src/managers.ts:437-448 | as written, `modified` refuses every file that was modified |
| `Crypto.GuardIntendedRefusesExactlyUnmodified` | src/managers.ts:437-448 | the intended guard refuses exactly the files whose signatures are in sync |
| `Crypto.GuardIntendedPassesModified` | src/managers.ts:437-448 | under the intended guard a modified file is treated as if the flag were off |
| `Crypto.EncryptFile` | src/managers.ts:410-419 | the crypto outcome, then, on success, the file found by its normalised path is in sync; only signature columns change |
| `Crypto.EncryptFileAsWritten` | src/managers.ts:410-419 | the row is looked up again by the path as given, so a non-normalised path skips the refresh |
| `Crypto.EncryptFileAsWrittenMissesRefresh` | src/managers.ts:415 | a non-normalised path leaves the file stale as written, and fresh under the corrected lookup |
| `Crypto.DecryptFile` | src/managers.ts:421-423 | the database is unchanged; success needs a tracked file and a known user |
| `Crypto.RowsOf` | src/managers.ts:481 | the rows `findOne` yields for the ids, skipping unknown ones |
| `Crypto.ReachableFiles` | src/managers.ts:476-482 | an unknown email reaches nothing; otherwise only tracked files the user resolves to |
| `Crypto.ReachableFilesAreGranted` | src/managers.ts:476-482 | a tracked file is reachable iff the user has a grant path to it |
| `Crypto.SelectedForEncryption` | src/managers.ts:476-499 | exactly the reachable files, and with `modified` only the stale ones |
| `Crypto.EncryptAll` | src/managers.ts:476-499 | one response per selected file; only signature columns of tracked rows change |
| `Crypto.DecryptAll` | src/managers.ts:501-513 | one response per reachable file; the database never changes |
| `Legacy.FileIdAt` | src/managers.js:148-168 | `getByPath(path).id` is undefined iff no row has the path |
| `Legacy.RemoveByEmailLegacy` | src/tables.js:61-65 | an unknown email or an empty id changes nothing; otherwise exactly the rows with that id go |
| `Legacy.RemoveByNameLegacy` | src/tables.js:88-92 | the same, for team names |
| `Legacy.RemoveByPathLegacy` | src/tables.js:141-145 | the same, for paths |
| `Legacy.RemoveByEmailAgrees` | src/tables.js:61-65 | the TypeScript removal is the legacy one, except that it throws on an unknown email |
| `Legacy.RemoveByNameAgrees` | src/tables.js:88-92 | the same, for team names |
| `Legacy.RemoveByPathAgrees` | src/tables.js:141-145 | the same, for paths |
| `Legacy.CreateFileLegacy` | src/tables.js:122-128 | a falsy supplied id (missing or empty) is replaced by a new one |
| `Legacy.CreateFileDefaultsDiffer` | src/tables.js:122-128 | with an empty supplied id, the TypeScript `create` keeps `""` and the legacy one generates |
| `Legacy.SqlDelete` | src/tables.base.js:76-82 | a DELETE with an unbound (NULL) parameter deletes nothing |
| `Legacy.SqlDeleteBound` | src/tables.base.js:76-82 | with both parameters bound it deletes what `removeRelationship` does |
| `Legacy.FileUsersRemoveAsWritten` | src/tables.js:157-159 | as written, the file-user `remove` deletes nothing |
| `Legacy.FileTeamsRemoveAsWritten` | src/tables.js:171-173 | as written, the file-team `remove` deletes nothing |
| `Legacy.TeamMembersRemoveAsWritten` | src/tables.js:104-106 | as written, the team-member `remove` deletes nothing |
| `Legacy.MisKeyedRemovesKeepPair` | src/tables.js:104-173 | a granted pair survives the legacy removal and is deleted by the corrected one |
| `Legacy.AccessAddLegacy` | src/managers.js:46-49 | adds file→user and file→team pairs for truthy user and team ids, and touches nothing else |
| `Legacy.AccessRemoveLegacy` | src/managers.js:51-54 | changes nothing, because it goes through the mis-keyed removes |
| `Legacy.AccessAddAgrees` | src/managers.js:46-49 | for a truthy file id, the legacy grant is the TypeScript grant without a collection |
| `Legacy.AddFilePairs` | src/managers.js:170-182 | the two file relations gain exactly the given pairs |
| `Legacy.AddUsersToTeams` | src/managers.js:139-146 | team members gain exactly teams×users, with ids not checked |
| `Legacy.TruthyPairs` | src/managers.js:176-177 | the pairs of the product whose second id is truthy |
| `Legacy.AddAccessToFiles` | src/managers.js:170-182 | the file relations gain exactly files×users and files×teams, skipping empty ids |
| `Legacy.AddUserLegacy` | src/managers.js:108-125 | an existing email returns its id and changes nothing; a failed key generation returns nothing and changes nothing; otherwise keys are written, then the row, and the new id is returned |
| `Legacy.AddUserLegacyIdempotent` | src/managers.js:108-125 | adding the same email again returns the first id and changes nothing |
| `Legacy.AddUserLegacyAgrees` | src/managers.js:108-125 | on a fresh email the legacy and TypeScript `addUser` reach the same world, the legacy id present exactly when the TypeScript call succeeds; on a taken email neither changes anything, the legacy returning the id where the TypeScript warns |
| `Legacy.AddTeamLegacy` | src/managers.js:127-137 | an existing name returns its id and changes nothing; otherwise the team is appended |
| `Legacy.AddTeamLegacyIdempotent` | src/managers.js:127-137 | adding the same name again returns the first id and changes nothing |
| `Legacy.AddTeamLegacyAgrees` | src/managers.js:127-137 | on a fresh name the legacy and TypeScript `addTeam` append the same row and answer the new id; on a taken name neither changes anything, the legacy returning the id where the TypeScript warns |
| `Legacy.UpdateFileSignaturesLegacy` | src/managers.js:262-270 | fails iff the file is untracked or missing from disk; otherwise it stores the hash of the file and the access signature in that row only |
| `Legacy.UpdateFileSignaturesAgree` | src/managers.js:262-270 | whenever the legacy refresh succeeds, it stores what the TypeScript one stores |
| `Legacy.AddFileLegacy` | src/managers.js:148-168 | a tracked path is refreshed and its id returned (or it throws); a new path gets a placeholder row, then a refresh |
| `Legacy.AddFileLegacyLeavesPlaceholder` | src/managers.js:148-168 | a new path missing from disk leaves a placeholder row although nothing is returned |
| `Legacy.SecretPath` | src/managers.js:209-228 | the ciphertext is written next to the plaintext, at its path with `.secret` appended |
| `Legacy.DecryptedPath` | src/managers.js:245 | the decrypted text is written at the plaintext's path with `.decrypted` appended |
| `Legacy.OutputPathsDistinct` | src/managers.js:184-246 | `.secret` and `.decrypted` outputs never overwrite the plaintext or each other |
| `Legacy.KeysForFile` | src/managers.js:248-251 | the recipients' and the operator's keys, read through a coherent cache |
| `Legacy.EncryptFileLegacy` | src/managers.js:184-210 | a key that does not unlock, or an unknown file, throws; success requires the plaintext on disk and writes only `<path>.secret` |
| `Legacy.DecryptFileLegacy` | src/managers.js:212-246 | a key that does not unlock throws; a missing `<path>.secret` returns without writing; otherwise it writes only `<path>.decrypted` |
| `Legacy.DecryptFindsCiphertext` | src/managers.js:184-246 | after a successful encryption, a successful decryption writes the decrypted file |
| `Legacy.KeysDirAgrees` | src/managers.js:60-61 | the legacy keys directory and key file names are the TypeScript ones |

`Views.ViewRows` models `files_access_view`. The view's SQL definition
(`schema.sql`) is not part of this model. Its rows carry an `access_type` of
`'user'`, `'team'`, `'collection'` or `'collection-team'`
(src/db/views.dto.ts:21), and the relations they can join are the six of
src/db/relations.ts:12-84. The model reads the four access types as four
join paths over those relations: a direct grant (file→user), a team granted
the file (file→team, team→user), a collection holding the file granted to
the user (collection→file, collection→user), and a team granted such a
collection (collection→file, collection→team, team→user). This join shape
is the model's reading of those declarations, not a transcription of the
view's SQL.

## Left out

- OpenPGP internals: key generation, armoring, encryption, signing and
  signature verification. They are parameters (`Env.crypt`, `Env.readKey`,
  `Legacy.Engine`). Passwords are only passed through. `Env.readKey` is
  total, so malformed key files, which `openpgp.readKey` rejects when
  `getUserKeys` reads them (src/encryption.ts:45-74), are not modelled.
- SHA-256 is a parameter `hash`. It is never assumed injective.
- SQLite itself:
  - schema creation and foreign keys are not modelled;
  - the `Metadata` table (src/db/tables.ts:19-49, src/tables.js:19-38) is left out;
  - setup (`setup`, src/managers.js:88-100) is left out.
- Statement preparation and execution are parameters of `Utils.RunSequentially`
  and `Utils.RunAsTransaction`. Preparation sees the database it is
  prepared against. SQLite re-preparing a statement whose schema changed
  after it was prepared is part of the `run` parameter.
- Git, the CLI commands, settings files and `updateLocalSettings`
  (src/managers.js:102-106) are left out. The path normaliser
  `git.getRelativePath` is a parameter.
- `updateUserKeys` and `cleanup` (src/managers.ts:520-530 and 549-552) are
  stubs in the source. They are not modelled.
- `encryptAll` and `decryptAll` start their per-file calls with
  `Promise.all`. The model runs them one after another in list order. Any
  interleaving of the key-cache updates is not modelled.
- The Collections table is imported by src/managers.ts but not defined in
  src/db/tables.ts, which is the part of the source this model covers. It
  is modelled after the Teams table.
- `files_access_view`'s SQL is not part of this model (see above).
- The TypeScript manager calls its helpers with argument shapes that do not
  match their declarations. The model follows the evident intent of each:
  - `AccessManager.getSignature` destructures `{ path }` (src/managers.ts:101)
    but is called with the file id (src/managers.ts:536). The model signs
    the users resolved for that file id.
  - `AccessManager.findAllUsersIds` passes `{ path }` (src/managers.ts:60),
    and `getFilePublicKeys` passes the file's path (src/managers.ts:451,
    516). `FileAccess.findAllUsersIds` reads `{ fileId }` (src/db/views.ts:23).
    The model resolves by the file's id.
  - `AccessManager.findAllFilesIds` passes `{ email }` (src/managers.ts:64),
    but `FileAccess.findAllFileIds` reads `{ userId }` (src/db/views.ts:33).
    The model resolves the email to the user's id first.
  - `files.create` at src/managers.ts:265 passes camelCase signature fields
    that src/db/tables.ts:136 does not read.
  - src/managers.ts:455 calls `this.openpgp.getUserArmoredPrivateKey`, and
    src/managers.ts:517 calls `this.openpgp.getUserPublicKey`. Neither method
    exists in src/encryption.ts. The model reads the private half and the
    public half of the pair `Encryption.GetUserKeys` answers.
  - src/managers.ts:158 constructs `new OpenPGP()` with no argument, but the
    constructor at src/encryption.ts:19 destructures `{ repoDir }` and so
    throws a TypeError. The model's key store belongs to the repository the
    manager runs in.
  - src/managers.ts:469-471 calls `this.openpgp.encryptFile(payload)` and
    `this.openpgp.decryptFile(payload)`. Neither method exists in
    src/encryption.ts, which defines only the constructor (:19),
    `createKeyPair` (:24), `getUserKeys` (:45) and `removeUserKeys` (:76).
    The engine parameter `Env.crypt` stands in for both.
  - src/managers.ts:18 imports `Response`, `toSuccess`, `toWarning` and
    `toError` from src/dto.ts, which exports only `MaybeNull` and
    `MaybeEmpty` (src/dto.ts:9-10). src/managers.ts:39 imports
    `printResponse` from src/commands/utils.ts, which exports only `Toast`
    (src/commands/utils.ts:11). The Success/Warning/Error shape of
    `Wrappers.Response`, and the reading that `response.success`
    (src/managers.ts:414) holds exactly for `Success`, are therefore the
    model's reading of those names. `printResponse` is output only; the
    bulk operations return the responses instead.
  - src/managers.ts:22 imports `TeamUsersView`, `CollectionFilesView` and
    `FileAccessView` from src/db/views.ts, which exports only `FileAccess`
    (src/db/views.ts:14). So `new FileAccessView({ db })` at
    src/managers.ts:52, and `new TeamUsersView({ db })` and
    `new CollectionFilesView({ db })` at src/managers.ts:154-155, cannot
    construct as written. The model resolves access through `FileAccess`
    (`Views.FindAllUsersIds`, `Views.FindAllFileIds`).
- `Managers.GetFileSignatures` returns nothing for an unknown id. The source
  `findOne` answers `{}`, so its `if (!file)` never fires, and an unknown id
  would fail on the undefined path. Every caller passes an id it has just
  looked up.
- `Crypto.RowsOf` skips ids without a row. In the source such a file would
  be `{}`. The ids come from the access view, which only joins existing
  files.
- `Utils.Flatten` models integers for numbers, and objects as fields in
  insertion order. Integer-like keys, which JavaScript enumerates first,
  are not modelled.
- `Strings.Lex` compares characters by code. JavaScript sorts strings by
  UTF-16 code units. The two agree for the ids and emails stored here.
- `Encryption.ReadKeys` reads a directory at a key path as a missing half.
  In the source `existsSync` is true for a directory, and `readFileSync`
  then throws `EISDIR` (src/encryption.ts:53-54, 60-61). That exception is
  not modelled; the contract states the `existsSync` reading only where
  `KeyPathsNotDirs` holds.
- `Encryption.RemoveUserKeys` leaves a directory at a key path in place,
  where `fs.promises.unlink` rejects (src/encryption.ts:80-81). That
  rejection is not modelled.
- `Encryption.CreateKeyPair` writes a key file even when a directory sits
  at that path, which stays in `dirs`; `writeFileSync` would throw there
  (src/encryption.ts:37-38). That exception is not modelled.
- `Io.Resolve` is plain concatenation `dir + "/" + name`. `path.resolve`
  also removes `.` and `..` segments and repeated `/`, and lets an absolute
  name replace the directory. `Io.PathResolve` models that, and
  `Io.ResolveAgreesWithPathResolve` proves the two agree for a normalised
  absolute directory and a relative name of plain segments. The model takes
  the repository root to be such a directory other than `/`, and tracked
  paths to be such names, as git's repository-relative paths are. Other
  paths are not modelled.
- `Io.KeyPathsInjective` is proved for `Resolve`. Under `path.resolve` it
  holds only for ids without `/` (`Io.KeyPathsInjectiveUnderPathResolve`),
  and the ids `x/../b` and `b` share a key file
  (`Io.KeyPathsCollideUnderPathResolve`). Generated ids are UUIDs, which
  contain no `/`.
- `Io.ContentSignature` signs a directory at the tracked path as the hash of
  `""`. In the source `existsSync` is true for a directory, and
  `readFileSync` then throws `EISDIR` (src/io.ts:76). That exception is not
  modelled.
- `Encryption.CreateKeyPair`: key generation failure is the `None` case of
  `Managers.AddUser`'s `generated` argument.
- `Crypto.EncryptAll` does not state that each selected file ends up in
  sync. Its contract says only which columns change, because the
  per-file outcome depends on the engine parameter.
- `Crypto.DecryptAll` states only the database and the number of
  responses. Per-file disk effects are the engine's.
- `Legacy.DecryptFindsCiphertext` is conditional on the decryption
  returning, because the engine may still refuse the message.

## Findings

| source | as written | input that shows it | evidently intended | confidence | as-written member | corrected member |
|---|---|---|---|---|---|---|
| src/managers.ts:437-448 | the `modified` guard warns "has not been modified" when the live signatures are missing or differ from the stored ones, i.e. it skips exactly the modified files | `encryptFile({ path, email, modified: true })` on a tracked file edited since its last refresh | skip the files whose signatures are in sync and process the modified ones | not executed | `Crypto.GuardAsWrittenRefusesModified` | `Crypto.GuardIntendedRefusesExactlyUnmodified` |
| src/managers.ts:415 | `encryptFile` looks the row up again by the caller's path, not by its repository-relative form, so the signature refresh is skipped | `encryptFile({ path: "./app.env", ... })` for the tracked file `app.env` | refresh the row found by the normalised path | not executed | `Crypto.EncryptFileAsWrittenMissesRefresh` | `Crypto.EncryptFile` |
| src/tables.js:104-106, 157-159, 171-173 | the legacy relation removes bind the wrong parameter names (`key`, `fileId`), so `key1` is NULL and the DELETE matches no row | `FileUsers.remove({ fileId: "f", userId: "u" })` with the pair (f, u) granted | delete the pair, as the TypeScript `removeRelationship` does | not executed | `Legacy.MisKeyedRemovesKeepPair` | `Relations.Remove` |
| src/managers.ts:237, 241, 320, 324 | the not-found message indexes the argument as passed, so a single name is reported by one of its characters | `removeTeamUsers({ teams: "ops", users: ... })` with no team "ops": the message names "o" | name the item that failed to resolve | not executed | `Managers.TeamErrorNameAsWrittenTruncates` | `Managers.ModifyTeamUsers` |
| src/managers.ts:546 | `files.update(fileId, {...})` passes the id string as the update record, and the signatures as a second argument `update` does not take; no field of the record is set, so the SET clause is empty and the statement fails, as it would with the camelCase field names anyway | any `updateFileSignatures(id)` of a tracked file, e.g. the refresh at the end of `addFile` | `files.update({ id, contents_signature, access_signature })` storing the live signatures | not executed | `Managers.StoreSignaturesAsWritten` | `Managers.StoreSignatures` |

=== FILE: access.dfy ===
/** The access manager and the batch application of relation changes.

    `AccessManager.add` and `remove` take a record with up to four optional
    ids and touch each of the four grant relations whose two ids are both
    supplied (truthy). The manager operations apply whole lists of such
    changes, one call per pair. */
module Access {
  import opened Wrappers
  import opened Seqs
  import opened TablesBase
  import opened Relations

  /** The argument of `AccessManager.add` / `remove`. */
  datatype Grant = Grant(fileId: Option<Id>, collectionId: Option<Id>, userId: Option<Id>, teamId: Option<Id>)

  /** The pair a grant touches in relation `k`, if any. */
  function GrantRow(g: Grant, k: RelationKind): Option<Pair> {
    match k
    case FileUsers => if Present(g.fileId) && Present(g.userId) then Some(Pair(g.fileId.value, g.userId.value)) else None
    case FileTeams => if Present(g.fileId) && Present(g.teamId) then Some(Pair(g.fileId.value, g.teamId.value)) else None
    case CollectionUsers =>
      if Present(g.collectionId) && Present(g.userId) then Some(Pair(g.collectionId.value, g.userId.value)) else None
    case CollectionTeams =>
      if Present(g.collectionId) && Present(g.teamId) then Some(Pair(g.collectionId.value, g.teamId.value)) else None
    case TeamUsers => None
    case CollectionFiles => None
  }

  /** Adding or removing. */
  datatype Op = AddOp | RemoveOp

  /** Whether a pair is in a relation after the change, given whether it
      was before and whether the change touches it. */
  predicate Effect(op: Op, before: bool, touched: bool) {
    if op.AddOp? then before || touched else before && !touched
  }

  /** The relation calls `add` / `remove` makes for one record, in the
      order the source makes them: file-user, file-team, collection-user,
      collection-team, each only when both of its ids are truthy. */
  function GrantLinks(g: Grant): seq<Link> {
    (if Present(g.fileId) && Present(g.userId) then [FileUser(g.fileId.value, g.userId.value)] else [])
    + (if Present(g.fileId) && Present(g.teamId) then [FileTeam(g.fileId.value, g.teamId.value)] else [])
    + (if Present(g.collectionId) && Present(g.userId) then [CollectionUser(g.collectionId.value, g.userId.value)] else [])
    + (if Present(g.collectionId) && Present(g.teamId) then [CollectionTeam(g.collectionId.value, g.teamId.value)] else [])
  }

  lemma GrantLinksTouch(g: Grant, k: RelationKind, p: Pair)
    ensures LinksTouch(GrantLinks(g), k, p) <==> GrantRow(g, k) == Some(p)
  {
    var links := GrantLinks(g);
    if LinksTouch(links, k, p) {
      var i :| 0 <= i < |links| && links[i].Kind() == k && links[i].Row() == p;
    }
    if GrantRow(g, k) == Some(p) {
      var l: Link;
      if k == FileUsers {
        l := FileUser(g.fileId.value, g.userId.value);
      } else if k == FileTeams {
        l := FileTeam(g.fileId.value, g.teamId.value);
      } else if k == CollectionUsers {
        l := CollectionUser(g.collectionId.value, g.userId.value);
      } else {
        l := CollectionTeam(g.collectionId.value, g.teamId.value);
      }
      assert l in links;
      var i :| 0 <= i < |links| && links[i] == l;
    }
  }

  lemma AccessChangePointwise(rels: Relations, op: Op, g: Grant, k: RelationKind, p: Pair)
    ensures (p in ApplyLinks(rels, op, GrantLinks(g)).Get(k)) == Effect(op, p in rels.Get(k), GrantRow(g, k) == Some(p))
  {
    GrantLinksTouch(g, k, p);
  }

  lemma AccessChangeAll(rels: Relations, op: Op, g: Grant)
    ensures forall k, p :: (p in ApplyLinks(rels, op, GrantLinks(g)).Get(k)) == Effect(op, p in rels.Get(k), GrantRow(g, k) == Some(p))
  {
    forall k, p ensures (p in ApplyLinks(rels, op, GrantLinks(g)).Get(k)) == Effect(op, p in rels.Get(k), GrantRow(g, k) == Some(p)) {
      AccessChangePointwise(rels, op, g, k, p);
    }
  }

  /** A grant record never makes a team-member or collection-file link. */
  lemma GrantLinksKinds(g: Grant)
    ensures forall i :: 0 <= i < |GrantLinks(g)| ==> GrantLinks(g)[i].Kind() != TeamUsers && GrantLinks(g)[i].Kind() != CollectionFiles
  {
    var links := GrantLinks(g);
    assert forall l :: l in links ==> l.Kind() != TeamUsers && l.Kind() != CollectionFiles;
    assert forall i :: 0 <= i < |links| ==> links[i] in links;
  }

  /** `AccessManager.add` (`AddOp`) and `remove` (`RemoveOp`): each grant
      relation gains, or loses, the pair of its two ids when both are
      supplied; nothing else changes. */
  function AccessChange(rels: Relations, op: Op, g: Grant): (r: Relations)
    ensures forall k, p :: (p in r.Get(k)) == Effect(op, p in rels.Get(k), GrantRow(g, k) == Some(p))
    ensures r.teamUsers == rels.teamUsers && r.collectionFiles == rels.collectionFiles
    ensures WellFormed(rels) ==> WellFormed(r)
  {
    var links := GrantLinks(g);
    AccessChangeAll(rels, op, g);
    GrantLinksKinds(g);
    NoLinkOfKindKeepsRows(rels, op, links, TeamUsers);
    NoLinkOfKindKeepsRows(rels, op, links, CollectionFiles);
    ApplyLinks(rels, op, links)
  }

  /** A batch with no link of kind `k` leaves relation `k` row for row. */
  lemma {:induction false} NoLinkOfKindKeepsRows(rels: Relations, op: Op, links: seq<Link>, k: RelationKind)
    requires forall i :: 0 <= i < |links| ==> links[i].Kind() != k
    ensures ApplyLinks(rels, op, links).Get(k) == rels.Get(k)
    decreases |links|
  {
    if links != [] {
      var next := if op.AddOp? then Add(rels, links[0]) else Remove(rels, links[0]);
      NoLinkOfKindKeepsRows(next, op, links[1..], k);
    }
  }

  /** `remove` with the same record undoes an `add` of pairs that were all absent. */
  lemma AccessRemoveUndoesAdd(rels: Relations, g: Grant)
    requires forall k :: GrantRow(g, k).Some? ==> GrantRow(g, k).value !in rels.Get(k)
    ensures forall k, p :: p in AccessChange(AccessChange(rels, AddOp, g), RemoveOp, g).Get(k) <==> p in rels.Get(k)
  {
    var added := AccessChange(rels, AddOp, g);
    var removed := AccessChange(added, RemoveOp, g);
    forall k, p ensures p in removed.Get(k) <==> p in rels.Get(k) {
      var touched := GrantRow(g, k) == Some(p);
      assert (p in removed.Get(k)) == Effect(RemoveOp, p in added.Get(k), touched);
      assert (p in added.Get(k)) == Effect(AddOp, p in rels.Get(k), touched);
      if touched {
        assert p !in rels.Get(k);
      }
    }
  }

  // ---------------------------------------------------------------------
  // Batches

  /** Some link of the batch puts pair `p` into relation `k`. */
  predicate LinksTouch(links: seq<Link>, k: RelationKind, p: Pair) {
    exists i :: 0 <= i < |links| && links[i].Kind() == k && links[i].Row() == p
  }

  /** `<Relation>.add` / `.remove` called once per link, in order. */
  function ApplyLinks(rels: Relations, op: Op, links: seq<Link>): (r: Relations)
    ensures forall k, p :: (p in r.Get(k)) == Effect(op, p in rels.Get(k), LinksTouch(links, k, p))
    ensures WellFormed(rels) ==> WellFormed(r)
    decreases |links|
  {
    if links == [] then rels
    else
      var next := if op.AddOp? then Add(rels, links[0]) else Remove(rels, links[0]);
      var r := ApplyLinks(next, op, links[1..]);
      assert forall k, p :: LinksTouch(links, k, p) <==>
          (links[0].Kind() == k && links[0].Row() == p) || LinksTouch(links[1..], k, p) by {
        forall k, p ensures LinksTouch(links, k, p) <==>
            (links[0].Kind() == k && links[0].Row() == p) || LinksTouch(links[1..], k, p) {
          if LinksTouch(links, k, p) {
            var i :| 0 <= i < |links| && links[i].Kind() == k && links[i].Row() == p;
            if i > 0 { assert links[1..][i - 1] == links[i]; }
          }
          if LinksTouch(links[1..], k, p) {
            var i :| 0 <= i < |links[1..]| && links[1..][i].Kind() == k && links[1..][i].Row() == p;
            assert links[i + 1] == links[1..][i];
          }
        }
      }
      assert forall k, p :: (p in next.Get(k)) == Effect(op, p in rels.Get(k), links[0].Kind() == k && links[0].Row() == p) by {
        forall k, p ensures (p in next.Get(k)) == Effect(op, p in rels.Get(k), links[0].Kind() == k && links[0].Row() == p) {
          assert p in next.Get(k) <==> p in Elems(next.Get(k));
          assert p in rels.Get(k) <==> p in Elems(rels.Get(k));
        }
      }
      r
  }

  /** Some grant of the batch touches pair `p` in relation `k`. */
  predicate GrantsTouch(grants: seq<Grant>, k: RelationKind, p: Pair) {
    exists i :: 0 <= i < |grants| && GrantRow(grants[i], k) == Some(p)
  }

  /** `AccessManager.add` / `.remove` called once per grant, in order. */
  function ApplyGrants(rels: Relations, op: Op, grants: seq<Grant>): (r: Relations)
    ensures forall k, p :: (p in r.Get(k)) == Effect(op, p in rels.Get(k), GrantsTouch(grants, k, p))
    ensures r.teamUsers == rels.teamUsers && r.collectionFiles == rels.collectionFiles
    ensures WellFormed(rels) ==> WellFormed(r)
    decreases |grants|
  {
    if grants == [] then rels
    else
      var next := AccessChange(rels, op, grants[0]);
      var r := ApplyGrants(next, op, grants[1..]);
      assert forall k, p :: GrantsTouch(grants, k, p) <==> GrantRow(grants[0], k) == Some(p) || GrantsTouch(grants[1..], k, p) by {
        forall k, p ensures GrantsTouch(grants, k, p) <==> GrantRow(grants[0], k) == Some(p) || GrantsTouch(grants[1..], k, p) {
          if GrantsTouch(grants, k, p) {
            var i :| 0 <= i < |grants| && GrantRow(grants[i], k) == Some(p);
            if i > 0 { assert grants[1..][i - 1] == grants[i]; }
          }
          if GrantsTouch(grants[1..], k, p) {
            var i :| 0 <= i < |grants[1..]| && GrantRow(grants[1..][i], k) == Some(p);
            assert grants[i + 1] == grants[1..][i];
          }
        }
      }
      assert forall k, p :: (p in next.Get(k)) == Effect(op, p in rels.Get(k), GrantRow(grants[0], k) == Some(p)) by {
        forall k, p ensures (p in next.Get(k)) == Effect(op, p in rels.Get(k), GrantRow(grants[0], k) == Some(p)) {
          assert p in next.Get(k) <==> p in Elems(next.Get(k));
          assert p in rels.Get(k) <==> p in Elems(rels.Get(k));
        }
      }
      r
  }

  /** The pairs x×y in `flatMap` order: each x with every y. */
  function CrossPairs(xs: seq<Id>, ys: seq<Id>): (r: Rows)
    ensures |r| == |xs| * |ys|
    ensures forall p :: p in r <==> p.key1 in xs && p.key2 in ys
  {
    var c := Cross(xs, ys);
    var r := Map((t: (Id, Id)) => Pair(t.0, t.1), c);
    assert forall p :: p in r <==> p.key1 in xs && p.key2 in ys by {
      forall p ensures p in r <==> p.key1 in xs && p.key2 in ys {
        if p.key1 in xs && p.key2 in ys {
          assert (p.key1, p.key2) in c;
          var i :| 0 <= i < |c| && c[i] == (p.key1, p.key2);
          assert r[i] == p;
        }
        if p in r {
          var i :| 0 <= i < |r| && r[i] == p;
          assert c[i] in c;
        }
      }
    }
    r
  }

  /** The pairs come in `flatMap` order: entry i·|ys| + j pairs `xs[i]`
      with `ys[j]`. */
  lemma CrossPairsOrder(xs: seq<Id>, ys: seq<Id>, i: nat, j: nat)
    requires i < |xs| && j < |ys|
    ensures i * |ys| + j < |CrossPairs(xs, ys)| && CrossPairs(xs, ys)[i * |ys| + j] == Pair(xs[i], ys[j])
  {
    var k := i * |ys| + j;
    CrossOrder(xs, ys, i, j);
    var c := Cross(xs, ys);
    assert CrossPairs(xs, ys)[k] == Pair(c[k].0, c[k].1);
  }
}

=== FILE: crypto.dfy ===
/** Encrypting and decrypting tracked files: the checks `cryptoOperationOnFile`
    makes before handing a file to the OpenPGP engine, the signature refresh
    after an encryption, and the bulk operations over every file a user can
    reach. The engine itself is the `crypt` parameter of `Env`. */
module Crypto {
  import opened Wrappers
  import opened Seqs
  import opened TablesBase
  import opened Tables
  import opened Views
  import opened Io
  import opened Encryption
  import opened Db
  import opened Managers

  /** `CryptoSingleInput`; `modified` defaults to false. */
  datatype CryptoInput = CryptoInput(path: string, email: string, password: string, modified: bool)

  /** Which reading of the `modified` guard to apply: the comparison as
      written, or the one its warning message describes. */
  datatype GuardSense = AsWritten | Intended

  /** Whether the `modified` guard refuses the file with "has not been
      modified". As written it refuses when the live signatures are missing
      or differ from the stored ones, i.e. exactly the modified files; the
      intended guard refuses the files whose signatures are in sync. */
  function GuardRefuses(sense: GuardSense, w: World, env: Env, f: FileRec): (r: bool)
    ensures var s := GetFileSignatures(w, env, f.id);
      sense.AsWritten? ==> (r <==> !(s.Some? && InSync(f, s.value)))
    ensures var s := GetFileSignatures(w, env, f.id);
      sense.Intended? ==> (r <==> s.Some? && InSync(f, s.value))
  {
    var s := GetFileSignatures(w, env, f.id);
    match sense
    case AsWritten => s.None? || f.contentsSignature != s.value.contents || f.accessSignature != s.value.access
    case Intended => s.Some? && InSync(f, s.value)
  }

  /** The keys that are present, in order (`filter((key) => key !== null)`). */
  function PresentKeys(keys: seq<Option<PublicKey>>): (r: seq<PublicKey>)
    ensures forall k :: k in r <==> Some(k) in keys
    ensures |r| <= |keys|
  {
    if keys == [] then []
    else
      var rest := PresentKeys(keys[1..]);
      assert forall k :: Some(k) in keys <==> Some(k) == keys[0] || Some(k) in keys[1..] by {
        assert keys == [keys[0]] + keys[1..];
      }
      if keys[0].Some? then [keys[0].value] + rest else rest
  }

  /** `getFilePublicKeys` without the nulls: the public keys of the users with
      access to the file, read through (and filling) the key cache. */
  function RecipientKeys(w: World, env: Env, fileId: Id): (r: (OpenPgp, seq<PublicKey>))
    ensures r.0.repo == w.pgp.repo
    ensures forall x :: KeysOf(r.0, w.disk, x, env.readKey) == KeysOf(w.pgp, w.disk, x, env.readKey)
    ensures forall k :: k in r.1 <==>
      exists u :: u in FindAllUsersIds(ViewRows(w.store.rels), fileId) && KeysOf(w.pgp, w.disk, u, env.readKey).publicKey == Some(k)
  {
    var ids := FindAllUsersIds(ViewRows(w.store.rels), fileId);
    var (pgp, keys) := PublicKeysOf(w.pgp, w.disk, ids, env.readKey);
    assert forall k :: Some(k) in keys <==>
      exists u :: u in ids && KeysOf(w.pgp, w.disk, u, env.readKey).publicKey == Some(k) by {
      forall k ensures Some(k) in keys <==> exists u :: u in ids && KeysOf(w.pgp, w.disk, u, env.readKey).publicKey == Some(k) {
        if Some(k) in keys {
          var i :| 0 <= i < |keys| && keys[i] == Some(k);
          assert ids[i] in ids;
        }
        if exists u :: u in ids && KeysOf(w.pgp, w.disk, u, env.readKey).publicKey == Some(k) {
          var u :| u in ids && KeysOf(w.pgp, w.disk, u, env.readKey).publicKey == Some(k);
          var i :| 0 <= i < |ids| && ids[i] == u;
          assert keys[i] == Some(k);
        }
      }
    }
    (pgp, PresentKeys(keys))
  }

  /** A file is encrypted to exactly the public keys of the users who can
      reach it and have one. */
  lemma RecipientsAreGrantees(w: World, env: Env, fileId: Id, k: PublicKey)
    ensures k in RecipientKeys(w, env, fileId).1 <==>
      exists u :: HasAccess(w.store.rels, fileId, u) && KeysOf(w.pgp, w.disk, u, env.readKey).publicKey == Some(k)
  {
    var ids := FindAllUsersIds(ViewRows(w.store.rels), fileId);
    forall u ensures u in ids <==> HasAccess(w.store.rels, fileId, u) {
      ResolvedUsersAreGrantees(w.store.rels, fileId, u);
    }
  }

  /** `cryptoOperationOnFile`. In order: the file (by repository-relative
      path) and the user (by email) must exist; with `modified` set the
      guard may refuse the file; the recipients' public keys are read; the
      operator's private key must be present; then the engine runs on the
      file. The database is never changed; the key cache may be. */
  function CryptoOperationOnFile(w: World, env: Env, sense: GuardSense, op: CryptoOp, input: CryptoInput)
    : (r: (World, Response<()>))
    ensures r.0.store == w.store && r.0.pgp.repo == w.pgp.repo
    ensures GetByPath(w.store.files, env.normalise(input.path)).None? ==>
      r == (w, Error(NotFound(FileKind, env.normalise(input.path))))
    ensures GetByPath(w.store.files, env.normalise(input.path)).Some? && GetByEmail(w.store.users, input.email).None? ==>
      r == (w, Error(NotFound(UserKind, input.email)))
    ensures var file := GetByPath(w.store.files, env.normalise(input.path));
      file.Some? && GetByEmail(w.store.users, input.email).Some? && input.modified && GuardRefuses(sense, w, env, file.value) ==>
      r == (w, Warning(NotModified(env.normalise(input.path))))
    ensures var file := GetByPath(w.store.files, env.normalise(input.path));
      var user := GetByEmail(w.store.users, input.email);
      file.Some? && user.Some? && !(input.modified && GuardRefuses(sense, w, env, file.value)) ==>
      var (pgp, recipients) := RecipientKeys(w, env, file.value.id);
      var priv := KeysOf(w.pgp, w.disk, user.value.id, env.readKey).armoredPrivateKey;
      && r.0.pgp == GetUserKeys(pgp, w.disk, user.value.id, env.readKey).0
      && (!Present(priv) ==> r.0.disk == w.disk && r.1 == Error(MissingPrivateKey(OpName(op), user.value.email)))
      && (Present(priv) ==>
            (r.0.disk, r.1) == env.crypt(op, Payload(file.value.path, input.password, recipients, priv.value), w.disk))
  {
    var relativePath := env.normalise(input.path);
    var file := GetByPath(w.store.files, relativePath);
    var user := GetByEmail(w.store.users, input.email);
    if file.None? then (w, Error(NotFound(FileKind, relativePath)))
    else if user.None? then (w, Error(NotFound(UserKind, input.email)))
    else if input.modified && GuardRefuses(sense, w, env, file.value) then (w, Warning(NotModified(relativePath)))
    else
      var (pgp1, recipients) := RecipientKeys(w, env, file.value.id);
      var (pgp2, keys) := GetUserKeys(pgp1, w.disk, user.value.id, env.readKey);
      if !Present(keys.armoredPrivateKey) then (w.(pgp := pgp2), Error(MissingPrivateKey(OpName(op), user.value.email)))
      else
        var payload := Payload(file.value.path, input.password, recipients, keys.armoredPrivateKey.value);
        var (disk, response) := env.crypt(op, payload, w.disk);
        (World(w.store, disk, pgp2), response)
  }

  /** As written, the `modified` flag refuses every file that was modified
      since its signatures were stored. */
  lemma GuardAsWrittenRefusesModified(w: World, env: Env, op: CryptoOp, input: CryptoInput)
    requires input.modified
    requires GetByPath(w.store.files, env.normalise(input.path)).Some?
    requires GetByEmail(w.store.users, input.email).Some?
    requires Stale(w, env, GetByPath(w.store.files, env.normalise(input.path)).value)
    ensures CryptoOperationOnFile(w, env, AsWritten, op, input).1 == Warning(NotModified(env.normalise(input.path)))
  {
  }

  /** The intended guard refuses a file exactly when it is not modified:
      a modified file always goes through to the key checks. */
  lemma GuardIntendedRefusesExactlyUnmodified(w: World, env: Env, f: FileRec)
    requires f in w.store.files
    ensures GuardRefuses(Intended, w, env, f) <==> !Stale(w, env, f)
    ensures GuardRefuses(AsWritten, w, env, f) <==> Stale(w, env, f)
  {
    assert GetFileSignatures(w, env, f.id).Some?;
  }

  /** With the intended guard a modified file is handled exactly as if the
      flag were off. */
  lemma GuardIntendedPassesModified(w: World, env: Env, op: CryptoOp, input: CryptoInput)
    requires GetByPath(w.store.files, env.normalise(input.path)).Some?
    requires Stale(w, env, GetByPath(w.store.files, env.normalise(input.path)).value)
    ensures CryptoOperationOnFile(w, env, Intended, op, input) == CryptoOperationOnFile(w, env, Intended, op, input.(modified := false))
  {
  }

  /** `encryptFile`: after a successful encryption the file's row, found
      again by its repository-relative path, gets its signatures refreshed. */
  function EncryptFile(w: World, env: Env, sense: GuardSense, input: CryptoInput): (r: (World, Response<()>))
    ensures var (w1, response) := CryptoOperationOnFile(w, env, sense, Encrypt, input);
      && r.1 == response && r.0.disk == w1.disk && r.0.pgp == w1.pgp
      && (!response.Success? ==> r.0 == w1)
    ensures r.0.store == w.store.(files := r.0.store.files)
    ensures |r.0.store.files| == |w.store.files|
    ensures forall i :: 0 <= i < |w.store.files| ==>
              r.0.store.files[i].id == w.store.files[i].id && r.0.store.files[i].path == w.store.files[i].path
    ensures UniqueFileIds(w.store.files) && r.1.Success? ==>
      var file := GetByPath(w.store.files, env.normalise(input.path));
      file.Some? && Fresh(r.0, env, file.value.id)
  {
    var (w1, response) := CryptoOperationOnFile(w, env, sense, Encrypt, input);
    if !response.Success? then (w1, response)
    else match GetByPath(w1.store.files, env.normalise(input.path))
      case None => (w1, response)
      case Some(file) =>
        if UniqueFileIds(w1.store.files) then
          RefreshedFileInSync(w1, env, file.id);
          (w1.(store := UpdateFileSignatures(w1, env, file.id)), response)
        else (w1.(store := UpdateFileSignatures(w1, env, file.id)), response)
  }

  /** `encryptFile` as written: the row is looked up again by the path as the
      caller gave it, not by its repository-relative form. */
  function EncryptFileAsWritten(w: World, env: Env, sense: GuardSense, input: CryptoInput): (r: (World, Response<()>))
    ensures var (w1, response) := CryptoOperationOnFile(w, env, sense, Encrypt, input);
      r.1 == response && r.0.disk == w1.disk && r.0.pgp == w1.pgp
    ensures GetByPath(w.store.files, input.path).None? ==> r == CryptoOperationOnFile(w, env, sense, Encrypt, input)
  {
    var (w1, response) := CryptoOperationOnFile(w, env, sense, Encrypt, input);
    if !response.Success? then (w1, response)
    else match GetByPath(w1.store.files, input.path)
      case None => (w1, response)
      case Some(file) => (w1.(store := UpdateFileSignatures(w1, env, file.id)), response)
  }

  /** When the caller's path is not already repository-relative (`./app.env`
      for `app.env`), a successful encryption as written leaves the row's
      signatures stale whenever the engine's write made them so, while the
      corrected lookup refreshes them. */
  lemma EncryptFileAsWrittenMissesRefresh(w: World, env: Env, sense: GuardSense, input: CryptoInput)
    requires UniqueFileIds(w.store.files)
    requires GetByPath(w.store.files, input.path).None?
    requires GetByPath(w.store.files, env.normalise(input.path)).Some?
    requires CryptoOperationOnFile(w, env, sense, Encrypt, input).1.Success?
    requires Stale(CryptoOperationOnFile(w, env, sense, Encrypt, input).0, env, GetByPath(w.store.files, env.normalise(input.path)).value)
    ensures var file := GetByPath(w.store.files, env.normalise(input.path)).value;
      && !Fresh(EncryptFileAsWritten(w, env, sense, input).0, env, file.id)
      && Fresh(EncryptFile(w, env, sense, input).0, env, file.id)
  {
  }

  /** `decryptFile`: the crypto operation alone; the database, signatures
      included, is left as it was, and only a tracked file decrypted by a
      known user can succeed. */
  function DecryptFile(w: World, env: Env, sense: GuardSense, input: CryptoInput): (r: (World, Response<()>))
    ensures r.0.store == w.store && r.0.pgp.repo == w.pgp.repo
    ensures r.1.Success? ==> GetByPath(w.store.files, env.normalise(input.path)).Some?
                             && GetByEmail(w.store.users, input.email).Some?
  {
    CryptoOperationOnFile(w, env, sense, Decrypt, input)
  }

  // ---------------------------------------------------------------------
  // Bulk operations

  /** The rows `findOne` yields for `ids`, skipping ids with no row. */
  function RowsOf(files: seq<FileRec>, ids: seq<Id>): (r: seq<FileRec>)
    ensures forall f :: f in r ==> f in files && f.id in ids
    ensures forall i :: 0 <= i < |ids| && FindFile(files, ids[i]).Some? ==> FindFile(files, ids[i]).value in r
  {
    if ids == [] then []
    else
      var rest := RowsOf(files, ids[1..]);
      assert forall i :: 1 <= i < |ids| ==> ids[i] == ids[1..][i - 1];
      match FindFile(files, ids[0])
      case None => rest
      case Some(f) => [f] + rest
  }

  /** The files `findAllFilesIds(email)` resolves to: every tracked file the
      user with that email can reach, in id order; none for an unknown email. */
  function ReachableFiles(store: Store, email: string): (r: seq<FileRec>)
    ensures GetByEmail(store.users, email).None? ==> r == []
    ensures forall f :: f in r ==> f in store.files
    ensures GetByEmail(store.users, email).Some? ==> forall f :: f in r ==> f.id in FindAllFileIds(ViewRows(store.rels), GetByEmail(store.users, email).value.id)
  {
    match GetByEmail(store.users, email)
    case None => []
    case Some(user) => RowsOf(store.files, FindAllFileIds(ViewRows(store.rels), user.id))
  }

  /** A tracked file is among the reachable ones exactly when the user can
      reach it through one of the four grant paths. */
  lemma ReachableFilesAreGranted(store: Store, email: string, f: FileRec)
    requires GetByEmail(store.users, email).Some?
    requires UniqueFileIds(store.files) && f in store.files
    ensures f in ReachableFiles(store, email) <==> HasAccess(store.rels, f.id, GetByEmail(store.users, email).value.id)
  {
    var u := GetByEmail(store.users, email).value.id;
    ViewRowsMatchGrantPaths(store.rels, f.id, u);
    var i :| 0 <= i < |store.files| && store.files[i] == f;
    FindFileByOwnId(store.files, i);
    var ids := FindAllFileIds(ViewRows(store.rels), u);
    if f.id in ids {
      var j :| 0 <= j < |ids| && ids[j] == f.id;
    }
  }

  /** The files `encryptAll` encrypts: the reachable ones, and with
      `modified` set only those whose live signatures differ from the
      stored ones. */
  function SelectedForEncryption(w: World, env: Env, email: string, modified: bool): (r: seq<FileRec>)
    ensures forall f :: f in r <==> f in ReachableFiles(w.store, email) && (modified ==> Stale(w, env, f))
  {
    var files := ReachableFiles(w.store, email);
    if modified then Filter((f: FileRec) => Stale(w, env, f), files) else files
  }

  /** `encryptAll`: `encryptFile` on each selected file, by its stored path,
      without the `modified` flag. The per-file calls are run one after the
      other in list order. Only signature columns of tracked files change.
      Each call goes through the corrected `EncryptFile`, which refreshes the
      row its normalised path finds. The source (src/managers.ts:495, then
      :415) refreshes the row its stored path finds, that is the file's own
      row; the two differ when normalising a stored path changes it, as when
      the command runs from a subdirectory of the repository. */
  method EncryptAll(w: World, env: Env, email: string, password: string, modified: bool)
    returns (r: World, responses: seq<Response<()>>)
    ensures |responses| == |SelectedForEncryption(w, env, email, modified)|
    ensures r.store == w.store.(files := r.store.files)
    ensures |r.store.files| == |w.store.files|
    ensures forall i :: 0 <= i < |w.store.files| ==>
              r.store.files[i].id == w.store.files[i].id && r.store.files[i].path == w.store.files[i].path
  {
    var files := SelectedForEncryption(w, env, email, modified);
    r := w;
    responses := [];
    var i := 0;
    while i < |files|
      invariant 0 <= i <= |files|
      invariant |responses| == i
      invariant r.store == w.store.(files := r.store.files)
      invariant |r.store.files| == |w.store.files|
      invariant forall j :: 0 <= j < |w.store.files| ==>
                  r.store.files[j].id == w.store.files[j].id && r.store.files[j].path == w.store.files[j].path
    {
      var (next, response) := EncryptFile(r, env, Intended, CryptoInput(files[i].path, email, password, false));
      r := next;
      responses := responses + [response];
      i := i + 1;
    }
  }

  /** `decryptAll`: `decryptFile` on every reachable file, one after the
      other; the database is never changed. */
  method DecryptAll(w: World, env: Env, email: string, password: string)
    returns (r: World, responses: seq<Response<()>>)
    ensures |responses| == |ReachableFiles(w.store, email)|
    ensures r.store == w.store
    ensures r.pgp.repo == w.pgp.repo
  {
    var files := ReachableFiles(w.store, email);
    r := w;
    responses := [];
    var i := 0;
    while i < |files|
      invariant 0 <= i <= |files|
      invariant |responses| == i
      invariant r.store == w.store
      invariant r.pgp.repo == w.pgp.repo
    {
      var (next, response) := DecryptFile(r, env, Intended, CryptoInput(files[i].path, email, password, false));
      r := next;
      responses := responses + [response];
      i := i + 1;
    }
  }
}

=== FILE: db.dfy ===
/** The database as one immutable record: the four entity tables and the
    six relations. */
module Db {
  import opened Tables
  import opened Relations

  datatype Store = Store(users: seq<User>, teams: seq<Team>, collections: seq<Collection>, files: seq<FileRec>,
                         rels: Relations)

  /** The unique indexes hold and every relation is duplicate-free. */
  predicate Consistent(s: Store) {
    && UniqueEmails(s.users)
    && UniqueTeamNames(s.teams)
    && UniqueCollectionNames(s.collections)
    && UniquePaths(s.files)
    && UniqueFileIds(s.files)
    && WellFormed(s.rels)
  }
}

=== FILE: encryption.dfy ===
/** Key persistence and the in-process key cache of the OpenPGP wrapper.

    Each user's keys live in two files under the keys directory: the armored
    public key and the armored (passphrase-protected) private key. The
    wrapper caches, per user id, the pair it last created or read; a read
    caches whatever it found, absent halves included, and removing a user's
    key files does not touch the cache.

    Key generation and un-armoring (`openpgp.generateKey`, `openpgp.readKey`)
    are parameters: the generated armored texts and a function from armored
    text to key. */
module Encryption {
  import opened Wrappers
  import opened Io

  datatype PublicKey = PublicKey(armored: string)

  /** A user's keys as the wrapper returns them: either half may be missing. */
  datatype KeyPair = KeyPair(publicKey: Option<PublicKey>, armoredPrivateKey: Option<string>)

  /** What `generateKey` produced for one call. */
  datatype GeneratedKeys = GeneratedKeys(armoredPublic: string, armoredPrivate: string)

  /** The wrapper: the repository it keeps keys for and its cache. */
  datatype OpenPgp = OpenPgp(repo: string, cache: map<string, KeyPair>)

  /** Neither of the user's key paths is a directory: the case in which
      `existsSync` followed by `readFileSync` or `unlink` does not throw. */
  predicate KeyPathsNotDirs(disk: Disk, repo: string, userId: string) {
    PublicKeyPath(repo, userId) !in disk.dirs && PrivateKeyPath(repo, userId) !in disk.dirs
  }

  /** The pair a cold read finds on disk: each half present iff its file is.
      Where no key path is a directory, that is the `existsSync` test. */
  function ReadKeys(disk: Disk, repo: string, userId: string, readKey: string -> PublicKey): (r: KeyPair)
    ensures r.publicKey.Some? <==> PublicKeyPath(repo, userId) in disk.files
    ensures r.armoredPrivateKey.Some? <==> PrivateKeyPath(repo, userId) in disk.files
    ensures KeyPathsNotDirs(disk, repo, userId) ==>
              && (r.publicKey.Some? <==> Exists(disk, PublicKeyPath(repo, userId)))
              && (r.armoredPrivateKey.Some? <==> Exists(disk, PrivateKeyPath(repo, userId)))
    ensures r.publicKey.Some? ==> r.publicKey.value == readKey(disk.files[PublicKeyPath(repo, userId)])
    ensures r.armoredPrivateKey.Some? ==> r.armoredPrivateKey.value == disk.files[PrivateKeyPath(repo, userId)]
  {
    var pub := PublicKeyPath(repo, userId);
    var priv := PrivateKeyPath(repo, userId);
    KeyPair(if pub in disk.files then Some(readKey(disk.files[pub])) else None,
            if priv in disk.files then Some(disk.files[priv]) else None)
  }

  /** The pair `getUserKeys` answers with: the cached one, else a cold read. */
  function KeysOf(pgp: OpenPgp, disk: Disk, userId: string, readKey: string -> PublicKey): (r: KeyPair)
    ensures userId in pgp.cache ==> r == pgp.cache[userId]
    ensures userId !in pgp.cache ==> r == ReadKeys(disk, pgp.repo, userId, readKey)
  {
    if userId in pgp.cache then pgp.cache[userId] else ReadKeys(disk, pgp.repo, userId, readKey)
  }

  /** `createKeyPair`: writes both halves, then caches the new pair,
      replacing any earlier keys of that user. */
  function CreateKeyPair(pgp: OpenPgp, disk: Disk, userId: string, generated: GeneratedKeys,
                         readKey: string -> PublicKey): (r: (OpenPgp, Disk))
    ensures PublicKeyPath(pgp.repo, userId) in r.1.files
            && r.1.files[PublicKeyPath(pgp.repo, userId)] == generated.armoredPublic
    ensures PrivateKeyPath(pgp.repo, userId) in r.1.files
            && r.1.files[PrivateKeyPath(pgp.repo, userId)] == generated.armoredPrivate
    ensures forall p :: p in disk.files && p != PublicKeyPath(pgp.repo, userId) && p != PrivateKeyPath(pgp.repo, userId)
                        ==> p in r.1.files && r.1.files[p] == disk.files[p]
    ensures r.1.dirs == disk.dirs
    ensures r.0.repo == pgp.repo
    ensures r.0.cache == pgp.cache[userId := KeyPair(Some(readKey(generated.armoredPublic)), Some(generated.armoredPrivate))]
  {
    KeyPathsNeverCollide(pgp.repo, userId, userId);
    var files := disk.files[PublicKeyPath(pgp.repo, userId) := generated.armoredPublic]
                           [PrivateKeyPath(pgp.repo, userId) := generated.armoredPrivate];
    var pair := KeyPair(Some(readKey(generated.armoredPublic)), Some(generated.armoredPrivate));
    (pgp.(cache := pgp.cache[userId := pair]), disk.(files := files))
  }

  /** `getUserKeys`: a cached id answers from the cache and changes nothing;
      otherwise the pair read from disk is returned and cached, absent halves
      included. */
  function GetUserKeys(pgp: OpenPgp, disk: Disk, userId: string, readKey: string -> PublicKey): (r: (OpenPgp, KeyPair))
    ensures userId in pgp.cache ==> r == (pgp, pgp.cache[userId])
    ensures userId !in pgp.cache ==> r.1 == ReadKeys(disk, pgp.repo, userId, readKey)
    ensures r.0 == pgp.(cache := pgp.cache[userId := r.1])
  {
    if userId in pgp.cache then (pgp, pgp.cache[userId])
    else
      var keys := ReadKeys(disk, pgp.repo, userId, readKey);
      (pgp.(cache := pgp.cache[userId := keys]), keys)
  }

  /** `removeUserKeys`: deletes whichever key files exist; the cache is not
      part of its input, so it stays as it was. */
  function RemoveUserKeys(disk: Disk, repo: string, userId: string): (r: Disk)
    ensures PublicKeyPath(repo, userId) !in r.files && PrivateKeyPath(repo, userId) !in r.files
    ensures forall p :: p in disk.files && p != PublicKeyPath(repo, userId) && p != PrivateKeyPath(repo, userId)
                        ==> p in r.files && r.files[p] == disk.files[p]
    ensures forall p :: p in r.files ==> p in disk.files
    ensures r.dirs == disk.dirs
    ensures KeyPathsNotDirs(disk, repo, userId) ==>
              !Exists(r, PublicKeyPath(repo, userId)) && !Exists(r, PrivateKeyPath(repo, userId))
  {
    var pub := PublicKeyPath(repo, userId);
    var priv := PrivateKeyPath(repo, userId);
    var afterPublic := if pub in disk.files then disk.files - {pub} else disk.files;
    var afterPrivate := if priv in afterPublic then afterPublic - {priv} else afterPublic;
    disk.(files := afterPrivate)
  }

  /** Reading keys only fills the cache with what it would have answered
      anyway: the answer for every id is unchanged. */
  lemma GetUserKeysCoherent(pgp: OpenPgp, disk: Disk, userId: string, other: string, readKey: string -> PublicKey)
    ensures KeysOf(GetUserKeys(pgp, disk, userId, readKey).0, disk, other, readKey) == KeysOf(pgp, disk, other, readKey)
  {
  }

  /** A second read answers like the first and leaves the wrapper as it was. */
  lemma GetUserKeysStable(pgp: OpenPgp, disk: Disk, userId: string, readKey: string -> PublicKey)
    ensures var (pgp1, keys1) := GetUserKeys(pgp, disk, userId, readKey);
            GetUserKeys(pgp1, disk, userId, readKey) == (pgp1, keys1)
  {
  }

  /** Create then read in the same process answers the new pair. */
  lemma CreateThenGet(pgp: OpenPgp, disk: Disk, userId: string, generated: GeneratedKeys, readKey: string -> PublicKey)
    ensures var (pgp1, disk1) := CreateKeyPair(pgp, disk, userId, generated, readKey);
            GetUserKeys(pgp1, disk1, userId, readKey).1
              == KeyPair(Some(readKey(generated.armoredPublic)), Some(generated.armoredPrivate))
  {
  }

  /** Create then read with a cache that lacks the user (a later process)
      finds the same pair on disk: the two writes do not clobber each other. */
  lemma CreateThenColdRead(pgp: OpenPgp, disk: Disk, userId: string, generated: GeneratedKeys,
                           readKey: string -> PublicKey, later: map<string, KeyPair>)
    requires userId !in later
    ensures var (pgp1, disk1) := CreateKeyPair(pgp, disk, userId, generated, readKey);
            GetUserKeys(OpenPgp(pgp.repo, later), disk1, userId, readKey).1
              == KeyPair(Some(readKey(generated.armoredPublic)), Some(generated.armoredPrivate))
  {
  }

  /** Removing twice is removing once. */
  lemma RemoveUserKeysIdempotent(disk: Disk, repo: string, userId: string)
    ensures RemoveUserKeys(RemoveUserKeys(disk, repo, userId), repo, userId) == RemoveUserKeys(disk, repo, userId)
  {
    var once := RemoveUserKeys(disk, repo, userId);
    var twice := RemoveUserKeys(once, repo, userId);
    assert twice.files == once.files;
  }

  /** Removal does not invalidate the cache: a user whose keys were cached
      still gets the old pair after the files are gone ... */
  lemma RemovedKeysStillCached(pgp: OpenPgp, disk: Disk, userId: string, readKey: string -> PublicKey)
    requires userId in pgp.cache
    ensures GetUserKeys(pgp, RemoveUserKeys(disk, pgp.repo, userId), userId, readKey).1 == pgp.cache[userId]
  {
  }

  /** ... while a cold read after removal finds neither half. */
  lemma RemovedKeysColdRead(pgp: OpenPgp, disk: Disk, userId: string, readKey: string -> PublicKey)
    requires userId !in pgp.cache
    ensures GetUserKeys(pgp, RemoveUserKeys(disk, pgp.repo, userId), userId, readKey).1 == KeyPair(None, None)
  {
  }

  /** The public keys `getUserKeys` answers for `ids`, in order, threading the
      cache through the reads. */
  function PublicKeysOf(pgp: OpenPgp, disk: Disk, ids: seq<string>, readKey: string -> PublicKey)
    : (r: (OpenPgp, seq<Option<PublicKey>>))
    ensures |r.1| == |ids|
    ensures forall i :: 0 <= i < |ids| ==> r.1[i] == KeysOf(pgp, disk, ids[i], readKey).publicKey
    ensures r.0.repo == pgp.repo
    ensures forall x :: KeysOf(r.0, disk, x, readKey) == KeysOf(pgp, disk, x, readKey)
    decreases |ids|
  {
    if ids == [] then (pgp, [])
    else
      var (pgp1, keys) := GetUserKeys(pgp, disk, ids[0], readKey);
      GetUserKeysCoherentAll(pgp, disk, ids[0], readKey);
      var (pgp2, rest) := PublicKeysOf(pgp1, disk, ids[1..], readKey);
      (pgp2, [keys.publicKey] + rest)
  }

  lemma GetUserKeysCoherentAll(pgp: OpenPgp, disk: Disk, userId: string, readKey: string -> PublicKey)
    ensures forall x :: KeysOf(GetUserKeys(pgp, disk, userId, readKey).0, disk, x, readKey) == KeysOf(pgp, disk, x, readKey)
  {
    forall x ensures KeysOf(GetUserKeys(pgp, disk, userId, readKey).0, disk, x, readKey) == KeysOf(pgp, disk, x, readKey) {
      GetUserKeysCoherent(pgp, disk, userId, x, readKey);
    }
  }
}

=== FILE: io.dfy ===
/** The tool's view of the file system: where it keeps its own state inside
    a repository, and the content signature of a tracked file.

    The disk is a map from absolute path to text contents plus a set of
    directories. `Resolve(dir, name)` is `dir + "/" + name`; `PathResolve`
    is POSIX `path.resolve`, and the two agree when `dir` is a normalised
    absolute path and `name` a relative path of plain segments
    (`ResolveAgreesWithPathResolve`). The hash (SHA-256 rendered in hex) is
    a parameter and is never assumed injective. */
module Io {
  import opened Strings

  /** A SHA-256 hex digest is never empty. */
  type Digest = s: string | s != "" witness "0"

  datatype Disk = Disk(files: map<string, string>, dirs: set<string>)

  /** `fs.existsSync`: a file or a directory at that path. */
  predicate Exists(disk: Disk, path: string) {
    path in disk.files || path in disk.dirs
  }

  const GitSecretsDir: string := ".gitsecrets"
  const DataDir: string := "data"
  const KeysDir: string := "keys"
  const DataSignaturesFilename: string := "signatures.json"
  const SettingsFilename: string := "settings.json"
  const LocalSettingsFilename: string := "local.settings.json"
  const DbFilename: string := "data.db"
  const PublicSuffix: string := ".public"
  const PrivateSuffix: string := ".private"

  function Resolve(dir: string, name: string): string {
    dir + "/" + name
  }

  /** The directories and files under a repository root. */
  datatype Layout = Layout(repo: string, gitsecrets: string, keys: string, data: string,
                           settings: string, localSettings: string, db: string, dataSignatures: string)

  function LayoutOf(repo: string): Layout {
    var gs := Resolve(repo, GitSecretsDir);
    var data := Resolve(gs, DataDir);
    Layout(repo, gs, Resolve(gs, KeysDir), data, Resolve(gs, SettingsFilename), Resolve(gs, LocalSettingsFilename),
           Resolve(gs, DbFilename), Resolve(data, DataSignaturesFilename))
  }

  /** `files.publicKey(userId)`. */
  function PublicKeyPath(repo: string, userId: string): (r: string)
    ensures var dir := LayoutOf(repo).keys + "/";
      && |r| == |dir| + |userId| + |PublicSuffix|
      && r[..|dir|] == dir && r[|dir|..|dir| + |userId|] == userId && r[|dir| + |userId|..] == PublicSuffix
  {
    Resolve(LayoutOf(repo).keys, userId + PublicSuffix)
  }

  /** `files.privateKey(userId)`. */
  function PrivateKeyPath(repo: string, userId: string): (r: string)
    ensures var dir := LayoutOf(repo).keys + "/";
      && |r| == |dir| + |userId| + |PrivateSuffix|
      && r[..|dir|] == dir && r[|dir|..|dir| + |userId|] == userId && r[|dir| + |userId|..] == PrivateSuffix
  {
    Resolve(LayoutOf(repo).keys, userId + PrivateSuffix)
  }

  /** The keys and data directories are distinct children of `<repo>/.gitsecrets`. */
  lemma StateDirsUnderGitSecrets(repo: string)
    ensures var l := LayoutOf(repo);
      && l.gitsecrets == repo + "/" + GitSecretsDir
      && l.keys == l.gitsecrets + "/" + KeysDir
      && l.data == l.gitsecrets + "/" + DataDir
      && l.keys != l.data
  {
    var l := LayoutOf(repo);
    assert l.keys[|l.gitsecrets| + 1] == 'k';
    assert l.data[|l.gitsecrets| + 1] == 'd';
  }

  /** A public-key path is never a private-key path, whatever the two ids. */
  lemma {:induction false} KeyPathsNeverCollide(repo: string, a: string, b: string)
    ensures PublicKeyPath(repo, a) != PrivateKeyPath(repo, b)
  {
    var p := PublicKeyPath(repo, a);
    var q := PrivateKeyPath(repo, b);
    assert p[|p| - 1] == 'c';
    assert q[|q| - 1] == 'e';
  }

  /** The two key paths of one user share everything before the suffix. */
  lemma KeyPathsDifferOnlyInSuffix(repo: string, userId: string)
    ensures var stem := LayoutOf(repo).keys + "/" + userId;
      PublicKeyPath(repo, userId) == stem + PublicSuffix && PrivateKeyPath(repo, userId) == stem + PrivateSuffix
  {
  }

  /** Distinct users have distinct key files. */
  lemma {:induction false} KeyPathsInjective(repo: string, a: string, b: string)
    ensures PublicKeyPath(repo, a) == PublicKeyPath(repo, b) ==> a == b
    ensures PrivateKeyPath(repo, a) == PrivateKeyPath(repo, b) ==> a == b
  {
    var n := |LayoutOf(repo).keys + "/"|;
    var p, q := PublicKeyPath(repo, a), PublicKeyPath(repo, b);
    if p == q {
      assert |a| == |b|;
      assert a == p[n..n + |a|] == q[n..n + |b|] == b;
    }
    var p', q' := PrivateKeyPath(repo, a), PrivateKeyPath(repo, b);
    if p' == q' {
      assert |a| == |b|;
      assert a == p'[n..n + |a|] == q'[n..n + |b|] == b;
    }
  }

  /** `isInitialized`: checks, in order, the tool directory, the keys
      directory, the settings, the local settings and the database. */
  function IsInitialized(disk: Disk, repo: string): (r: bool)
    ensures var l := LayoutOf(repo);
      r <==> forall p :: p in [l.gitsecrets, l.keys, l.settings, l.localSettings, l.db] ==> Exists(disk, p)
  {
    var l := LayoutOf(repo);
    if !Exists(disk, l.gitsecrets) then false
    else if !Exists(disk, l.keys) then false
    else if !Exists(disk, l.settings) then false
    else if !Exists(disk, l.localSettings) then false
    else if !Exists(disk, l.db) then false
    else true
  }

  /** What `getSignature` hashes: the file's text, or "" when there is no
      file at the path (a directory there also gives ""). */
  function SignedText(disk: Disk, repo: string, relativePath: string): (r: string)
    ensures Resolve(repo, relativePath) in disk.files ==> r == disk.files[Resolve(repo, relativePath)]
    ensures !Exists(disk, Resolve(repo, relativePath)) ==> r == ""
    ensures Resolve(repo, relativePath) in disk.dirs && Resolve(repo, relativePath) !in disk.files ==> r == ""
  {
    var p := Resolve(repo, relativePath);
    if p in disk.files then disk.files[p] else ""
  }

  /** `getSignature(relativePath)`. */
  function ContentSignature(disk: Disk, repo: string, relativePath: string, hash: string -> Digest): (r: Digest)
    ensures Resolve(repo, relativePath) in disk.files ==> r == hash(disk.files[Resolve(repo, relativePath)])
    ensures Resolve(repo, relativePath) !in disk.files ==> r == hash("")
  {
    hash(SignedText(disk, repo, relativePath))
  }

  /** A missing file and an empty file sign identically. */
  lemma MissingSignsLikeEmpty(disk: Disk, repo: string, relativePath: string, hash: string -> Digest)
    requires Resolve(repo, relativePath) !in disk.files
    ensures ContentSignature(disk, repo, relativePath, hash)
         == ContentSignature(disk.(files := disk.files[Resolve(repo, relativePath) := ""]), repo, relativePath, hash)
  {
  }

  /** The signature reads nothing but the file's contents: two disks that
      agree on that file give the same signature. */
  lemma SignatureDependsOnlyOnContents(d1: Disk, d2: Disk, repo: string, relativePath: string, hash: string -> Digest)
    requires SignedText(d1, repo, relativePath) == SignedText(d2, repo, relativePath)
    ensures ContentSignature(d1, repo, relativePath, hash) == ContentSignature(d2, repo, relativePath, hash)
  {
  }

  // ---------------------------------------------------------------------
  // path.resolve

  /** A segment `path.resolve` keeps as it is: not empty, not `.` or `..`,
      and without `/`. */
  predicate PlainSegment(s: string) {
    s != "" && s != "." && s != ".." && '/' !in s
  }

  predicate AllPlain(segs: seq<string>) {
    forall i :: 0 <= i < |segs| ==> PlainSegment(segs[i])
  }

  /** The absolute path with the given segments. */
  function AbsolutePath(segs: seq<string>): string {
    "/" + Join(segs, "/")
  }

  /** The segment walk of `path.resolve`: empty and `.` segments are
      skipped, `..` drops the last kept segment (nothing at the root), and
      any other segment is kept. */
  function NormalSegments(segs: seq<string>, kept: seq<string>): seq<string>
    decreases |segs|
  {
    if segs == [] then kept
    else if segs[0] == "" || segs[0] == "." then NormalSegments(segs[1..], kept)
    else if segs[0] == ".." then NormalSegments(segs[1..], if kept == [] then [] else kept[..|kept| - 1])
    else NormalSegments(segs[1..], kept + [segs[0]])
  }

  /** POSIX `path.resolve(dir, name)` for an absolute `dir`: an absolute
      `name` replaces `dir`, and the result is normalised. */
  function PathResolve(dir: string, name: string): string {
    var joined := if |name| > 0 && name[0] == '/' then name else dir + "/" + name;
    AbsolutePath(NormalSegments(Split(joined, '/'), []))
  }

  lemma {:induction false} SplitWithoutSeparator(a: string, c: char)
    requires c !in a
    ensures Split(a, c) == [a]
  {
    if |a| > 0 {
      SplitWithoutSeparator(a[1..], c);
      assert a == [a[0]] + a[1..];
    }
  }

  lemma {:induction false} SplitAfterPiece(a: string, c: char, rest: string)
    requires c !in a
    ensures Split(a + [c] + rest, c) == [a] + Split(rest, c)
  {
    if |a| == 0 {
      assert (a + [c] + rest)[1..] == rest;
    } else {
      SplitAfterPiece(a[1..], c, rest);
      assert (a + [c] + rest)[1..] == a[1..] + [c] + rest;
      assert [a[0]] + a[1..] == a;
    }
  }

  /** Splitting pieces joined with a separator none of them holds gives the
      pieces back. */
  lemma {:induction false} SplitJoinedPieces(xs: seq<string>)
    requires |xs| >= 1 && forall i :: 0 <= i < |xs| ==> '/' !in xs[i]
    ensures Split(Join(xs, "/"), '/') == xs
  {
    if |xs| == 1 {
      SplitWithoutSeparator(xs[0], '/');
    } else {
      SplitJoinedPieces(xs[1..]);
      SplitAfterPiece(xs[0], '/', Join(xs[1..], "/"));
      assert Join(xs, "/") == xs[0] + ['/'] + Join(xs[1..], "/");
      assert [xs[0]] + xs[1..] == xs;
    }
  }

  lemma {:induction false} JoinAppend(xs: seq<string>, ys: seq<string>, sep: string)
    requires |xs| >= 1 && |ys| >= 1
    ensures Join(xs + ys, sep) == Join(xs, sep) + sep + Join(ys, sep)
  {
    if |xs| > 1 {
      JoinAppend(xs[1..], ys, sep);
      assert (xs + ys)[1..] == xs[1..] + ys;
    }
  }

  /** Plain segments are kept one by one. */
  lemma {:induction false} NormalPlain(segs: seq<string>, kept: seq<string>)
    requires AllPlain(segs)
    ensures NormalSegments(segs, kept) == kept + segs
    decreases |segs|
  {
    if segs != [] {
      NormalPlain(segs[1..], kept + [segs[0]]);
      assert kept + [segs[0]] + segs[1..] == kept + segs;
    }
  }

  /** The walk over two lists of segments is the walk over the second from
      where the first left off. */
  lemma {:induction false} NormalAppend(xs: seq<string>, ys: seq<string>, kept: seq<string>)
    ensures NormalSegments(xs + ys, kept) == NormalSegments(ys, NormalSegments(xs, kept))
    decreases |xs|
  {
    if xs == [] {
      assert xs + ys == ys;
    } else {
      assert (xs + ys)[0] == xs[0] && (xs + ys)[1..] == xs[1..] + ys;
      var next := if xs[0] == "" || xs[0] == "." then kept
                  else if xs[0] == ".." then (if kept == [] then [] else kept[..|kept| - 1])
                  else kept + [xs[0]];
      NormalAppend(xs[1..], ys, next);
    }
  }

  lemma AbsoluteAppend(ds: seq<string>, ns: seq<string>)
    requires |ds| >= 1 && |ns| >= 1
    ensures AbsolutePath(ds) + "/" + Join(ns, "/") == AbsolutePath(ds + ns)
  {
    var a, b, j := Join(ds, "/"), Join(ns, "/"), Join(ds + ns, "/");
    assert j == a + "/" + b by { JoinAppend(ds, ns, "/"); }
    calc {
      AbsolutePath(ds) + "/" + b;
      ("/" + a) + "/" + b;
      "/" + (a + "/" + b);
      "/" + j;
      AbsolutePath(ds + ns);
    }
  }

  /** An absolute path split at `/`: an empty piece for the root, then its
      segments. */
  lemma SplitAbsolute(segs: seq<string>)
    requires |segs| >= 1 && forall i :: 0 <= i < |segs| ==> '/' !in segs[i]
    ensures Split(AbsolutePath(segs), '/') == [""] + segs
  {
    SplitJoinedPieces(segs);
    var p := AbsolutePath(segs);
    assert p[0] == '/' && p[1..] == Join(segs, "/");
  }

  lemma AllPlainAppend(ds: seq<string>, ns: seq<string>)
    requires AllPlain(ds) && AllPlain(ns)
    ensures AllPlain(ds + ns)
  {
    forall i | 0 <= i < |ds + ns| ensures PlainSegment((ds + ns)[i]) {
      if i < |ds| {
        assert (ds + ns)[i] == ds[i];
      } else {
        assert (ds + ns)[i] == ns[i - |ds|];
      }
    }
  }

  /** On a normalised absolute directory and a relative path of plain
      segments, `path.resolve` is concatenation with `/`. */
  lemma ResolveAgreesWithPathResolve(ds: seq<string>, ns: seq<string>)
    requires |ds| >= 1 && |ns| >= 1 && AllPlain(ds) && AllPlain(ns)
    ensures PathResolve(AbsolutePath(ds), Join(ns, "/")) == Resolve(AbsolutePath(ds), Join(ns, "/"))
  {
    var dir, name := AbsolutePath(ds), Join(ns, "/");
    var all := ds + ns;
    assert |name| > 0 && name[0] != '/' by {
      if |ns| > 1 {
        assert name == ns[0] + "/" + Join(ns[1..], "/");
      }
      assert PlainSegment(ns[0]);
    }
    assert dir + "/" + name == AbsolutePath(all) by { AbsoluteAppend(ds, ns); }
    assert AllPlain(all) by { AllPlainAppend(ds, ns); }
    assert Split(AbsolutePath(all), '/') == [""] + all by {
      forall i | 0 <= i < |all| ensures '/' !in all[i] {
        assert PlainSegment(all[i]);
      }
      SplitAbsolute(all);
    }
    assert NormalSegments([""] + all, []) == all by {
      assert ([""] + all)[0] == "" && ([""] + all)[1..] == all;
      NormalPlain(all, []);
    }
    calc {
      PathResolve(dir, name);
      AbsolutePath(NormalSegments(Split(dir + "/" + name, '/'), []));
      AbsolutePath(NormalSegments([""] + all, []));
      AbsolutePath(all);
      Resolve(dir, name);
    }
  }

  /** The keys directory of a repository at a normalised absolute path. */
  lemma KeysDirSegments(rs: seq<string>)
    requires |rs| >= 1
    ensures LayoutOf(AbsolutePath(rs)).keys == AbsolutePath(rs + [GitSecretsDir, KeysDir])
  {
    JoinAppend(rs, [GitSecretsDir, KeysDir], "/");
  }

  /** Under `path.resolve`, ids without `/` have distinct key files: the
      key file name is then a single plain segment. */
  lemma KeyPathsInjectiveUnderPathResolve(rs: seq<string>, a: string, b: string)
    requires |rs| >= 1 && AllPlain(rs)
    requires '/' !in a && '/' !in b
    ensures var keys := LayoutOf(AbsolutePath(rs)).keys;
      && (PathResolve(keys, a + PublicSuffix) == PathResolve(keys, b + PublicSuffix) ==> a == b)
      && (PathResolve(keys, a + PrivateSuffix) == PathResolve(keys, b + PrivateSuffix) ==> a == b)
  {
    var repo := AbsolutePath(rs);
    var ks := rs + [GitSecretsDir, KeysDir];
    KeysDirSegments(rs);
    assert AllPlain(ks);
    forall id, suffix | id in {a, b} && suffix in {PublicSuffix, PrivateSuffix}
      ensures PathResolve(AbsolutePath(ks), id + suffix) == Resolve(AbsolutePath(ks), id + suffix)
    {
      assert PlainSegment(id + suffix) by {
        assert (id + suffix)[|id + suffix| - 1] == suffix[|suffix| - 1];
      }
      assert Join([id + suffix], "/") == id + suffix;
      ResolveAgreesWithPathResolve(ks, [id + suffix]);
    }
    KeyPathsInjective(repo, a, b);
  }

  /** Under `path.resolve`, an id that climbs out of a directory shares its
      key file with a plain id: `x/../b` and `b` resolve alike. */
  lemma KeyPathsCollideUnderPathResolve(rs: seq<string>, x: string, b: string)
    requires |rs| >= 1 && AllPlain(rs) && PlainSegment(x) && '/' !in b
    ensures var keys := LayoutOf(AbsolutePath(rs)).keys;
      && x + "/../" + b != b
      && PathResolve(keys, x + "/../" + b + PublicSuffix) == PathResolve(keys, b + PublicSuffix)
  {
    var ks := rs + [GitSecretsDir, KeysDir];
    var keys := AbsolutePath(ks);
    assert LayoutOf(AbsolutePath(rs)).keys == keys by { KeysDirSegments(rs); }
    assert AllPlain(ks) by { AllPlainAppend(rs, [GitSecretsDir, KeysDir]); }
    assert |x + "/../" + b| > |b|;
    var leaf := b + PublicSuffix;
    assert PlainSegment(leaf) by {
      assert leaf[|leaf| - 1] == 'c';
    }
    // the plain name resolves to <keys>/<leaf>
    assert PathResolve(keys, leaf) == AbsolutePath(ks + [leaf]) by {
      assert Join([leaf], "/") == leaf;
      ResolveAgreesWithPathResolve(ks, [leaf]);
      AbsoluteAppend(ks, [leaf]);
    }
    // the climbing name is split into x, "..", leaf, and the walk drops x again
    var ns := [x, "..", leaf];
    var name := x + "/../" + b + PublicSuffix;
    assert name == Join(ns, "/") by {
      assert ns[1..] == ["..", leaf] && ns[1..][1..] == [leaf];
      assert Join(["..", leaf], "/") == ".." + "/" + leaf;
      assert name == x + "/" + (".." + "/" + leaf);
    }
    assert |name| > 0 && name[0] != '/' by {
      assert name[0] == x[0];
    }
    var all := ks + ns;
    assert keys + "/" + name == AbsolutePath(all) by { AbsoluteAppend(ks, ns); }
    assert Split(AbsolutePath(all), '/') == [""] + all by {
      forall i | 0 <= i < |all| ensures '/' !in all[i] {
        if i < |ks| {
          assert all[i] == ks[i] && PlainSegment(ks[i]);
        } else {
          assert all[i] == ns[i - |ks|];
        }
      }
      SplitAbsolute(all);
    }
    assert NormalSegments([""] + all, []) == ks + [leaf] by {
      var front := [""] + ks + [x];
      assert [""] + all == front + [".."] + [leaf];
      assert NormalSegments(front, []) == ks + [x] by {
        assert front == [""] + (ks + [x]);
        NormalAppend([""], ks + [x], []);
        AllPlainAppend(ks, [x]);
        NormalPlain(ks + [x], []);
      }
      assert NormalSegments(front + [".."], []) == ks by {
        NormalAppend(front, [".."], []);
        assert (ks + [x])[..|ks + [x]| - 1] == ks;
      }
      NormalAppend(front + [".."], [leaf], []);
    }
  }
}

=== FILE: legacy.dfy ===
/** The JavaScript twin of the manager, which is what the package builds.
    It shares the access view, the key cache and the file layout with the
    TypeScript version, and differs in these places:

    - lookups by unique key answer `{}` instead of null, so removals by an
      unknown key do nothing and `add*` of an existing key returns its id;
    - the access manager grants at file level only, and `addUsersToTeams`
      / `addAccessToFiles` do not resolve names: they take ids;
    - the relation removes bind the wrong parameter and delete nothing;
    - a signature refresh reads the file and fails when it is missing;
    - encryption writes `<path>.secret` and decryption `<path>.decrypted`,
      both by file id and user id, and a failing step throws. */
module Legacy {
  import opened Wrappers
  import opened Seqs
  import opened TablesBase
  import opened Tables
  import opened Relations
  import opened Views
  import opened Io
  import opened Encryption
  import opened Utils
  import opened Db
  import opened Access
  import opened Managers

  /** What an `async` method of the legacy manager comes to: a returned value
      or a thrown error (a rejected promise). */
  datatype Outcome<+T> = Returned(value: T) | Threw

  // ---------------------------------------------------------------------
  // Lookups and removals by unique key

  /** `const { id } = this.files.getByPath(path)`: the row's id, or
      `undefined` when the lookup answers `{}`. The path is used as given. */
  function FileIdAt(store: Store, path: string): (r: Option<Id>)
    ensures r.None? <==> forall f :: f in store.files ==> f.path != path
    ensures r.Some? ==> exists f :: f in store.files && f.path == path && f.id == r.value
  {
    match GetByPath(store.files, path) case None => None case Some(f) => Some(f.id)
  }

  /** `Users.removeByEmail`: an unknown email (or a row with an empty id)
      leaves the table alone; otherwise the rows with that id go. */
  function RemoveByEmailLegacy(users: seq<User>, email: string): (r: seq<User>)
    ensures !Present(IdOfUser(users, email)) ==> r == users
    ensures Present(IdOfUser(users, email)) ==> forall u :: u in r <==> u in users && u.id != IdOfUser(users, email).value
  {
    var id := IdOfUser(users, email);
    if !Present(id) then users else RemoveWhere(users, UserId, id.value)
  }

  function IdOfUser(users: seq<User>, email: string): Option<Id> {
    match GetByEmail(users, email) case None => None case Some(u) => Some(u.id)
  }

  function IdOfTeam(teams: seq<Team>, name: string): Option<Id> {
    match GetTeamByName(teams, name) case None => None case Some(t) => Some(t.id)
  }

  function IdOfFile(files: seq<FileRec>, path: string): Option<Id> {
    match GetByPath(files, path) case None => None case Some(f) => Some(f.id)
  }

  /** `Teams.removeByName`. */
  function RemoveByNameLegacy(teams: seq<Team>, name: string): (r: seq<Team>)
    ensures !Present(IdOfTeam(teams, name)) ==> r == teams
    ensures Present(IdOfTeam(teams, name)) ==> forall t :: t in r <==> t in teams && t.id != IdOfTeam(teams, name).value
  {
    var id := IdOfTeam(teams, name);
    if !Present(id) then teams else RemoveWhere(teams, TeamId, id.value)
  }

  /** `Files.removeByPath`. */
  function RemoveByPathLegacy(files: seq<FileRec>, path: string): (r: seq<FileRec>)
    ensures !Present(IdOfFile(files, path)) ==> r == files
    ensures Present(IdOfFile(files, path)) ==> forall f :: f in r <==> f in files && f.id != IdOfFile(files, path).value
  {
    var id := IdOfFile(files, path);
    if !Present(id) then files else RemoveWhere(files, FileId, id.value)
  }

  /** The two versions differ only on an unknown email: the TypeScript
      removal throws where the legacy one leaves the table alone. */
  lemma RemoveByEmailAgrees(users: seq<User>, email: string)
    ensures RemoveByEmail(users, email) ==
      if GetByEmail(users, email).None? then None else Some(RemoveByEmailLegacy(users, email))
  {
  }

  lemma RemoveByNameAgrees(teams: seq<Team>, name: string)
    ensures RemoveByName(teams, name) ==
      if GetTeamByName(teams, name).None? then None else Some(RemoveByNameLegacy(teams, name))
  {
  }

  lemma RemoveByPathAgrees(files: seq<FileRec>, path: string)
    ensures RemoveByPath(files, path) ==
      if GetByPath(files, path).None? then None else Some(RemoveByPathLegacy(files, path))
  {
  }

  /** `Files.create`: a falsy id (missing or empty) is replaced by a fresh
      one, where the TypeScript default replaces only a missing id. */
  function CreateFileLegacy(files: seq<FileRec>, supplied: Option<Id>, newId: Id, path: string,
                            contentsSignature: string, accessSignature: string): (r: (seq<FileRec>, Id))
    ensures r.0 == files + [FileRec(r.1, path, contentsSignature, accessSignature)]
    ensures Present(supplied) ==> r.1 == supplied.value
    ensures !Present(supplied) ==> r.1 == newId
  {
    var id := if Present(supplied) then supplied.value else newId;
    (files + [FileRec(id, path, contentsSignature, accessSignature)], id)
  }

  /** The two creators differ only on an empty supplied id. */
  lemma CreateFileDefaultsDiffer(files: seq<FileRec>, newId: Id, path: string, c: string, a: string)
    requires newId != ""
    ensures CreateFile(files, Some(""), newId, path, c, a).1 == ""
    ensures CreateFileLegacy(files, Some(""), newId, path, c, a).1 == newId
  {
  }

  // ---------------------------------------------------------------------
  // Relation removes

  /** `DELETE ... WHERE key1 = :value1 AND key2 = :value2` where an unbound
      parameter is NULL: a comparison with NULL holds for no row. */
  function SqlDelete(rows: Rows, value1: Option<Id>, value2: Option<Id>): (r: Rows)
    ensures forall p :: p in r <==> p in rows && !(value1 == Some(p.key1) && value2 == Some(p.key2))
    ensures value1.None? || value2.None? ==> r == rows
  {
    if rows == [] then []
    else
      var rest := SqlDelete(rows[1..], value1, value2);
      assert rows == [rows[0]] + rows[1..];
      if value1 == Some(rows[0].key1) && value2 == Some(rows[0].key2) then rest else [rows[0]] + rest
  }

  /** With both parameters bound it deletes what `removeRelationship` does. */
  lemma SqlDeleteBound(rows: Rows, key1: Id, key2: Id)
    ensures Elems(SqlDelete(rows, Some(key1), Some(key2))) == Elems(RemoveRelationship(rows, key1, key2))
  {
    var a := SqlDelete(rows, Some(key1), Some(key2));
    var b := RemoveRelationship(rows, key1, key2);
    assert forall p :: p in Elems(a) <==> p in a;
    assert forall p :: p in Elems(b) <==> p in b;
    assert forall p :: p in Elems(b) <==> p in Elems(rows) && p != Pair(key1, key2);
  }

  /** `FileUsers.remove({fileId, userId})` as written: the file id is passed
      under the name `key`, so `key1` is unbound and nothing is deleted. */
  function FileUsersRemoveAsWritten(rels: Relations, fileId: Id, userId: Id): (r: Relations)
    ensures r == rels
  {
    rels.(fileUsers := SqlDelete(rels.fileUsers, None, Some(userId)))
  }

  /** `FileTeams.remove({fileId, teamId})` as written. */
  function FileTeamsRemoveAsWritten(rels: Relations, fileId: Id, teamId: Id): (r: Relations)
    ensures r == rels
  {
    rels.(fileTeams := SqlDelete(rels.fileTeams, None, Some(teamId)))
  }

  /** `TeamMembers.remove({teamId, userId})` as written: it reads `fileId`
      from its argument, which a caller naming the team does not supply. */
  function TeamMembersRemoveAsWritten(rels: Relations, teamId: Id, userId: Id): (r: Relations)
    ensures r == rels
  {
    var fileId: Option<Id> := None;
    rels.(teamUsers := SqlDelete(rels.teamUsers, fileId, Some(userId)))
  }

  /** A granted pair survives its legacy removal, while the corrected
      removal (the TypeScript one, which binds `key1`) deletes it. */
  lemma MisKeyedRemovesKeepPair(rels: Relations, a: Id, b: Id)
    ensures Pair(a, b) in rels.fileUsers ==>
      Pair(a, b) in FileUsersRemoveAsWritten(rels, a, b).fileUsers && Pair(a, b) !in Remove(rels, FileUser(a, b)).fileUsers
    ensures Pair(a, b) in rels.fileTeams ==>
      Pair(a, b) in FileTeamsRemoveAsWritten(rels, a, b).fileTeams && Pair(a, b) !in Remove(rels, FileTeam(a, b)).fileTeams
    ensures Pair(a, b) in rels.teamUsers ==>
      Pair(a, b) in TeamMembersRemoveAsWritten(rels, a, b).teamUsers && Pair(a, b) !in Remove(rels, TeamUser(a, b)).teamUsers
  {
    assert Pair(a, b) !in Elems(Remove(rels, FileUser(a, b)).Get(FileUsers));
    assert Pair(a, b) !in Elems(Remove(rels, FileTeam(a, b)).Get(FileTeams));
    assert Pair(a, b) !in Elems(Remove(rels, TeamUser(a, b)).Get(TeamUsers));
  }

  // ---------------------------------------------------------------------
  // Access manager and batch grants

  /** The pair `add` files under one relation: present when the second id
      is truthy (the file id is not checked). */
  function TruthyPair(fileId: Id, other: Option<Id>): (r: Rows)
    ensures forall p :: p in r <==> Present(other) && p == Pair(fileId, other.value)
  {
    if Present(other) then [Pair(fileId, other.value)] else []
  }

  /** Legacy `AccessManager.add`: grants at file level only, file-user
      first, then file-team. */
  function AccessAddLegacy(rels: Relations, fileId: Id, userId: Option<Id>, teamId: Option<Id>): (r: Relations)
    ensures forall p :: p in r.fileUsers <==> p in rels.fileUsers || (Present(userId) && p == Pair(fileId, userId.value))
    ensures forall p :: p in r.fileTeams <==> p in rels.fileTeams || (Present(teamId) && p == Pair(fileId, teamId.value))
    ensures forall k :: k != FileUsers && k != FileTeams ==> r.Get(k) == rels.Get(k)
    ensures WellFormed(rels) ==> WellFormed(r)
  {
    AddFilePairs(rels, TruthyPair(fileId, userId), TruthyPair(fileId, teamId))
  }

  /** Legacy `AccessManager.remove`: it goes through the mis-keyed removes,
      so it changes nothing. */
  function AccessRemoveLegacy(rels: Relations, fileId: Id, userId: Option<Id>, teamId: Option<Id>): (r: Relations)
    ensures r == rels
  {
    var afterUsers := if Present(userId) then FileUsersRemoveAsWritten(rels, fileId, userId.value) else rels;
    if Present(teamId) then FileTeamsRemoveAsWritten(afterUsers, fileId, teamId.value) else afterUsers
  }

  /** For a truthy file id the legacy grant is the TypeScript grant without
      a collection. */
  lemma AccessAddAgrees(rels: Relations, fileId: Id, userId: Option<Id>, teamId: Option<Id>)
    requires fileId != ""
    ensures forall k, p :: p in AccessAddLegacy(rels, fileId, userId, teamId).Get(k)
                           <==> p in AccessChange(rels, AddOp, Grant(Some(fileId), None, userId, teamId)).Get(k)
  {
    forall k, p ensures p in AccessAddLegacy(rels, fileId, userId, teamId).Get(k)
                        <==> p in AccessChange(rels, AddOp, Grant(Some(fileId), None, userId, teamId)).Get(k) {
      AccessAddAgreesAt(rels, fileId, userId, teamId, k, p);
    }
  }

  lemma AccessAddAgreesAt(rels: Relations, fileId: Id, userId: Option<Id>, teamId: Option<Id>, k: RelationKind, p: Pair)
    requires fileId != ""
    ensures p in AccessAddLegacy(rels, fileId, userId, teamId).Get(k)
            <==> p in AccessChange(rels, AddOp, Grant(Some(fileId), None, userId, teamId)).Get(k)
  {
    var g := Grant(Some(fileId), None, userId, teamId);
    var legacy := AccessAddLegacy(rels, fileId, userId, teamId);
    assert (p in AccessChange(rels, AddOp, g).Get(k)) == Effect(AddOp, p in rels.Get(k), GrantRow(g, k) == Some(p));
    if k == FileUsers {
      assert legacy.Get(k) == legacy.fileUsers;
    } else if k == FileTeams {
      assert legacy.Get(k) == legacy.fileTeams;
    }
  }

  /** File-user `add`s for `userPairs`, then file-team `add`s for
      `teamPairs`: the two file relations gain exactly those pairs. */
  function AddFilePairs(rels: Relations, userPairs: Rows, teamPairs: Rows): (r: Relations)
    ensures forall p :: p in r.fileUsers <==> p in rels.fileUsers || p in userPairs
    ensures forall p :: p in r.fileTeams <==> p in rels.fileTeams || p in teamPairs
    ensures forall k :: k != FileUsers && k != FileTeams ==> r.Get(k) == rels.Get(k)
    ensures WellFormed(rels) ==> WellFormed(r)
  {
    LinkShapes();
    var mid := ApplyPairs(rels, AddOp, FileUserLink, FileUsers, userPairs);
    FileUsersThenTeams(rels, mid, ApplyPairs(mid, AddOp, FileTeamLink, FileTeams, teamPairs), userPairs, teamPairs);
    ApplyPairs(mid, AddOp, FileTeamLink, FileTeams, teamPairs)
  }

  /** Two batches, one per file relation, compose relation by relation. */
  lemma FileUsersThenTeams(rels: Relations, mid: Relations, r: Relations, userPairs: Rows, teamPairs: Rows)
    requires forall p :: p in mid.Get(FileUsers) <==> p in rels.Get(FileUsers) || p in userPairs
    requires forall k :: k != FileUsers ==> mid.Get(k) == rels.Get(k)
    requires forall p :: p in r.Get(FileTeams) <==> p in mid.Get(FileTeams) || p in teamPairs
    requires forall k :: k != FileTeams ==> r.Get(k) == mid.Get(k)
    ensures forall p :: p in r.fileUsers <==> p in rels.fileUsers || p in userPairs
    ensures forall p :: p in r.fileTeams <==> p in rels.fileTeams || p in teamPairs
    ensures forall k :: k != FileUsers && k != FileTeams ==> r.Get(k) == rels.Get(k)
  {
    assert r.Get(FileUsers) == mid.Get(FileUsers);
    assert mid.Get(FileTeams) == rels.Get(FileTeams);
  }

  /** `addUsersToTeams`: every (team id, user id) of the cross product is
      added to the team members, without checking that the ids exist. */
  function AddUsersToTeams(rels: Relations, teamIds: MaybeArray, userIds: MaybeArray): (r: Relations)
    ensures forall p :: p in r.teamUsers <==> p in rels.teamUsers || (p.key1 in Items(teamIds) && p.key2 in Items(userIds))
    ensures forall k :: k != TeamUsers ==> r.Get(k) == rels.Get(k)
    ensures WellFormed(rels) ==> WellFormed(r)
  {
    LinkShapes();
    var r := ApplyPairs(rels, AddOp, TeamUserLink, TeamUsers, CrossPairs(Items(teamIds), Items(userIds)));
    assert r.teamUsers == r.Get(TeamUsers) && rels.teamUsers == rels.Get(TeamUsers);
    r
  }

  /** The pairs of `xs`×`ys` whose second id is truthy, the ones
      `AccessManager.add` acts on. */
  function TruthyPairs(xs: seq<Id>, ys: seq<Id>): (r: Rows)
    ensures forall p :: p in r <==> p.key1 in xs && p.key2 in ys && p.key2 != ""
  {
    Filter((p: Pair) => p.key2 != "", CrossPairs(xs, ys))
  }

  /** `addAccessToFiles`: `AccessManager.add` for every file×user pair, then
      for every file×team pair, without checking that the ids exist. An
      empty user or team id is skipped by the manager's truthiness test. */
  function AddAccessToFiles(rels: Relations, fileIds: MaybeArray, userIds: MaybeArray, teamIds: MaybeArray)
    : (r: Relations)
    ensures forall p :: p in r.fileUsers <==>
      p in rels.fileUsers || (p.key1 in Items(fileIds) && p.key2 in Items(userIds) && p.key2 != "")
    ensures forall p :: p in r.fileTeams <==>
      p in rels.fileTeams || (p.key1 in Items(fileIds) && p.key2 in Items(teamIds) && p.key2 != "")
    ensures forall k :: k != FileUsers && k != FileTeams ==> r.Get(k) == rels.Get(k)
    ensures WellFormed(rels) ==> WellFormed(r)
  {
    AddFilePairs(rels, TruthyPairs(Items(fileIds), Items(userIds)), TruthyPairs(Items(fileIds), Items(teamIds)))
  }

  // ---------------------------------------------------------------------
  // Creating users, teams and files

  /** Legacy `addUser`: an email whose row has a truthy id returns that id
      and changes nothing; otherwise keys are created, then the row, and the
      new id is returned. A failed key generation is caught: nothing is
      returned and nothing changes. */
  function AddUserLegacy(w: World, env: Env, email: string, name: Option<string>, newId: Id,
                         generated: Option<GeneratedKeys>): (r: (World, Option<Id>))
    ensures Present(IdOfUser(w.store.users, email)) ==> r == (w, IdOfUser(w.store.users, email))
    ensures !Present(IdOfUser(w.store.users, email)) && generated.None? ==> r == (w, None)
    ensures !Present(IdOfUser(w.store.users, email)) && generated.Some? ==>
      && r.1 == Some(newId)
      && r.0.store == w.store.(users := w.store.users + [User(newId, email, name)])
      && (r.0.pgp, r.0.disk) == CreateKeyPair(w.pgp, w.disk, newId, generated.value, env.readKey)
  {
    var existing := IdOfUser(w.store.users, email);
    if Present(existing) then (w, existing)
    else if generated.None? then (w, None)
    else
      var (pgp, disk) := CreateKeyPair(w.pgp, w.disk, newId, generated.value, env.readKey);
      var (users, id) := CreateUser(w.store.users, Some(newId), newId, email, name);
      (World(w.store.(users := users), disk, pgp), Some(id))
  }

  /** Adding the same email again returns the first id and changes nothing. */
  lemma AddUserLegacyIdempotent(w: World, env: Env, email: string, name: Option<string>, id1: Id, id2: Id,
                                g1: Option<GeneratedKeys>, g2: Option<GeneratedKeys>)
    requires id1 != ""
    requires forall u :: u in w.store.users ==> u.id != ""
    ensures var (w1, r1) := AddUserLegacy(w, env, email, name, id1, g1);
      r1.Some? ==> AddUserLegacy(w1, env, email, name, id2, g2) == (w1, r1)
  {
    var (w1, r1) := AddUserLegacy(w, env, email, name, id1, g1);
    if r1.Some? && !Present(IdOfUser(w.store.users, email)) {
      GetByEmailAppended(w.store.users, User(id1, email, name));
    }
  }

  /** Legacy `addUser` against the TypeScript `addUser`. On a fresh email
      both end in the same world, and the legacy call returns an id exactly
      when the TypeScript call succeeds, and then the same id. On an email
      taken under a truthy id neither changes anything: the legacy call
      returns that id where the TypeScript call warns. */
  lemma AddUserLegacyAgrees(w: World, env: Env, email: string, name: Option<string>, newId: Id,
                            generated: Option<GeneratedKeys>)
    ensures GetByEmail(w.store.users, email).None? ==>
      var (wl, rl) := AddUserLegacy(w, env, email, name, newId, generated);
      var (wt, rt) := AddUser(w, env, email, name, newId, generated);
      && wl == wt
      && (rl.Some? <==> rt.Success?)
      && (rt.Success? ==> rl == Some(rt.value))
    ensures Present(IdOfUser(w.store.users, email)) ==>
      && AddUserLegacy(w, env, email, name, newId, generated) == (w, IdOfUser(w.store.users, email))
      && AddUser(w, env, email, name, newId, generated) == (w, Warning(AlreadyExists(UserKind, email)))
  {
  }

  /** Appending a row whose email is not yet taken makes the lookup find it. */
  lemma GetByEmailAppended(users: seq<User>, u: User)
    requires GetByEmail(users, u.email).None?
    ensures GetByEmail(users + [u], u.email) == Some(u)
  {
    assert u in users + [u];
    assert forall x :: x in users + [u] && x.email == u.email ==> x == u;
  }

  /** Legacy `addTeam`: an existing name returns its id and changes nothing. */
  function AddTeamLegacy(store: Store, name: string, description: Option<string>, newId: Id): (r: (Store, Id))
    ensures Present(IdOfTeam(store.teams, name)) ==> r == (store, IdOfTeam(store.teams, name).value)
    ensures !Present(IdOfTeam(store.teams, name)) ==>
      r == (store.(teams := store.teams + [Team(newId, name, description)]), newId)
  {
    var existing := IdOfTeam(store.teams, name);
    if Present(existing) then (store, existing.value)
    else
      var (teams, id) := CreateTeam(store.teams, Some(newId), newId, name, description);
      (store.(teams := teams), id)
  }

  /** Legacy `addTeam` against the TypeScript `addTeam`: on a fresh name
      both append the same row and answer the new id; on a name taken under
      a truthy id neither changes anything, and the legacy call returns that
      id where the TypeScript call warns. */
  lemma AddTeamLegacyAgrees(store: Store, name: string, description: Option<string>, newId: Id)
    ensures GetTeamByName(store.teams, name).None? ==>
      var (st, rt) := AddTeam(store, name, description, newId);
      AddTeamLegacy(store, name, description, newId) == (st, newId) && rt == Success(newId)
    ensures Present(IdOfTeam(store.teams, name)) ==>
      && AddTeamLegacy(store, name, description, newId) == (store, IdOfTeam(store.teams, name).value)
      && AddTeam(store, name, description, newId) == (store, Warning(AlreadyExists(TeamKind, name)))
  {
  }

  /** Adding the same name again returns the first id and changes nothing. */
  lemma AddTeamLegacyIdempotent(store: Store, name: string, description: Option<string>, id1: Id, id2: Id)
    requires id1 != ""
    requires forall t :: t in store.teams ==> t.id != ""
    ensures var (s1, r1) := AddTeamLegacy(store, name, description, id1);
      AddTeamLegacy(s1, name, description, id2) == (s1, r1)
  {
    if !Present(IdOfTeam(store.teams, name)) {
      var t := Team(id1, name, description);
      var teams := store.teams + [t];
      assert t in teams;
      assert forall x :: x in teams && x.name == name ==> x == t;
    }
  }

  /** Legacy `updateFileSignatures`: the contents signature is the hash of
      the file as read from disk, so it fails (throws) when the file is not
      tracked or not on disk; the access signature is the TypeScript one. */
  function UpdateFileSignaturesLegacy(w: World, env: Env, fileId: Id): (r: Option<Store>)
    ensures r.None? <==> FindFile(w.store.files, fileId).None?
                         || Resolve(Repo(w), FindFile(w.store.files, fileId).value.path) !in w.disk.files
    ensures r.Some? ==> r.value == w.store.(files := r.value.files) && |r.value.files| == |w.store.files|
    ensures r.Some? ==> forall i :: 0 <= i < |w.store.files| && w.store.files[i].id != fileId ==> r.value.files[i] == w.store.files[i]
    ensures r.Some? ==> forall i :: 0 <= i < |w.store.files| && w.store.files[i].id == fileId ==>
      && r.value.files[i].path == w.store.files[i].path
      && r.value.files[i].contentsSignature == env.hash(w.disk.files[Resolve(Repo(w), FindFile(w.store.files, fileId).value.path)])
      && r.value.files[i].accessSignature == AccessSignature(w.store.rels, fileId, env.hash)
  {
    match FindFile(w.store.files, fileId)
    case None => None
    case Some(file) =>
      var p := Resolve(Repo(w), file.path);
      if p !in w.disk.files then None
      else Some(w.store.(files := StoreSignatures(w.store.files, fileId,
                                                   Signatures(env.hash(w.disk.files[p]), AccessSignature(w.store.rels, fileId, env.hash)))))
  }

  /** Whenever the legacy refresh succeeds it stores what the TypeScript one
      stores; they part only on a file missing from disk, which TypeScript
      signs as empty. */
  lemma UpdateFileSignaturesAgree(w: World, env: Env, fileId: Id)
    ensures UpdateFileSignaturesLegacy(w, env, fileId).Some? ==>
      UpdateFileSignaturesLegacy(w, env, fileId).value == UpdateFileSignatures(w, env, fileId)
  {
  }

  /** Legacy `addFile`. The path is used as given. A tracked path gets its
      signatures refreshed and its id returned (a failed refresh throws). A
      new path gets a row with placeholder signatures, then a refresh; if
      that refresh fails the error is caught, nothing is returned and the
      placeholder row stays. */
  function AddFileLegacy(w: World, env: Env, path: string, newId: Id): (r: (World, Outcome<Option<Id>>))
    ensures r.0.disk == w.disk && r.0.pgp == w.pgp
    ensures r.0.store.rels == w.store.rels && r.0.store.users == w.store.users && r.0.store.teams == w.store.teams
    ensures Present(IdOfFile(w.store.files, path)) ==>
      match UpdateFileSignaturesLegacy(w, env, IdOfFile(w.store.files, path).value)
      case None => r == (w, Threw)
      case Some(s) => r == (w.(store := s), Returned(IdOfFile(w.store.files, path)))
    ensures !Present(IdOfFile(w.store.files, path)) ==>
      var created := w.(store := w.store.(files := w.store.files + [FileRec(newId, path, SetupSignature, SetupSignature)]));
      match UpdateFileSignaturesLegacy(created, env, newId)
      case None => r == (created, Returned(None))
      case Some(s) => r == (created.(store := s), Returned(Some(newId)))
  {
    var existing := IdOfFile(w.store.files, path);
    if Present(existing) then
      match UpdateFileSignaturesLegacy(w, env, existing.value)
      case None => (w, Threw)
      case Some(s) => (w.(store := s), Returned(existing))
    else
      var (files, id) := CreateFileLegacy(w.store.files, Some(newId), newId, path, SetupSignature, SetupSignature);
      var created := w.(store := w.store.(files := files));
      match UpdateFileSignaturesLegacy(created, env, id)
      case None => (created, Returned(None))
      case Some(s) => (created.(store := s), Returned(Some(id)))
  }

  /** A new path whose file is not on disk leaves a row with placeholder
      signatures behind although nothing is returned. */
  lemma AddFileLegacyLeavesPlaceholder(w: World, env: Env, path: string, newId: Id)
    requires newId != ""
    requires GetByPath(w.store.files, path).None?
    requires Resolve(Repo(w), path) !in w.disk.files
    requires forall f :: f in w.store.files ==> f.id != newId
    ensures AddFileLegacy(w, env, path, newId).1 == Returned(None)
    ensures FileRec(newId, path, SetupSignature, SetupSignature) in AddFileLegacy(w, env, path, newId).0.store.files
  {
    var row := FileRec(newId, path, SetupSignature, SetupSignature);
    var files := w.store.files + [row];
    assert row in files;
    assert forall x :: x in files && x.id == newId ==> x == row;
  }

  // ---------------------------------------------------------------------
  // Encryption and decryption

  /** The OpenPGP calls of the legacy manager, as parameters: unlocking an
      armored private key with a password (`readKey` + `decryptKey`),
      encrypting a text for the given keys and signing it, and decrypting
      and verifying a message (`expectSigned`). `None` is a thrown error. */
  datatype Engine = Engine(
    unlock: (string, string) -> bool,
    encrypt: (string, seq<Option<PublicKey>>, string) -> Option<string>,
    decrypt: (string, string, seq<Option<PublicKey>>) -> Option<string>)

  const SecretExt: string := ".secret"
  const DecryptedExt: string := ".decrypted"

  /** `path.resolve(rootDir, `${file.path}${SECRET_EXT}`)`. */
  function SecretPath(root: string, path: string): (r: string)
    ensures r == Resolve(root, path) + SecretExt
  {
    Resolve(root, path + SecretExt)
  }

  /** `path.resolve(rootDir, `${file.path}.decrypted`)`. */
  function DecryptedPath(root: string, path: string): (r: string)
    ensures r == Resolve(root, path) + DecryptedExt
  {
    Resolve(root, path + DecryptedExt)
  }

  /** Neither output overwrites the plaintext, nor each other. */
  lemma OutputPathsDistinct(root: string, path: string)
    ensures SecretPath(root, path) != Resolve(root, path)
    ensures DecryptedPath(root, path) != Resolve(root, path)
    ensures SecretPath(root, path) != DecryptedPath(root, path)
  {
    assert |SecretPath(root, path)| == |Resolve(root, path)| + 7;
    assert |DecryptedPath(root, path)| == |Resolve(root, path)| + 10;
  }

  /** The template-literal text of `file.path` when `findOne` answered `{}`. */
  const UndefinedText: string := "undefined"

  /** `getFileKeys` then `getUserKeys`: the recipients' keys (absent ones
      included) and the operator's keys, read through the cache. */
  function KeysForFile(w: World, env: Env, userId: Id, fileId: Id): (r: (OpenPgp, seq<Option<PublicKey>>, KeyPair))
    ensures r.0.repo == w.pgp.repo
    ensures r.2 == KeysOf(w.pgp, w.disk, userId, env.readKey)
    ensures userId in r.0.cache && r.0.cache[userId] == r.2
    ensures forall x :: KeysOf(r.0, w.disk, x, env.readKey) == KeysOf(w.pgp, w.disk, x, env.readKey)
  {
    var (pgp1, publicKeys) := PublicKeysOf(w.pgp, w.disk, FindAllUsersIds(ViewRows(w.store.rels), fileId), env.readKey);
    var (pgp2, keys) := GetUserKeys(pgp1, w.disk, userId, env.readKey);
    GetUserKeysCoherentAll(pgp1, w.disk, userId, env.readKey);
    (pgp2, publicKeys, keys)
  }

  /** The operator's private key is present and the password unlocks it. */
  predicate Unlocks(engine: Engine, keys: KeyPair, password: string) {
    keys.armoredPrivateKey.Some? && engine.unlock(keys.armoredPrivateKey.value, password)
  }

  /** Legacy `encryptFile({userId, password, fileId})`: reads the keys,
      unlocks the operator's private key, reads the plaintext and writes the
      ciphertext next to it as `<path>.secret`. Any failing step throws
      (an unknown file id fails when the plaintext path is resolved). Only
      the ciphertext file and the key cache change. */
  function EncryptFileLegacy(w: World, env: Env, engine: Engine, userId: Id, password: string, fileId: Id)
    : (r: (World, Outcome<()>))
    ensures r.0.store == w.store && r.0.pgp == KeysForFile(w, env, userId, fileId).0
    ensures r.1.Threw? ==> r.0.disk == w.disk
    ensures !Unlocks(engine, KeysOf(w.pgp, w.disk, userId, env.readKey), password) ==> r.1.Threw?
    ensures FindFile(w.store.files, fileId).None? ==> r.1.Threw?
    ensures r.1.Returned? ==>
      && FindFile(w.store.files, fileId).Some?
      && var path := FindFile(w.store.files, fileId).value.path;
      && Resolve(Repo(w), path) in w.disk.files
      && SecretPath(Repo(w), path) in r.0.disk.files
      && r.0.disk == w.disk.(files := w.disk.files[SecretPath(Repo(w), path) := r.0.disk.files[SecretPath(Repo(w), path)]])
  {
    var (pgp, publicKeys, keys) := KeysForFile(w, env, userId, fileId);
    var w1 := w.(pgp := pgp);
    var file := FindFile(w.store.files, fileId);
    if !Unlocks(engine, keys, password) then (w1, Threw)
    else if file.None? then (w1, Threw)
    else
      var plain := Resolve(Repo(w), file.value.path);
      if plain !in w.disk.files then (w1, Threw)
      else match engine.encrypt(w.disk.files[plain], publicKeys, keys.armoredPrivateKey.value)
        case None => (w1, Threw)
        case Some(ciphertext) =>
          (w1.(disk := w.disk.(files := w.disk.files[SecretPath(Repo(w), file.value.path) := ciphertext])), Returned(()))
  }

  /** Legacy `decryptFile({userId, password, fileId})`: reads the keys and
      unlocks the operator's private key first; only then, when there is no
      `<path>.secret`, it returns without writing. Otherwise the message is
      decrypted (it must be signed) into `<path>.decrypted`. For an unknown
      file id the path text is "undefined". */
  function DecryptFileLegacy(w: World, env: Env, engine: Engine, userId: Id, password: string, fileId: Id)
    : (r: (World, Outcome<()>))
    ensures r.0.store == w.store && r.0.pgp == KeysForFile(w, env, userId, fileId).0
    ensures !Unlocks(engine, KeysOf(w.pgp, w.disk, userId, env.readKey), password) ==> r == (r.0, Threw) && r.0.disk == w.disk
    ensures var name := match FindFile(w.store.files, fileId) case None => UndefinedText case Some(f) => f.path;
      && (Unlocks(engine, KeysOf(w.pgp, w.disk, userId, env.readKey), password) && !Exists(w.disk, SecretPath(Repo(w), name)) ==>
            r.1 == Returned(()) && r.0.disk == w.disk)
      && (r.0.disk != w.disk ==>
            && SecretPath(Repo(w), name) in w.disk.files
            && DecryptedPath(Repo(w), name) in r.0.disk.files
            && r.0.disk == w.disk.(files := w.disk.files[DecryptedPath(Repo(w), name) := r.0.disk.files[DecryptedPath(Repo(w), name)]]))
  {
    var (pgp, publicKeys, keys) := KeysForFile(w, env, userId, fileId);
    var w1 := w.(pgp := pgp);
    var name := match FindFile(w.store.files, fileId) case None => UndefinedText case Some(f) => f.path;
    var cipher := SecretPath(Repo(w), name);
    if !Unlocks(engine, keys, password) then (w1, Threw)
    else if !Exists(w.disk, cipher) then (w1, Returned(()))
    else if cipher !in w.disk.files then (w1, Threw)
    else match engine.decrypt(w.disk.files[cipher], keys.armoredPrivateKey.value, publicKeys)
      case None => (w1, Threw)
      case Some(plaintext) =>
        (w1.(disk := w.disk.(files := w.disk.files[DecryptedPath(Repo(w), name) := plaintext])), Returned(()))
  }

  /** After a successful legacy encryption, decrypting the same file as the
      same user with the same password does not take the early return: the
      ciphertext it looks for is the one just written, and the key cache
      still holds the operator's unlocked key. */
  lemma DecryptFindsCiphertext(w: World, env: Env, engine: Engine, userId: Id, password: string, fileId: Id)
    requires EncryptFileLegacy(w, env, engine, userId, password, fileId).1.Returned?
    ensures var w1 := EncryptFileLegacy(w, env, engine, userId, password, fileId).0;
      var (w2, out) := DecryptFileLegacy(w1, env, engine, userId, password, fileId);
      out.Returned? ==> DecryptedPath(Repo(w), FindFile(w.store.files, fileId).value.path) in w2.disk.files
  {
    var w1 := EncryptFileLegacy(w, env, engine, userId, password, fileId).0;
    var path := FindFile(w.store.files, fileId).value.path;
    var keys := KeysForFile(w, env, userId, fileId);
    assert KeysOf(w1.pgp, w1.disk, userId, env.readKey) == KeysOf(w.pgp, w.disk, userId, env.readKey);
    assert SecretPath(Repo(w), path) in w1.disk.files;
    assert Exists(w1.disk, SecretPath(Repo(w1), path));
  }

  // ---------------------------------------------------------------------
  // Layout

  /** The legacy key directory, `<root>/.gitsecrets/keys`, is the TypeScript
      one, so both versions read and write the same key files. */
  lemma KeysDirAgrees(root: string)
    ensures Resolve(Resolve(root, GitSecretsDir), KeysDir) == LayoutOf(root).keys
    ensures Resolve(Resolve(Resolve(root, GitSecretsDir), KeysDir), "u" + PublicSuffix) == PublicKeyPath(root, "u")
  {
  }
}

=== FILE: managers.dfy ===
/** The secrets manager's bookkeeping: creating users, teams, collections
    and tracked files, changing team membership, collection contents and
    access grants, and the stored-versus-live signatures of tracked files.

    Every operation maps a `World` (database, disk, key wrapper) to a new
    world and a tri-state response. The git path normaliser, the hash and
    the key reader are parameters collected in `Env`; generated UUIDs and
    generated key material are arguments. */
module Managers {
  import opened Wrappers
  import opened Seqs
  import opened Sorting
  import opened Strings
  import opened TablesBase
  import opened Tables
  import opened Relations
  import opened Views
  import opened Io
  import opened Encryption
  import opened Utils
  import opened Db
  import opened Access

  datatype CryptoOp = Encrypt | Decrypt

  /** The operation's name as the messages spell it. */
  function OpName(op: CryptoOp): string {
    match op
    case Encrypt => "encrypt"
    case Decrypt => "decrypt"
  }

  /** What the OpenPGP engine is given for one file. */
  datatype Payload = Payload(path: string, password: string, publicKeys: seq<PublicKey>, armoredPrivateKey: string)

  datatype Env = Env(
    normalise: string -> string,                 // git.getRelativePath
    hash: string -> Digest,                      // SHA-256, hex
    readKey: string -> PublicKey,                // openpgp.readKey
    crypt: (CryptoOp, Payload, Disk) -> (Disk, Response<()>))  // the engine's encryptFile / decryptFile

  datatype World = World(store: Store, disk: Disk, pgp: OpenPgp)

  /** The repository root both the file system helper and the key wrapper use. */
  function Repo(w: World): string {
    w.pgp.repo
  }

  // ---------------------------------------------------------------------
  // Signatures

  datatype Signatures = Signatures(contents: Digest, access: Digest)

  /** `AccessManager.getSignature`: the hash of the comma-joined, sorted,
      duplicate-free ids of the users with access to the file. */
  function AccessSignature(rels: Relations, fileId: Id, hash: string -> Digest): (r: Digest)
    ensures exists ids: seq<Id> ::
              && r == hash(Join(ids, ","))
              && Sorted(Lex, ids) && Distinct(ids)
              && forall u :: u in ids <==> HasAccess(rels, fileId, u)
  {
    var ids := FindAllUsersIds(ViewRows(rels), fileId);
    assert forall u :: u in ids <==> HasAccess(rels, fileId, u) by {
      forall u ensures u in ids <==> HasAccess(rels, fileId, u) {
        ResolvedUsersAreGrantees(rels, fileId, u);
      }
    }
    hash(Join(ids, ","))
  }

  /** The access signature reads nothing but who has access: two access
      graphs granting the file to the same users sign it identically. */
  lemma {:induction false} AccessSignatureDependsOnGrantees(r1: Relations, r2: Relations, fileId: Id, hash: string -> Digest)
    requires forall u :: HasAccess(r1, fileId, u) <==> HasAccess(r2, fileId, u)
    ensures AccessSignature(r1, fileId, hash) == AccessSignature(r2, fileId, hash)
  {
    var a := FindAllUsersIds(ViewRows(r1), fileId);
    var b := FindAllUsersIds(ViewRows(r2), fileId);
    forall u ensures u in a <==> u in b {
      ResolvedUsersAreGrantees(r1, fileId, u);
      ResolvedUsersAreGrantees(r2, fileId, u);
    }
    LexIsTotalOrder();
    SortedDistinctUnique(Lex, a, b);
  }

  /** A file nobody can reach signs as the hash of the empty string. */
  lemma AccessSignatureWithoutGrantees(rels: Relations, fileId: Id, hash: string -> Digest)
    requires forall u :: !HasAccess(rels, fileId, u)
    ensures AccessSignature(rels, fileId, hash) == hash("")
  {
    var ids := FindAllUsersIds(ViewRows(rels), fileId);
    if ids != [] {
      ResolvedUsersAreGrantees(rels, fileId, ids[0]);
      assert false;
    }
  }

  /** `getFileSignatures(fileId)`: the live signatures of the file with that
      id, or nothing when there is no such file. */
  function GetFileSignatures(w: World, env: Env, fileId: Id): (r: Option<Signatures>)
    ensures r.None? <==> forall f :: f in w.store.files ==> f.id != fileId
    ensures r.Some? ==> r.value.access == AccessSignature(w.store.rels, fileId, env.hash)
    ensures r.Some? ==> r.value.contents == ContentSignature(w.disk, Repo(w), FindFile(w.store.files, fileId).value.path, env.hash)
  {
    match FindFile(w.store.files, fileId)
    case None => None
    case Some(f) =>
      Some(Signatures(ContentSignature(w.disk, Repo(w), f.path, env.hash),
                      AccessSignature(w.store.rels, f.id, env.hash)))
  }

  /** The stored signatures of a row equal the given live ones. */
  predicate InSync(f: FileRec, s: Signatures) {
    f.contentsSignature == s.contents && f.accessSignature == s.access
  }

  /** A tracked file whose stored signatures differ from its live ones. */
  predicate Stale(w: World, env: Env, f: FileRec) {
    var s := GetFileSignatures(w, env, f.id);
    s.Some? && !InSync(f, s.value)
  }

  /** The file with that id is tracked and its row is in sync. */
  predicate Fresh(w: World, env: Env, fileId: Id) {
    match FindFile(w.store.files, fileId)
    case None => false
    case Some(f) => !Stale(w, env, f)
  }

  /** `Files.update` with both signatures set. Both are non-empty digests,
      so the update cannot be refused. */
  function StoreSignatures(files: seq<FileRec>, fileId: Id, s: Signatures): (r: seq<FileRec>)
    ensures |r| == |files|
    ensures forall i :: 0 <= i < |r| ==> r[i].id == files[i].id && r[i].path == files[i].path
    ensures forall i :: 0 <= i < |r| && files[i].id != fileId ==> r[i] == files[i]
    ensures forall i :: 0 <= i < |r| && files[i].id == fileId ==> InSync(r[i], s)
  {
    var res := UpdateFile(files, FileUpdate(fileId, None, Some(s.contents), Some(s.access)));
    if res.Ok? then res.value else assert false; files
  }

  /** The call at the end of `updateFileSignatures` as written: the id string
      is passed where `Files.update` expects its record, and the signatures
      are passed as a second argument that `update` does not take. None of
      the record's fields can be read from a string, so the SET clause is
      empty and the statement is refused, whatever the signatures are. */
  function StoreSignaturesAsWritten(files: seq<FileRec>, fileId: Id, s: Signatures): (r: Result<seq<FileRec>, UpdateError>)
    ensures r == Err(EmptySetClause)
  {
    UpdateFile(files, FileUpdate("", None, None, None))
  }

  /** `updateFileSignatures(fileId)`: stores the file's live signatures in its
      row. Nothing happens for an unknown id; no other row and no relation
      changes. */
  function UpdateFileSignatures(w: World, env: Env, fileId: Id): (r: Store)
    ensures r == w.store.(files := r.files)
    ensures |r.files| == |w.store.files|
    ensures forall i :: 0 <= i < |r.files| ==> r.files[i].id == w.store.files[i].id && r.files[i].path == w.store.files[i].path
    ensures forall i :: 0 <= i < |r.files| && w.store.files[i].id != fileId ==> r.files[i] == w.store.files[i]
    ensures var s := GetFileSignatures(w, env, fileId);
      s.Some? ==> forall i :: 0 <= i < |r.files| && r.files[i].id == fileId ==> InSync(r.files[i], s.value)
    ensures GetFileSignatures(w, env, fileId).None? ==> r == w.store
  {
    match GetFileSignatures(w, env, fileId)
    case None => w.store
    case Some(s) => w.store.(files := StoreSignatures(w.store.files, fileId, s))
  }

  /** Live signatures read only the disk, the file's path and the relations,
      none of which a signature update changes. */
  lemma {:induction false} LiveSignaturesSurviveRefresh(w: World, env: Env, fileId: Id)
    requires UniqueFileIds(w.store.files)
    ensures GetFileSignatures(w.(store := UpdateFileSignatures(w, env, fileId)), env, fileId)
         == GetFileSignatures(w, env, fileId)
  {
    var w1 := w.(store := UpdateFileSignatures(w, env, fileId));
    var before := FindFile(w.store.files, fileId);
    var after := FindFile(w1.store.files, fileId);
    if before.Some? {
      var i :| 0 <= i < |w.store.files| && w.store.files[i] == before.value;
      FindFileByOwnId(w.store.files, i);
      assert UniqueFileIds(w1.store.files);
      FindFileByOwnId(w1.store.files, i);
      assert after == Some(w1.store.files[i]);
    } else {
      assert after.None?;
    }
  }

  /** After a refresh the file is in sync with its live signatures. */
  lemma RefreshedFileInSync(w: World, env: Env, fileId: Id)
    requires UniqueFileIds(w.store.files)
    requires GetFileSignatures(w, env, fileId).Some?
    ensures Fresh(w.(store := UpdateFileSignatures(w, env, fileId)), env, fileId)
  {
    LiveSignaturesSurviveRefresh(w, env, fileId);
  }

  // ---------------------------------------------------------------------
  // Creating entities

  /** `addUser`: an email already in use is a warning and changes nothing;
      otherwise a key pair is generated and stored for the new id before the
      user row is inserted. `generated` is `None` when key generation fails,
      which is reported as an error with nothing changed. */
  function AddUser(w: World, env: Env, email: string, name: Option<string>, newId: Id,
                   generated: Option<GeneratedKeys>): (r: (World, Response<Id>))
    ensures r.1.Warning? <==> GetByEmail(w.store.users, email).Some?
    ensures r.1.Warning? ==> r.0 == w && r.1.notice == AlreadyExists(UserKind, email)
    ensures r.1.Error? ==> r.0 == w
    ensures r.1.Success? ==>
      && r.1.value == newId
      && r.0.store == w.store.(users := w.store.users + [User(newId, email, name)])
      && PublicKeyPath(Repo(w), newId) in r.0.disk.files && PrivateKeyPath(Repo(w), newId) in r.0.disk.files
      && newId in r.0.pgp.cache
      && GetByEmail(r.0.store.users, email) == Some(User(newId, email, name))
    ensures UniqueEmails(w.store.users) ==> UniqueEmails(r.0.store.users)
  {
    if GetByEmail(w.store.users, email).Some? then (w, Warning(AlreadyExists(UserKind, email)))
    else if generated.None? then (w, Error(Failed("key generation failed")))
    else
      var (pgp, disk) := CreateKeyPair(w.pgp, w.disk, newId, generated.value, env.readKey);
      var (users, id) := CreateUser(w.store.users, Some(newId), newId, email, name);
      (World(w.store.(users := users), disk, pgp), Success(id))
  }

  /** `addTeam`: an existing name is a warning and changes nothing;
      otherwise the team is inserted under the new id. */
  function AddTeam(store: Store, name: string, description: Option<string>, newId: Id): (r: (Store, Response<Id>))
    ensures r.1.Warning? <==> GetTeamByName(store.teams, name).Some?
    ensures r.1.Warning? ==> r.0 == store && r.1.notice == AlreadyExists(TeamKind, name)
    ensures !r.1.Warning? ==> r.1 == Success(newId) && r.0 == store.(teams := store.teams + [Team(newId, name, description)])
    ensures !r.1.Warning? ==> GetTeamByName(r.0.teams, name) == Some(Team(newId, name, description))
    ensures UniqueTeamNames(store.teams) ==> UniqueTeamNames(r.0.teams)
  {
    if GetTeamByName(store.teams, name).Some? then (store, Warning(AlreadyExists(TeamKind, name)))
    else
      var (teams, id) := CreateTeam(store.teams, Some(newId), newId, name, description);
      (store.(teams := teams), Success(id))
  }

  /** `addCollection`: as `addTeam`, for collections. */
  function AddCollection(store: Store, name: string, description: Option<string>, newId: Id)
    : (r: (Store, Response<Id>))
    ensures r.1.Warning? <==> GetCollectionByName(store.collections, name).Some?
    ensures r.1.Warning? ==> r.0 == store && r.1.notice == AlreadyExists(CollectionKind, name)
    ensures !r.1.Warning? ==> r.1 == Success(newId)
                              && r.0 == store.(collections := store.collections + [Collection(newId, name, description)])
    ensures !r.1.Warning? ==> GetCollectionByName(r.0.collections, name) == Some(Collection(newId, name, description))
    ensures UniqueCollectionNames(store.collections) ==> UniqueCollectionNames(r.0.collections)
  {
    if GetCollectionByName(store.collections, name).Some? then (store, Warning(AlreadyExists(CollectionKind, name)))
    else
      var (collections, id) := CreateCollection(store.collections, Some(newId), newId, name, description);
      (store.(collections := collections), Success(id))
  }

  /** The placeholder signatures a new file row is created with. */
  const SetupSignature: string := "SETUP"

  /** `addFile`: the path is made repository-relative; a tracked path is a
      warning and changes nothing; otherwise the row is created with
      placeholder signatures which are then replaced by the live ones. */
  function AddFile(w: World, env: Env, path: string, newId: Id): (r: (World, Response<(Id, string)>))
    ensures r.1.Warning? <==> GetByPath(w.store.files, env.normalise(path)).Some?
    ensures r.1.Warning? ==> r.0 == w && r.1.notice == AlreadyExists(FileKind, env.normalise(path))
    ensures !r.1.Warning? ==>
      && r.1 == Success((newId, env.normalise(path)))
      && r.0.disk == w.disk && r.0.pgp == w.pgp
      && r.0.store.rels == w.store.rels && r.0.store.users == w.store.users
      && |r.0.store.files| == |w.store.files| + 1
      && r.0.store.files[|w.store.files|].id == newId
      && r.0.store.files[|w.store.files|].path == env.normalise(path)
      && GetByPath(r.0.store.files, env.normalise(path)) == Some(r.0.store.files[|w.store.files|])
    ensures UniquePaths(w.store.files) ==> UniquePaths(r.0.store.files)
  {
    var relativePath := env.normalise(path);
    if GetByPath(w.store.files, relativePath).Some? then (w, Warning(AlreadyExists(FileKind, relativePath)))
    else
      var (files, id) := CreateFile(w.store.files, Some(newId), newId, relativePath, SetupSignature, SetupSignature);
      var w1 := w.(store := w.store.(files := files));
      var store := UpdateFileSignatures(w1, env, id);
      NewFileRow(w, env, relativePath, newId);
      (w1.(store := store), Success((id, relativePath)))
  }

  /** The row `addFile` creates keeps paths unique and, after the signature
      refresh, is what a lookup by its path finds. */
  lemma NewFileRow(w: World, env: Env, relativePath: string, newId: Id)
    requires GetByPath(w.store.files, relativePath).None?
    ensures var files := w.store.files + [FileRec(newId, relativePath, SetupSignature, SetupSignature)];
      var store := UpdateFileSignatures(w.(store := w.store.(files := files)), env, newId);
      && |store.files| == |files|
      && (UniquePaths(w.store.files) ==> UniquePaths(store.files))
      && GetByPath(store.files, relativePath) == Some(store.files[|w.store.files|])
  {
    var files := w.store.files + [FileRec(newId, relativePath, SetupSignature, SetupSignature)];
    var store := UpdateFileSignatures(w.(store := w.store.(files := files)), env, newId);
    AppendedRowFound(w.store.files, files[|files| - 1], store.files);
  }

  /** Adding a team whose name was just added is a warning that changes nothing. */
  lemma AddTeamTwiceWarns(store: Store, name: string, d1: Option<string>, d2: Option<string>, id1: Id, id2: Id)
    ensures var (s1, _) := AddTeam(store, name, d1, id1);
            AddTeam(s1, name, d2, id2) == (s1, Warning(AlreadyExists(TeamKind, name)))
  {
  }

  /** Adding a user whose email was just added is a warning that changes nothing. */
  lemma AddUserTwiceWarns(w: World, env: Env, email: string, n1: Option<string>, n2: Option<string>, id1: Id, id2: Id,
                          g1: Option<GeneratedKeys>, g2: Option<GeneratedKeys>)
    requires AddUser(w, env, email, n1, id1, g1).1.Success?
    ensures var (w1, _) := AddUser(w, env, email, n1, id1, g1);
            AddUser(w1, env, email, n2, id2, g2) == (w1, Warning(AlreadyExists(UserKind, email)))
  {
  }

  /** Adding a path that was just added is a warning that changes nothing. */
  lemma AddFileTwiceWarns(w: World, env: Env, path: string, id1: Id, id2: Id)
    ensures var (w1, _) := AddFile(w, env, path, id1);
            AddFile(w1, env, path, id2) == (w1, Warning(AlreadyExists(FileKind, env.normalise(path))))
  {
  }

  /** A newly added file (under a fresh id) starts in sync: its stored
      signatures are its live ones. */
  lemma AddedFileInSync(w: World, env: Env, path: string, newId: Id)
    requires UniqueFileIds(w.store.files)
    requires forall f :: f in w.store.files ==> f.id != newId
    requires GetByPath(w.store.files, env.normalise(path)).None?
    ensures Fresh(AddFile(w, env, path, newId).0, env, newId)
  {
    var (files, id) := CreateFile(w.store.files, Some(newId), newId, env.normalise(path), SetupSignature, SetupSignature);
    var w1 := w.(store := w.store.(files := files));
    assert UniqueFileIds(files) by {
      assert forall i :: 0 <= i < |w.store.files| ==> files[i] == w.store.files[i];
      assert files[|files| - 1].id == newId;
    }
    assert FindFile(files, newId).Some? by {
      assert files[|files| - 1] in files;
    }
    RefreshedFileInSync(w1, env, newId);
  }

  // ---------------------------------------------------------------------
  // Resolving names, emails and paths to ids

  /** Each item's id, or the index of the first item whose id is missing or
      empty (the source resolves the whole list, then checks it in order). */
  function ResolveAll(items: seq<string>, resolve: string -> Option<Id>): (r: Result<seq<Id>, nat>)
    ensures r.Ok? <==> forall i :: 0 <= i < |items| ==> Present(resolve(items[i]))
    ensures r.Ok? ==> |r.value| == |items|
                      && forall i :: 0 <= i < |items| ==> Some(r.value[i]) == resolve(items[i]) && r.value[i] != ""
    ensures r.Err? ==> r.error < |items| && !Present(resolve(items[r.error]))
                       && forall j :: 0 <= j < r.error ==> Present(resolve(items[j]))
  {
    if items == [] then Ok([])
    else
      var head := resolve(items[0]);
      var rest := ResolveAll(items[1..], resolve);
      if !Present(head) then Err(0)
      else if rest.Err? then
        assert forall j :: 1 <= j < rest.error + 1 ==> Present(resolve(items[j])) by {
          forall j | 1 <= j < rest.error + 1 ensures Present(resolve(items[j])) {
            assert items[j] == items[1..][j - 1];
          }
        }
        Err(rest.error + 1)
      else
        assert forall i :: 1 <= i < |items| ==> Some(rest.value[i - 1]) == resolve(items[i]) by {
          forall i | 1 <= i < |items| ensures Some(rest.value[i - 1]) == resolve(items[i]) {
            assert items[i] == items[1..][i - 1];
          }
        }
        Ok([head.value] + rest.value)
  }

  function TeamIdByName(store: Store, name: string): Option<Id> {
    match GetTeamByName(store.teams, name) case None => None case Some(t) => Some(t.id)
  }

  function UserIdByEmail(store: Store, email: string): Option<Id> {
    match GetByEmail(store.users, email) case None => None case Some(u) => Some(u.id)
  }

  function CollectionIdByName(store: Store, name: string): Option<Id> {
    match GetCollectionByName(store.collections, name) case None => None case Some(c) => Some(c.id)
  }

  function FileIdByPath(store: Store, env: Env, path: string): Option<Id> {
    match GetByPath(store.files, env.normalise(path)) case None => None case Some(f) => Some(f.id)
  }

  function TeamIds(store: Store, names: seq<string>): Result<seq<Id>, nat> {
    ResolveAll(names, (n: string) => TeamIdByName(store, n))
  }

  function UserIds(store: Store, emails: seq<string>): Result<seq<Id>, nat> {
    ResolveAll(emails, (e: string) => UserIdByEmail(store, e))
  }

  function CollectionIds(store: Store, names: seq<string>): Result<seq<Id>, nat> {
    ResolveAll(names, (n: string) => CollectionIdByName(store, n))
  }

  function FileIds(store: Store, env: Env, paths: seq<string>): Result<seq<Id>, nat> {
    ResolveAll(paths, (p: string) => FileIdByPath(store, env, p))
  }

  /** The links `<Relation>.add` / `.remove` receives for a cross product. */
  function Links(make: (Id, Id) -> Link, pairs: Rows): seq<Link> {
    Map((p: Pair) => make(p.key1, p.key2), pairs)
  }

  /** The links made for a list of pairs put exactly those pairs into the
      relation the link shape names. */
  lemma LinksOfPairs(make: (Id, Id) -> Link, kind: RelationKind, pairs: Rows, k: RelationKind, p: Pair)
    requires forall a, b :: make(a, b).Kind() == kind && make(a, b).Row() == Pair(a, b)
    ensures LinksTouch(Links(make, pairs), k, p) <==> k == kind && p in pairs
  {
    var links := Links(make, pairs);
    if k == kind && p in pairs {
      var i :| 0 <= i < |pairs| && pairs[i] == p;
      assert links[i] == make(p.key1, p.key2);
    }
    if LinksTouch(links, k, p) {
      var i :| 0 <= i < |links| && links[i].Kind() == k && links[i].Row() == p;
      assert links[i] == make(pairs[i].key1, pairs[i].key2);
      assert p == pairs[i];
    }
  }

  function TeamUserLink(teamId: Id, userId: Id): Link { TeamUser(teamId, userId) }
  function CollectionFileLink(collectionId: Id, fileId: Id): Link { CollectionFile(collectionId, fileId) }
  function FileUserLink(fileId: Id, userId: Id): Link { FileUser(fileId, userId) }
  function FileTeamLink(fileId: Id, teamId: Id): Link { FileTeam(fileId, teamId) }

  /** Each link shape fills the relation it names with its two ids in order. */
  ghost predicate LinkShape(make: (Id, Id) -> Link, kind: RelationKind) {
    forall a, b :: make(a, b).Kind() == kind && make(a, b).Row() == Pair(a, b)
  }

  lemma LinkShapes()
    ensures LinkShape(TeamUserLink, TeamUsers) && LinkShape(CollectionFileLink, CollectionFiles)
    ensures LinkShape(FileUserLink, FileUsers) && LinkShape(FileTeamLink, FileTeams)
  {
  }

  /** One relation `add` (or `remove`) per pair, in order, through links of
      one shape: relation `kind` gains (or loses) exactly the pairs, and the
      other relations stay row for row. */
  function ApplyPairs(rels: Relations, op: Op, make: (Id, Id) -> Link, kind: RelationKind, pairs: Rows): (r: Relations)
    requires LinkShape(make, kind)
    ensures forall p :: (p in r.Get(kind)) == Effect(op, p in rels.Get(kind), p in pairs)
    ensures forall k :: k != kind ==> r.Get(k) == rels.Get(k)
    ensures WellFormed(rels) ==> WellFormed(r)
  {
    var links := Links(make, pairs);
    forall p ensures LinksTouch(links, kind, p) <==> p in pairs {
      LinksOfPairs(make, kind, pairs, kind, p);
    }
    forall k | k != kind ensures ApplyLinks(rels, op, links).Get(k) == rels.Get(k) {
      forall i | 0 <= i < |links| ensures links[i].Kind() != k {
        assert links[i] == make(pairs[i].key1, pairs[i].key2);
      }
      NoLinkOfKindKeepsRows(rels, op, links, k);
    }
    ApplyLinks(rels, op, links)
  }

  // ---------------------------------------------------------------------
  // Team membership and collection contents

  /** `modifyTeamUsers`: every team name, then every email, must resolve;
      the first that does not is reported and nothing changes. Otherwise
      every (team, user) pair of the cross product is added or removed. */
  function ModifyTeamUsers(store: Store, op: Op, teams: MaybeArray, users: MaybeArray): (r: (Store, Response<()>))
    ensures TeamIds(store, Items(teams)).Err? ==>
      r == (store, Error(NotFound(TeamKind, Items(teams)[TeamIds(store, Items(teams)).error])))
    ensures TeamIds(store, Items(teams)).Ok? && UserIds(store, Items(users)).Err? ==>
      r == (store, Error(NotFound(UserKind, Items(users)[UserIds(store, Items(users)).error])))
    ensures TeamIds(store, Items(teams)).Ok? && UserIds(store, Items(users)).Ok? ==>
      var (ts, us) := (TeamIds(store, Items(teams)).value, UserIds(store, Items(users)).value);
      && r.1 == Success(())
      && r.0 == store.(rels := r.0.rels)
      && (forall p :: (p in r.0.rels.teamUsers) == Effect(op, p in store.rels.teamUsers, p.key1 in ts && p.key2 in us))
      && (forall k :: k != TeamUsers ==> r.0.rels.Get(k) == store.rels.Get(k))
    ensures Consistent(store) ==> Consistent(r.0)
  {
    var teamIds := TeamIds(store, Items(teams));
    var userIds := UserIds(store, Items(users));
    if teamIds.Err? then (store, Error(NotFound(TeamKind, Items(teams)[teamIds.error])))
    else if userIds.Err? then (store, Error(NotFound(UserKind, Items(users)[userIds.error])))
    else
      LinkShapes();
      var rels := ApplyPairs(store.rels, op, TeamUserLink, TeamUsers, CrossPairs(teamIds.value, userIds.value));
      assert rels.teamUsers == rels.Get(TeamUsers) && store.rels.teamUsers == store.rels.Get(TeamUsers);
      (store.(rels := rels), Success(()))
  }

  /** `modifyCollectionFiles`: collection names first, then file paths (made
      repository-relative); on success every (collection, file) pair of the
      cross product is added or removed. */
  function ModifyCollectionFiles(store: Store, env: Env, op: Op, collections: MaybeArray, files: MaybeArray)
    : (r: (Store, Response<()>))
    ensures CollectionIds(store, Items(collections)).Err? ==>
      r == (store, Error(NotFound(CollectionKind, Items(collections)[CollectionIds(store, Items(collections)).error])))
    ensures CollectionIds(store, Items(collections)).Ok? && FileIds(store, env, Items(files)).Err? ==>
      r == (store, Error(NotFound(FileKind, env.normalise(Items(files)[FileIds(store, env, Items(files)).error]))))
    ensures CollectionIds(store, Items(collections)).Ok? && FileIds(store, env, Items(files)).Ok? ==>
      var (cs, fs) := (CollectionIds(store, Items(collections)).value, FileIds(store, env, Items(files)).value);
      && r.1 == Success(())
      && r.0 == store.(rels := r.0.rels)
      && (forall p :: (p in r.0.rels.collectionFiles) == Effect(op, p in store.rels.collectionFiles, p.key1 in cs && p.key2 in fs))
      && (forall k :: k != CollectionFiles ==> r.0.rels.Get(k) == store.rels.Get(k))
    ensures Consistent(store) ==> Consistent(r.0)
  {
    var collectionIds := CollectionIds(store, Items(collections));
    var fileIds := FileIds(store, env, Items(files));
    if collectionIds.Err? then (store, Error(NotFound(CollectionKind, Items(collections)[collectionIds.error])))
    else if fileIds.Err? then (store, Error(NotFound(FileKind, env.normalise(Items(files)[fileIds.error]))))
    else
      LinkShapes();
      var rels := ApplyPairs(store.rels, op, CollectionFileLink, CollectionFiles, CrossPairs(collectionIds.value, fileIds.value));
      assert rels.collectionFiles == rels.Get(CollectionFiles) && store.rels.collectionFiles == store.rels.Get(CollectionFiles);
      (store.(rels := rels), Success(()))
  }

  /** The message of a failed team lookup as written: the argument as the
      caller passed it, indexed by the failing position of the normalised
      list. For a single name that is one of its characters. */
  function TeamErrorNameAsWritten(teams: MaybeArray, idx: nat): Option<string> {
    RawIndex(teams, idx)
  }

  /** A single unknown team name of two or more characters: the model's
      error names it, the message as written names its first character. */
  lemma TeamErrorNameAsWrittenTruncates(store: Store, op: Op, name: string, users: MaybeArray)
    requires |name| >= 2
    requires !Present(TeamIdByName(store, name))
    ensures ModifyTeamUsers(store, op, One(name), users).1 == Error(NotFound(TeamKind, name))
    ensures TeamErrorNameAsWritten(One(name), 0) == Some([name[0]])
    ensures [name[0]] != name
  {
    assert Items(One(name)) == [name];
    assert TeamIds(store, [name]).Err?;
    assert |[name[0]]| == 1;
  }

  // ---------------------------------------------------------------------
  // Access grants

  function FileUserGrant(f: Id, u: Id): Grant { Grant(Some(f), None, Some(u), None) }
  function FileTeamGrant(f: Id, t: Id): Grant { Grant(Some(f), None, None, Some(t)) }
  function CollectionUserGrant(c: Id, u: Id): Grant { Grant(None, Some(c), Some(u), None) }
  function CollectionTeamGrant(c: Id, t: Id): Grant { Grant(None, Some(c), None, Some(t)) }

  /** One grant per pair. */
  function GrantsFor(make: (Id, Id) -> Grant, pairs: Rows): seq<Grant> {
    Map((p: Pair) => make(p.key1, p.key2), pairs)
  }

  /** The grants `modifyAccess` passes to the access manager, in order:
      files×users, files×teams, collections×users, collections×teams. */
  function AccessGrants(fs: seq<Id>, cs: seq<Id>, ts: seq<Id>, us: seq<Id>): seq<Grant> {
    GrantsFor(FileUserGrant, CrossPairs(fs, us)) + GrantsFor(FileTeamGrant, CrossPairs(fs, ts))
    + GrantsFor(CollectionUserGrant, CrossPairs(cs, us)) + GrantsFor(CollectionTeamGrant, CrossPairs(cs, ts))
  }

  lemma GrantsTouchAppend(a: seq<Grant>, b: seq<Grant>, k: RelationKind, p: Pair)
    ensures GrantsTouch(a + b, k, p) <==> GrantsTouch(a, k, p) || GrantsTouch(b, k, p)
  {
    if GrantsTouch(a + b, k, p) {
      var i :| 0 <= i < |a + b| && GrantRow((a + b)[i], k) == Some(p);
      if i >= |a| { assert b[i - |a|] == (a + b)[i]; }
    }
    if GrantsTouch(a, k, p) {
      var i :| 0 <= i < |a| && GrantRow(a[i], k) == Some(p);
      assert (a + b)[i] == a[i];
    }
    if GrantsTouch(b, k, p) {
      var i :| 0 <= i < |b| && GrantRow(b[i], k) == Some(p);
      assert (a + b)[|a| + i] == b[i];
    }
  }

  /** Every resolved id is non-empty. */
  predicate NonEmptyIds(xs: seq<Id>) {
    forall x :: x in xs ==> x != ""
  }

  /** The relation a grant shape fills, given two non-empty ids. */
  ghost predicate Shape(make: (Id, Id) -> Grant, kind: RelationKind) {
    forall a, b, k :: a != "" && b != "" ==> GrantRow(make(a, b), k) == if k == kind then Some(Pair(a, b)) else None
  }

  lemma Shapes()
    ensures Shape(FileUserGrant, FileUsers) && Shape(FileTeamGrant, FileTeams)
    ensures Shape(CollectionUserGrant, CollectionUsers) && Shape(CollectionTeamGrant, CollectionTeams)
  {
  }

  /** The grants made for a cross product of non-empty ids touch exactly
      that product, in the relation the grant shape names. */
  lemma GrantsForCross(make: (Id, Id) -> Grant, kind: RelationKind, xs: seq<Id>, ys: seq<Id>, k: RelationKind, p: Pair)
    requires NonEmptyIds(xs) && NonEmptyIds(ys) && Shape(make, kind)
    ensures GrantsTouch(GrantsFor(make, CrossPairs(xs, ys)), k, p) <==> k == kind && p.key1 in xs && p.key2 in ys
  {
    var pairs := CrossPairs(xs, ys);
    var grants := GrantsFor(make, pairs);
    if GrantsTouch(grants, k, p) {
      var i :| 0 <= i < |grants| && GrantRow(grants[i], k) == Some(p);
      assert pairs[i] in pairs;
    }
    if k == kind && p.key1 in xs && p.key2 in ys {
      var i :| 0 <= i < |pairs| && pairs[i] == p;
      assert GrantRow(grants[i], k) == Some(p);
    }
  }

  /** The pairs `modifyAccess` adds or removes: files×users, files×teams,
      collections×users and collections×teams, nothing in the other two
      relations. */
  predicate AccessTouched(fs: seq<Id>, cs: seq<Id>, ts: seq<Id>, us: seq<Id>, k: RelationKind, p: Pair) {
    || (k == FileUsers && p.key1 in fs && p.key2 in us)
    || (k == FileTeams && p.key1 in fs && p.key2 in ts)
    || (k == CollectionUsers && p.key1 in cs && p.key2 in us)
    || (k == CollectionTeams && p.key1 in cs && p.key2 in ts)
  }

  /** Which pairs the grants of `modifyAccess` touch, relation by relation. */
  lemma AccessGrantsTouch(fs: seq<Id>, cs: seq<Id>, ts: seq<Id>, us: seq<Id>, k: RelationKind, p: Pair)
    requires NonEmptyIds(fs) && NonEmptyIds(cs) && NonEmptyIds(ts) && NonEmptyIds(us)
    ensures GrantsTouch(AccessGrants(fs, cs, ts, us), k, p) <==> AccessTouched(fs, cs, ts, us, k, p)
  {
    var g1 := GrantsFor(FileUserGrant, CrossPairs(fs, us));
    var g2 := GrantsFor(FileTeamGrant, CrossPairs(fs, ts));
    var g3 := GrantsFor(CollectionUserGrant, CrossPairs(cs, us));
    var g4 := GrantsFor(CollectionTeamGrant, CrossPairs(cs, ts));
    GrantsTouchAppend(g1, g2, k, p);
    GrantsTouchAppend(g1 + g2, g3, k, p);
    GrantsTouchAppend(g1 + g2 + g3, g4, k, p);
    Shapes();
    GrantsForCross(FileUserGrant, FileUsers, fs, us, k, p);
    GrantsForCross(FileTeamGrant, FileTeams, fs, ts, k, p);
    GrantsForCross(CollectionUserGrant, CollectionUsers, cs, us, k, p);
    GrantsForCross(CollectionTeamGrant, CollectionTeams, cs, ts, k, p);
  }

  /** The access manager applied to every grant of the four cross products. */
  function GrantAccess(rels: Relations, op: Op, fs: seq<Id>, cs: seq<Id>, ts: seq<Id>, us: seq<Id>): (r: Relations)
    requires NonEmptyIds(fs) && NonEmptyIds(cs) && NonEmptyIds(ts) && NonEmptyIds(us)
    ensures forall k, p :: (p in r.Get(k)) == Effect(op, p in rels.Get(k), AccessTouched(fs, cs, ts, us, k, p))
    ensures r.teamUsers == rels.teamUsers && r.collectionFiles == rels.collectionFiles
    ensures WellFormed(rels) ==> WellFormed(r)
  {
    var grants := AccessGrants(fs, cs, ts, us);
    forall k, p ensures GrantsTouch(grants, k, p) <==> AccessTouched(fs, cs, ts, us, k, p) {
      AccessGrantsTouch(fs, cs, ts, us, k, p);
    }
    ApplyGrants(rels, op, grants)
  }

  /** Revoking what was just granted removes every touched pair and keeps
      every other pair as it was before the grant. */
  lemma GrantThenRevoke(rels: Relations, fs: seq<Id>, cs: seq<Id>, ts: seq<Id>, us: seq<Id>, k: RelationKind, p: Pair)
    requires NonEmptyIds(fs) && NonEmptyIds(cs) && NonEmptyIds(ts) && NonEmptyIds(us)
    ensures p in GrantAccess(GrantAccess(rels, AddOp, fs, cs, ts, us), RemoveOp, fs, cs, ts, us).Get(k)
            <==> p in rels.Get(k) && !AccessTouched(fs, cs, ts, us, k, p)
  {
    var granted := GrantAccess(rels, AddOp, fs, cs, ts, us);
    assert (p in granted.Get(k)) == Effect(AddOp, p in rels.Get(k), AccessTouched(fs, cs, ts, us, k, p));
  }

  /** The outcome of the four resolutions in the order `modifyAccess` checks
      them: files, collections, teams, users. */
  datatype Resolution = Resolved(fs: seq<Id>, cs: seq<Id>, ts: seq<Id>, us: seq<Id>) | Unresolved(notice: Notice)

  function ResolveAccess(store: Store, env: Env, files: seq<string>, collections: seq<string>, teams: seq<string>,
                         users: seq<string>): (r: Resolution)
    ensures r.Resolved? <==> (FileIds(store, env, files).Ok? && CollectionIds(store, collections).Ok?
                              && TeamIds(store, teams).Ok? && UserIds(store, users).Ok?)
    ensures FileIds(store, env, files).Err? ==>
      r == Unresolved(NotFound(FileKind, files[FileIds(store, env, files).error]))
    ensures FileIds(store, env, files).Ok? && CollectionIds(store, collections).Err? ==>
      r == Unresolved(NotFound(CollectionKind, collections[CollectionIds(store, collections).error]))
    ensures FileIds(store, env, files).Ok? && CollectionIds(store, collections).Ok? && TeamIds(store, teams).Err? ==>
      r == Unresolved(NotFound(TeamKind, teams[TeamIds(store, teams).error]))
    ensures !r.Resolved? && FileIds(store, env, files).Ok? && CollectionIds(store, collections).Ok?
            && TeamIds(store, teams).Ok? ==>
      r == Unresolved(NotFound(UserKind, users[UserIds(store, users).error]))
    ensures r.Resolved? ==> r == Resolved(FileIds(store, env, files).value, CollectionIds(store, collections).value,
                                          TeamIds(store, teams).value, UserIds(store, users).value)
    ensures r.Resolved? ==> NonEmptyIds(r.fs) && NonEmptyIds(r.cs) && NonEmptyIds(r.ts) && NonEmptyIds(r.us)
  {
    var fs := FileIds(store, env, files);
    var cs := CollectionIds(store, collections);
    var ts := TeamIds(store, teams);
    var us := UserIds(store, users);
    if fs.Err? then Unresolved(NotFound(FileKind, files[fs.error]))
    else if cs.Err? then Unresolved(NotFound(CollectionKind, collections[cs.error]))
    else if ts.Err? then Unresolved(NotFound(TeamKind, teams[ts.error]))
    else if us.Err? then Unresolved(NotFound(UserKind, users[us.error]))
    else Resolved(fs.value, cs.value, ts.value, us.value)
  }

  /** `modifyAccess`: all four lists must resolve (files by their
      repository-relative path; the error quotes the path as given);
      otherwise the first failure is reported and nothing changes. On
      success exactly the pairs files×users, files×teams, collections×users
      and collections×teams are added or removed; the tables, team
      membership and collection contents are untouched. */
  function ModifyAccess(store: Store, env: Env, op: Op, files: MaybeArray, collections: MaybeArray,
                        users: MaybeArray, teams: MaybeArray): (r: (Store, Response<()>))
    ensures var res := ResolveAccess(store, env, Items(files), Items(collections), Items(teams), Items(users));
      && (res.Unresolved? ==> r == (store, Error(res.notice)))
      && (res.Resolved? ==>
            && r.1 == Success(())
            && r.0 == store.(rels := r.0.rels)
            && forall k, p :: (p in r.0.rels.Get(k)) == Effect(op, p in store.rels.Get(k), AccessTouched(res.fs, res.cs, res.ts, res.us, k, p)))
    ensures Consistent(store) ==> Consistent(r.0)
  {
    var res := ResolveAccess(store, env, Items(files), Items(collections), Items(teams), Items(users));
    match res
    case Unresolved(notice) => (store, Error(notice))
    case Resolved(fs, cs, ts, us) => (store.(rels := GrantAccess(store.rels, op, fs, cs, ts, us)), Success(()))
  }
}

=== FILE: relations.dfy ===
/** The six many-to-many relations. Each relation class names its two
    entities; the first-named entity is stored as key1 and the second as
    key2, and `add`/`remove` both forward their arguments in that order. */
module Relations {
  import opened Seqs
  import opened TablesBase

  datatype RelationKind = TeamUsers | CollectionFiles | FileUsers | FileTeams | CollectionUsers | CollectionTeams

  /** The argument record of one relation class's `add` or `remove`. */
  datatype Link =
    | TeamUser(teamId: Id, userId: Id)
    | CollectionFile(collectionId: Id, fileId: Id)
    | FileUser(fileId: Id, userId: Id)
    | FileTeam(fileId: Id, teamId: Id)
    | CollectionUser(collectionId: Id, userId: Id)
    | CollectionTeam(collectionId: Id, teamId: Id)
  {
    function Kind(): RelationKind {
      match this
      case TeamUser(_, _) => TeamUsers
      case CollectionFile(_, _) => CollectionFiles
      case FileUser(_, _) => FileUsers
      case FileTeam(_, _) => FileTeams
      case CollectionUser(_, _) => CollectionUsers
      case CollectionTeam(_, _) => CollectionTeams
    }

    /** The (key1, key2) row the class passes to the base table. */
    function Row(): Pair {
      match this
      case TeamUser(t, u) => Pair(t, u)
      case CollectionFile(c, f) => Pair(c, f)
      case FileUser(f, u) => Pair(f, u)
      case FileTeam(f, t) => Pair(f, t)
      case CollectionUser(c, u) => Pair(c, u)
      case CollectionTeam(c, t) => Pair(c, t)
    }
  }

  datatype Relations = Relations(teamUsers: Rows, collectionFiles: Rows, fileUsers: Rows, fileTeams: Rows,
                                 collectionUsers: Rows, collectionTeams: Rows)
  {
    function Get(k: RelationKind): Rows {
      match k
      case TeamUsers => teamUsers
      case CollectionFiles => collectionFiles
      case FileUsers => fileUsers
      case FileTeams => fileTeams
      case CollectionUsers => collectionUsers
      case CollectionTeams => collectionTeams
    }

    function With(k: RelationKind, rows: Rows): (r: Relations)
      ensures r.Get(k) == rows
      ensures forall k' :: k' != k ==> r.Get(k') == Get(k')
    {
      match k
      case TeamUsers => this.(teamUsers := rows)
      case CollectionFiles => this.(collectionFiles := rows)
      case FileUsers => this.(fileUsers := rows)
      case FileTeams => this.(fileTeams := rows)
      case CollectionUsers => this.(collectionUsers := rows)
      case CollectionTeams => this.(collectionTeams := rows)
    }
  }

  /** Every relation keeps its rows distinct (the unique index). */
  predicate WellFormed(rels: Relations) {
    forall k :: Distinct(rels.Get(k))
  }

  /** `<Relation>.add(link)`: the pair lands in the relation the class names,
      with the first-named entity as key1; every other relation is untouched. */
  function Add(rels: Relations, link: Link): (r: Relations)
    ensures Elems(r.Get(link.Kind())) == Elems(rels.Get(link.Kind())) + {link.Row()}
    ensures forall k :: k != link.Kind() ==> r.Get(k) == rels.Get(k)
    ensures link.TeamUser? ==> Pair(link.teamId, link.userId) in r.teamUsers
    ensures link.CollectionFile? ==> Pair(link.collectionId, link.fileId) in r.collectionFiles
    ensures link.FileUser? ==> Pair(link.fileId, link.userId) in r.fileUsers
    ensures link.FileTeam? ==> Pair(link.fileId, link.teamId) in r.fileTeams
    ensures link.CollectionUser? ==> Pair(link.collectionId, link.userId) in r.collectionUsers
    ensures link.CollectionTeam? ==> Pair(link.collectionId, link.teamId) in r.collectionTeams
    ensures WellFormed(rels) ==> WellFormed(r)
  {
    var k := link.Kind();
    rels.With(k, AddRelationship(rels.Get(k), link.Row().key1, link.Row().key2))
  }

  /** `<Relation>.remove(link)`: exactly the pair `add(link)` inserts leaves
      the relation the class names; every other relation is untouched. */
  function Remove(rels: Relations, link: Link): (r: Relations)
    ensures Elems(r.Get(link.Kind())) == Elems(rels.Get(link.Kind())) - {link.Row()}
    ensures forall k :: k != link.Kind() ==> r.Get(k) == rels.Get(k)
    ensures link.Row() !in rels.Get(link.Kind()) ==> r == rels
    ensures WellFormed(rels) ==> WellFormed(r)
  {
    var k := link.Kind();
    rels.With(k, RemoveRelationship(rels.Get(k), link.Row().key1, link.Row().key2))
  }

  /** Adding the same link twice is adding it once. */
  lemma AddIdempotent(rels: Relations, link: Link)
    ensures Add(Add(rels, link), link) == Add(rels, link)
  {
    var k := link.Kind();
    AddRelationshipIdempotent(rels.Get(k), link.Row().key1, link.Row().key2);
    assert Add(Add(rels, link), link).Get(k) == Add(rels, link).Get(k);
    assert forall k' :: Add(Add(rels, link), link).Get(k') == Add(rels, link).Get(k');
  }

  /** `remove` undoes `add` of a pair that was absent: the relations are
      restored row for row. */
  lemma AddThenRemoveRestores(rels: Relations, link: Link)
    requires link.Row() !in rels.Get(link.Kind())
    ensures Remove(Add(rels, link), link) == rels
  {
    var k := link.Kind();
    AddThenRemove(rels.Get(k), link.Row().key1, link.Row().key2);
    assert forall k' :: Remove(Add(rels, link), link).Get(k') == rels.Get(k');
  }
}

=== FILE: seqs.dfy ===
/** Sequence helpers the JavaScript code gets from its runtime: the element
    set of a list, `filter`, `map`, `flatMap` of pairs, and the
    first-occurrence deduplication `[...new Set(xs)]`. */
module Seqs {

  function Elems<T(!new)>(xs: seq<T>): (r: set<T>)
    ensures forall x :: x in r <==> x in xs
  {
    set x | x in xs
  }

  predicate Distinct<T(==)>(xs: seq<T>) {
    forall i, j | 0 <= i < j < |xs| :: xs[i] != xs[j]
  }

  function Filter<T(!new)>(p: T -> bool, xs: seq<T>): (r: seq<T>)
    ensures forall x :: x in r <==> x in xs && p(x)
    ensures |r| <= |xs|
    ensures Distinct(xs) ==> Distinct(r)
  {
    if xs == [] then []
    else if p(xs[0]) then [xs[0]] + Filter(p, xs[1..])
    else Filter(p, xs[1..])
  }

  function Map<T, U>(f: T -> U, xs: seq<T>): (r: seq<U>)
    ensures |r| == |xs|
    ensures forall i :: 0 <= i < |xs| ==> r[i] == f(xs[i])
  {
    if xs == [] then [] else [f(xs[0])] + Map(f, xs[1..])
  }

  /** `[...new Set(xs)]`: each element once, in order of first occurrence. */
  function Dedup<T(==,!new)>(xs: seq<T>): (r: seq<T>)
    ensures Distinct(r)
    ensures Elems(r) == Elems(xs)
    ensures |r| <= |xs|
  {
    DedupInto([], xs)
  }

  /** Walks `rest`, appending each element not already in `seen`. */
  function DedupInto<T(==,!new)>(seen: seq<T>, rest: seq<T>): (r: seq<T>)
    requires Distinct(seen)
    ensures Distinct(r)
    ensures Elems(r) == Elems(seen) + Elems(rest)
    ensures |r| <= |seen| + |rest|
    ensures |seen| <= |r| && r[..|seen|] == seen
    decreases rest
  {
    if rest == [] then seen
    else if rest[0] in seen then DedupInto(seen, rest[1..])
    else DedupInto(seen + [rest[0]], rest[1..])
  }

  /** A distinct list has no element twice in its multiset. */
  lemma {:induction false} DistinctCounts<T>(xs: seq<T>)
    requires Distinct(xs)
    ensures forall x :: multiset(xs)[x] <= 1
  {
    if xs != [] {
      assert Distinct(xs[1..]);
      DistinctCounts(xs[1..]);
      assert xs == [xs[0]] + xs[1..];
      assert xs[0] !in xs[1..];
      assert multiset(xs) == multiset{xs[0]} + multiset(xs[1..]);
    }
  }

  /** A list with a repeated element counts it at least twice. */
  lemma RepeatCounts<T>(xs: seq<T>, i: nat, j: nat)
    requires i < j < |xs| && xs[i] == xs[j]
    ensures multiset(xs)[xs[i]] >= 2
  {
    assert xs == xs[..j] + xs[j..];
    assert xs[i] in xs[..j];
    assert xs[j] in xs[j..];
    assert multiset(xs) == multiset(xs[..j]) + multiset(xs[j..]);
  }

  /** Distinctness depends only on the multiset of elements. */
  lemma DistinctPermutation<T>(a: seq<T>, b: seq<T>)
    requires Distinct(a) && multiset(a) == multiset(b)
    ensures Distinct(b)
  {
    DistinctCounts(a);
    forall i, j | 0 <= i < j < |b|
      ensures b[i] != b[j]
    {
      if b[i] == b[j] {
        RepeatCounts(b, i, j);
      }
    }
  }

  /** One row of the product: `x` with every element of `ys`. */
  lemma CrossRow<A, B>(x: A, ys: seq<B>)
    ensures forall a, b :: (a, b) in Map((b: B) => (x, b), ys) <==> a == x && b in ys
  {
    var row := Map((b: B) => (x, b), ys);
    forall a, b
      ensures (a, b) in row <==> a == x && b in ys
    {
      if b in ys {
        var k :| 0 <= k < |ys| && ys[k] == b;
        assert row[k] == (x, b);
      }
    }
  }

  lemma MulSucc(n: nat, m: nat)
    ensures (n + 1) * m == m + n * m
  {
  }

  /** Row `a` of an `n`-row table with `m` columns ends before the table does. */
  lemma RowIndexBound(a: nat, n: nat, j: nat, m: nat)
    requires a < n && j < m
    ensures a * m + j < n * m
  {
    MulSucc(a, m);
    assert (a + 1) * m <= n * m by {
      var d := n - (a + 1);
      assert n * m == (a + 1) * m + d * m;
    }
  }

  /** `xs.flatMap(a => ys.map(b => [a, b]))`: every combination, `xs` outermost. */
  function Cross<A(!new), B(!new)>(xs: seq<A>, ys: seq<B>): (r: seq<(A, B)>)
    ensures |r| == |xs| * |ys|
    ensures forall a, b :: (a, b) in r <==> a in xs && b in ys
  {
    if xs == [] then []
    else
      var row := Map((b: B) => (xs[0], b), ys);
      CrossRow(xs[0], ys);
      var rest := Cross(xs[1..], ys);
      MulSucc(|xs[1..]|, |ys|);
      row + rest
  }

  /** The product is in `flatMap` order: entry i·|ys| + j pairs `xs[i]`
      with `ys[j]`. */
  lemma {:induction false} CrossOrder<A(!new), B(!new)>(xs: seq<A>, ys: seq<B>, i: nat, j: nat)
    requires i < |xs| && j < |ys|
    ensures i * |ys| + j < |Cross(xs, ys)| && Cross(xs, ys)[i * |ys| + j] == (xs[i], ys[j])
    decreases i
  {
    var m := |ys|;
    var k := i * m + j;
    assert k < |xs| * m by { RowIndexBound(i, |xs|, j, m); }
    var row := Map((b: B) => (xs[0], b), ys);
    var rest := Cross(xs[1..], ys);
    assert Cross(xs, ys) == row + rest;
    if i == 0 {
      assert k == j;
    } else {
      var k' := (i - 1) * m + j;
      assert k == m + k' by { MulSucc(i - 1, m); }
      assert k' < |rest| && rest[k'] == (xs[i], ys[j]) by {
        CrossOrder(xs[1..], ys, i - 1, j);
        assert xs[1..][i - 1] == xs[i];
      }
      assert (row + rest)[k] == rest[k'];
    }
  }
}

=== FILE: sorting.dfy ===
/** Sorting under a total order. JavaScript's `Array.prototype.sort` is
    modelled by insertion sort: any correct sort of a list of DISTINCT
    elements yields the same list (SortedDistinctUnique), so the algorithm
    choice is invisible to every caller in this model. */
module Sorting {
  import opened Seqs

  ghost predicate TotalOrder<T(!new)>(le: (T, T) -> bool) {
    && (forall x, y :: le(x, y) && le(y, x) ==> x == y)
    && (forall x, y, z :: le(x, y) && le(y, z) ==> le(x, z))
    && (forall x, y :: le(x, y) || le(y, x))
  }

  predicate Sorted<T>(le: (T, T) -> bool, xs: seq<T>) {
    forall i, j | 0 <= i < j < |xs| :: le(xs[i], xs[j])
  }

  /** A sorted list stays sorted below a head that is below all of it. */
  lemma SortedCons<T>(le: (T, T) -> bool, h: T, t: seq<T>)
    requires Sorted(le, t)
    requires forall y :: y in t ==> le(h, y)
    ensures Sorted(le, [h] + t)
  {
    forall i, j | 0 <= i < j < |[h] + t| ensures le(([h] + t)[i], ([h] + t)[j]) {
      assert ([h] + t)[j] == t[j - 1] && t[j - 1] in t;
      if i > 0 { assert ([h] + t)[i] == t[i - 1]; }
    }
  }

  /** Places `x` in front of the first element it is below. */
  function Insert<T(!new)>(le: (T, T) -> bool, x: T, xs: seq<T>): (r: seq<T>)
    requires TotalOrder(le) && Sorted(le, xs)
    ensures Sorted(le, r)
    ensures multiset(r) == multiset(xs) + multiset{x}
  {
    if xs == [] then [x]
    else if le(x, xs[0]) then [x] + xs
    else
      var rest := Insert(le, x, xs[1..]);
      forall y | y in rest
        ensures le(xs[0], y)
      {
        assert y in multiset(rest);
        assert y == x || y in multiset(xs[1..]);
      }
      SortedCons(le, xs[0], rest);
      assert xs == [xs[0]] + xs[1..];
      [xs[0]] + rest
  }

  function Sort<T(!new)>(le: (T, T) -> bool, xs: seq<T>): (r: seq<T>)
    requires TotalOrder(le)
    ensures Sorted(le, r)
    ensures multiset(r) == multiset(xs)
  {
    if xs == [] then []
    else
      assert xs == [xs[0]] + xs[1..];
      Insert(le, xs[0], Sort(le, xs[1..]))
  }

  /** `[...new Set(xs)].sort()`: every element of `xs` exactly once, ascending. */
  function SortedUnique<T(==,!new)>(le: (T, T) -> bool, xs: seq<T>): (r: seq<T>)
    requires TotalOrder(le)
    ensures Sorted(le, r) && Distinct(r)
    ensures forall x :: x in r <==> x in xs
  {
    var d := Dedup(xs);
    var r := Sort(le, d);
    DistinctPermutation(d, r);
    assert forall x :: x in r <==> x in multiset(d);
    r
  }

  /** A sorted list without repeats is determined by its elements. */
  lemma {:induction false} SortedDistinctUnique<T(!new)>(le: (T, T) -> bool, a: seq<T>, b: seq<T>)
    requires TotalOrder(le)
    requires Sorted(le, a) && Distinct(a)
    requires Sorted(le, b) && Distinct(b)
    requires forall x :: x in a <==> x in b
    ensures a == b
  {
    if a == [] {
      assert forall k | 0 <= k < |b| :: b[k] !in a;
    } else {
      assert b != [] by { assert a[0] in a; }
      assert a[0] in b;
      assert b[0] in a;
      var i :| 0 <= i < |a| && a[i] == b[0];
      var j :| 0 <= j < |b| && b[j] == a[0];
      assert le(a[0], a[i]);
      assert le(b[0], a[0]);
      assert a[0] == b[0];
      forall x
        ensures x in a[1..] <==> x in b[1..]
      {
        if x in a[1..] {
          var k :| 1 <= k < |a| && a[k] == x;
          assert x != a[0];
          assert x in b;
        }
        if x in b[1..] {
          var k :| 1 <= k < |b| && b[k] == x;
          assert x != b[0];
          assert x in a;
        }
      }
      SortedDistinctUnique(le, a[1..], b[1..]);
      assert a == [a[0]] + a[1..];
      assert b == [b[0]] + b[1..];
    }
  }

  /** The result of `[...new Set(xs)].sort()` depends only on which elements
      occur in `xs`, not on their order or how often they repeat. */
  lemma {:induction false} SortedUniqueCanonical<T(!new)>(le: (T, T) -> bool, xs: seq<T>, ys: seq<T>)
    requires TotalOrder(le)
    requires forall x :: x in xs <==> x in ys
    ensures SortedUnique(le, xs) == SortedUnique(le, ys)
  {
    SortedDistinctUnique(le, SortedUnique(le, xs), SortedUnique(le, ys));
  }
}

=== FILE: strings.dfy ===
/** String operations of the JavaScript runtime used by the core: the
    default ordering of `Array.prototype.sort` on strings, `Array.join`,
    `String.split` on a one-character separator, and decimal rendering of
    array indices. */
module Strings {
  import opened Sorting

  /** Lexicographic order by character code: a prefix comes first. */
  predicate Lex(a: string, b: string) {
    |a| == 0 || (|b| > 0 && (a[0] < b[0] || (a[0] == b[0] && Lex(a[1..], b[1..]))))
  }

  lemma {:induction false} LexAntisymmetric(a: string, b: string)
    requires Lex(a, b) && Lex(b, a)
    ensures a == b
  {
    if |a| > 0 && |b| > 0 {
      LexAntisymmetric(a[1..], b[1..]);
      assert a == [a[0]] + a[1..];
      assert b == [b[0]] + b[1..];
    }
  }

  lemma {:induction false} LexTransitive(a: string, b: string, c: string)
    requires Lex(a, b) && Lex(b, c)
    ensures Lex(a, c)
  {
    if |a| > 0 && |b| > 0 && |c| > 0 && a[0] == b[0] && b[0] == c[0] {
      LexTransitive(a[1..], b[1..], c[1..]);
    }
  }

  lemma {:induction false} LexTotal(a: string, b: string)
    ensures Lex(a, b) || Lex(b, a)
  {
    if |a| > 0 && |b| > 0 && a[0] == b[0] {
      LexTotal(a[1..], b[1..]);
    }
  }

  lemma LexIsTotalOrder()
    ensures TotalOrder(Lex)
  {
    forall a, b | Lex(a, b) && Lex(b, a)
      ensures a == b
    {
      LexAntisymmetric(a, b);
    }
    forall a, b, c | Lex(a, b) && Lex(b, c)
      ensures Lex(a, c)
    {
      LexTransitive(a, b, c);
    }
    forall a, b
      ensures Lex(a, b) || Lex(b, a)
    {
      LexTotal(a, b);
    }
  }

  /** `xs.join(sep)`. */
  function Join(xs: seq<string>, sep: string): string {
    if |xs| == 0 then ""
    else if |xs| == 1 then xs[0]
    else xs[0] + sep + Join(xs[1..], sep)
  }

  /** `s.split(c)` for a one-character separator: the pieces between the
      occurrences of `c`, so there is always one more piece than there are
      separators. */
  function Split(s: string, c: char): (r: seq<string>)
    ensures |r| >= 1
    ensures forall i :: 0 <= i < |r| ==> c !in r[i]
  {
    if |s| == 0 then [""]
    else
      var rest := Split(s[1..], c);
      if s[0] == c then [""] + rest
      else [[s[0]] + rest[0]] + rest[1..]
  }

  function Count(s: string, c: char): nat {
    if |s| == 0 then 0 else (if s[0] == c then 1 else 0) + Count(s[1..], c)
  }

  lemma {:induction false} SplitCount(s: string, c: char)
    ensures |Split(s, c)| == Count(s, c) + 1
  {
    if |s| > 0 {
      SplitCount(s[1..], c);
    }
  }

  /** Joining the pieces with the separator gives back the string. */
  lemma {:induction false} SplitJoin(s: string, c: char)
    ensures Join(Split(s, c), [c]) == s
  {
    if |s| > 0 {
      SplitJoin(s[1..], c);
      var rest := Split(s[1..], c);
      assert s == [s[0]] + s[1..];
      if s[0] != c && |rest| > 1 {
        assert Join([[s[0]] + rest[0]] + rest[1..], [c]) == [s[0]] + rest[0] + [c] + Join(rest[1..], [c]);
      }
    }
  }

  function DigitChar(d: nat): char
    requires d < 10
  {
    "0123456789"[d]
  }

  /** The decimal rendering of `n`, as `${n}` produces it. */
  function NatToString(n: nat): (r: string)
    ensures |r| > 0
    ensures forall i :: 0 <= i < |r| ==> r[i] in "0123456789"
  {
    if n < 10 then [DigitChar(n)] else NatToString(n / 10) + [DigitChar(n % 10)]
  }
}

=== FILE: tables.dfy ===
/** The entity tables: users (unique email), teams and collections (unique
    name) and files (unique repository-relative path, plus the two stored
    signatures). Each is a UUID table; lookups by the unique column return
    the matching row or nothing. */
module Tables {
  import opened Wrappers
  import opened TablesBase

  datatype User = User(id: Id, email: string, name: Option<string>)
  datatype Team = Team(id: Id, name: string, description: Option<string>)
  datatype Collection = Collection(id: Id, name: string, description: Option<string>)
  datatype FileRec = FileRec(id: Id, path: string, contentsSignature: string, accessSignature: string)

  function UserId(u: User): string { u.id }
  function UserEmail(u: User): string { u.email }
  function TeamId(t: Team): string { t.id }
  function TeamName(t: Team): string { t.name }
  function CollectionId(c: Collection): string { c.id }
  function CollectionName(c: Collection): string { c.name }
  function FileId(f: FileRec): string { f.id }
  function FilePath(f: FileRec): string { f.path }

  /** Users.getByEmail: the user with that email, or nothing. */
  function GetByEmail(users: seq<User>, email: string): (r: Option<User>)
    ensures r.None? <==> forall u :: u in users ==> u.email != email
    ensures r.Some? ==> r.value in users && r.value.email == email
  {
    FindFirst(users, UserEmail, email)
  }

  /** Teams.getByName. */
  function GetTeamByName(teams: seq<Team>, name: string): (r: Option<Team>)
    ensures r.None? <==> forall t :: t in teams ==> t.name != name
    ensures r.Some? ==> r.value in teams && r.value.name == name
  {
    FindFirst(teams, TeamName, name)
  }

  /** Collections.getByName (same shape as Teams.getByName). */
  function GetCollectionByName(collections: seq<Collection>, name: string): (r: Option<Collection>)
    ensures r.None? <==> forall c :: c in collections ==> c.name != name
    ensures r.Some? ==> r.value in collections && r.value.name == name
  {
    FindFirst(collections, CollectionName, name)
  }

  /** Files.getByPath. */
  function GetByPath(files: seq<FileRec>, path: string): (r: Option<FileRec>)
    ensures r.None? <==> forall f :: f in files ==> f.path != path
    ensures r.Some? ==> r.value in files && r.value.path == path
  {
    FindFirst(files, FilePath, path)
  }

  /** BaseUUIDTable.findOne on the files table: the row with that id, or the
      empty record (nothing). */
  function FindFile(files: seq<FileRec>, id: Id): (r: Option<FileRec>)
    ensures r.None? <==> forall f :: f in files ==> f.id != id
    ensures r.Some? ==> r.value in files && r.value.id == id
  {
    FindFirst(files, FileId, id)
  }

  /** The id `create` stores: the supplied one, or a newly generated one when none is
      supplied (a destructuring default only replaces `undefined`). */
  function ChosenId(supplied: Option<Id>, newId: Id): (r: Id)
    ensures supplied.Some? ==> r == supplied.value
    ensures supplied.None? ==> r == newId
  {
    supplied.GetOr(newId)
  }

  /** Users.create: appends one row and returns its id. A lookup by an
      email not yet in use now finds the new user; every other lookup
      answers as before. */
  function CreateUser(users: seq<User>, supplied: Option<Id>, newId: Id, email: string, name: Option<string>)
    : (r: (seq<User>, Id))
    ensures r.0 == users + [User(r.1, email, name)]
    ensures r.1 == ChosenId(supplied, newId)
    ensures forall e :: GetByEmail(r.0, e) == if e == email && GetByEmail(users, e).None? then Some(User(r.1, email, name))
                                              else GetByEmail(users, e)
  {
    var id := ChosenId(supplied, newId);
    FindFirstAppend(users, User(id, email, name), UserEmail);
    (users + [User(id, email, name)], id)
  }

  /** Teams.create. */
  function CreateTeam(teams: seq<Team>, supplied: Option<Id>, newId: Id, name: string, description: Option<string>)
    : (r: (seq<Team>, Id))
    ensures r.0 == teams + [Team(r.1, name, description)]
    ensures r.1 == ChosenId(supplied, newId)
    ensures forall n :: GetTeamByName(r.0, n) == if n == name && GetTeamByName(teams, n).None? then Some(Team(r.1, name, description))
                                                  else GetTeamByName(teams, n)
  {
    var id := ChosenId(supplied, newId);
    FindFirstAppend(teams, Team(id, name, description), TeamName);
    (teams + [Team(id, name, description)], id)
  }

  /** Collections.create (same shape as Teams.create). */
  function CreateCollection(collections: seq<Collection>, supplied: Option<Id>, newId: Id, name: string,
                            description: Option<string>)
    : (r: (seq<Collection>, Id))
    ensures r.0 == collections + [Collection(r.1, name, description)]
    ensures r.1 == ChosenId(supplied, newId)
    ensures forall n :: GetCollectionByName(r.0, n)
                        == if n == name && GetCollectionByName(collections, n).None? then Some(Collection(r.1, name, description))
                           else GetCollectionByName(collections, n)
  {
    var id := ChosenId(supplied, newId);
    FindFirstAppend(collections, Collection(id, name, description), CollectionName);
    (collections + [Collection(id, name, description)], id)
  }

  /** Files.create. */
  function CreateFile(files: seq<FileRec>, supplied: Option<Id>, newId: Id, path: string,
                      contentsSignature: string, accessSignature: string)
    : (r: (seq<FileRec>, Id))
    ensures r.0 == files + [FileRec(r.1, path, contentsSignature, accessSignature)]
    ensures r.1 == ChosenId(supplied, newId)
    ensures forall q :: GetByPath(r.0, q) == if q == path && GetByPath(files, q).None? then Some(r.0[|files|])
                                             else GetByPath(files, q)
    ensures forall i :: FindFile(r.0, i) == if i == r.1 && FindFile(files, i).None? then Some(r.0[|files|])
                                            else FindFile(files, i)
  {
    var id := ChosenId(supplied, newId);
    FindFirstAppend(files, FileRec(id, path, contentsSignature, accessSignature), FilePath);
    FindFirstAppend(files, FileRec(id, path, contentsSignature, accessSignature), FileId);
    (files + [FileRec(id, path, contentsSignature, accessSignature)], id)
  }

  // ---------------------------------------------------------------------
  // Files.update

  datatype FileUpdate = FileUpdate(id: Id, path: Option<string>, contentsSignature: Option<string>,
                                   accessSignature: Option<string>)

  /** Why the UPDATE statement fails before touching any row. */
  datatype UpdateError =
    | EmptySetClause   // no truthy field: `SET  WHERE` is not valid SQL
    | UnboundPath      // `path = :path` is in the SET clause but never bound

  function Patch(f: FileRec, u: FileUpdate): FileRec {
    if f.id != u.id then f
    else f.(contentsSignature := if Present(u.contentsSignature) then u.contentsSignature.value else f.contentsSignature,
            accessSignature := if Present(u.accessSignature) then u.accessSignature.value else f.accessSignature)
  }

  /** Files.update: SETs only the fields whose value is truthy, on the rows
      with that id. A truthy path fails (its parameter is never bound), and so
      does an update with nothing to set. */
  function UpdateFile(files: seq<FileRec>, u: FileUpdate): (r: Result<seq<FileRec>, UpdateError>)
    ensures r.Err? <==> Present(u.path) || (!Present(u.contentsSignature) && !Present(u.accessSignature))
    ensures r.Ok? ==> |r.value| == |files|
    ensures r.Ok? ==> forall i :: 0 <= i < |files| ==>
      && r.value[i].id == files[i].id
      && r.value[i].path == files[i].path
      && (files[i].id != u.id ==> r.value[i] == files[i])
      && (files[i].id == u.id ==>
            && r.value[i].contentsSignature == (if Present(u.contentsSignature) then u.contentsSignature.value
                                                else files[i].contentsSignature)
            && r.value[i].accessSignature == (if Present(u.accessSignature) then u.accessSignature.value
                                              else files[i].accessSignature))
  {
    if !Present(u.path) && !Present(u.contentsSignature) && !Present(u.accessSignature) then Err(EmptySetClause)
    else if Present(u.path) then Err(UnboundPath)
    else Ok(seq(|files|, i requires 0 <= i < |files| => Patch(files[i], u)))
  }

  // ---------------------------------------------------------------------
  // Removal by unique key. The lookup result is destructured without a
  // null check, so an unknown key throws (None here); a row whose id is
  // empty is left alone by the `if (!id) return` guard.

  /** Users.removeByEmail: deletes the rows carrying the id of the user with
      that email, and nothing else. */
  function RemoveByEmail(users: seq<User>, email: string): (r: Option<seq<User>>)
    ensures r.None? <==> GetByEmail(users, email).None?
    ensures r.Some? && GetByEmail(users, email).value.id == "" ==> r.value == users
    ensures r.Some? && GetByEmail(users, email).value.id != "" ==>
      && GetByEmail(users, email).value !in r.value
      && forall u :: u in r.value <==> u in users && u.id != GetByEmail(users, email).value.id
  {
    match GetByEmail(users, email)
    case None => None
    case Some(u) => if u.id == "" then Some(users) else Some(RemoveWhere(users, UserId, u.id))
  }

  /** Teams.removeByName. */
  function RemoveByName(teams: seq<Team>, name: string): (r: Option<seq<Team>>)
    ensures r.None? <==> GetTeamByName(teams, name).None?
    ensures r.Some? && GetTeamByName(teams, name).value.id == "" ==> r.value == teams
    ensures r.Some? && GetTeamByName(teams, name).value.id != "" ==>
      && GetTeamByName(teams, name).value !in r.value
      && forall t :: t in r.value <==> t in teams && t.id != GetTeamByName(teams, name).value.id
  {
    match GetTeamByName(teams, name)
    case None => None
    case Some(t) => if t.id == "" then Some(teams) else Some(RemoveWhere(teams, TeamId, t.id))
  }

  /** Files.removeByPath. */
  function RemoveByPath(files: seq<FileRec>, path: string): (r: Option<seq<FileRec>>)
    ensures r.None? <==> GetByPath(files, path).None?
    ensures r.Some? && GetByPath(files, path).value.id == "" ==> r.value == files
    ensures r.Some? && GetByPath(files, path).value.id != "" ==>
      && GetByPath(files, path).value !in r.value
      && forall f :: f in r.value <==> f in files && f.id != GetByPath(files, path).value.id
  {
    match GetByPath(files, path)
    case None => None
    case Some(f) => if f.id == "" then Some(files) else Some(RemoveWhere(files, FileId, f.id))
  }

  /** BaseUUIDTable.remove on the files table: only rows with that id go. */
  function RemoveFile(files: seq<FileRec>, id: Id): (r: seq<FileRec>)
    ensures forall f :: f in r <==> f in files && f.id != id
    ensures FindFile(files, id).None? ==> r == files
  {
    RemoveWhere(files, FileId, id)
  }

  /** The unique index on a column: no two rows share the key. */
  predicate UniqueEmails(users: seq<User>) {
    forall i, j | 0 <= i < j < |users| :: users[i].email != users[j].email
  }

  predicate UniqueTeamNames(teams: seq<Team>) {
    forall i, j | 0 <= i < j < |teams| :: teams[i].name != teams[j].name
  }

  predicate UniqueCollectionNames(collections: seq<Collection>) {
    forall i, j | 0 <= i < j < |collections| :: collections[i].name != collections[j].name
  }

  predicate UniquePaths(files: seq<FileRec>) {
    forall i, j | 0 <= i < j < |files| :: files[i].path != files[j].path
  }

  /** The primary key of the files table. */
  predicate UniqueFileIds(files: seq<FileRec>) {
    forall i, j | 0 <= i < j < |files| :: files[i].id != files[j].id
  }

  /** Appending a row with an untracked path keeps paths unique. */
  lemma UniquePathsAppend(files: seq<FileRec>, row: FileRec)
    requires forall f :: f in files ==> f.path != row.path
    ensures UniquePaths(files) ==> UniquePaths(files + [row])
  {
    assert forall i :: 0 <= i < |files| ==> (files + [row])[i] == files[i] && files[i] in files;
  }

  /** Rewriting rows without touching their paths keeps paths unique. */
  lemma UniquePathsKeptBy(before: seq<FileRec>, after: seq<FileRec>)
    requires |after| == |before| && forall i :: 0 <= i < |after| ==> after[i].path == before[i].path
    ensures UniquePaths(before) ==> UniquePaths(after)
  {
  }

  /** The first row carrying a path is the one `getByPath` finds. */
  lemma GetByPathFirst(files: seq<FileRec>, i: nat)
    requires i < |files| && forall j :: 0 <= j < i ==> files[j].path != files[i].path
    ensures GetByPath(files, files[i].path) == Some(files[i])
  {
    var r := GetByPath(files, files[i].path);
    assert files[i] in files;
    var j :| 0 <= j < |files| && files[j] == r.value && FilePath(files[j]) == files[i].path
             && forall m :: 0 <= m < j ==> FilePath(files[m]) != files[i].path;
    if j > i {
      assert FilePath(files[i]) == files[i].path;
    }
  }

  /** Appending a row with an untracked path, then rewriting rows without
      moving any path, keeps paths unique and leaves the new row as the one
      its path finds. */
  lemma AppendedRowFound(before: seq<FileRec>, row: FileRec, after: seq<FileRec>)
    requires forall f :: f in before ==> f.path != row.path
    requires |after| == |before| + 1
    requires forall i :: 0 <= i < |after| ==> after[i].path == (before + [row])[i].path
    ensures UniquePaths(before) ==> UniquePaths(after)
    ensures GetByPath(after, row.path) == Some(after[|before|])
  {
    UniquePathsAppend(before, row);
    UniquePathsKeptBy(before + [row], after);
    assert forall j :: 0 <= j < |before| ==> after[j].path != row.path by {
      assert forall j :: 0 <= j < |before| ==> (before + [row])[j] == before[j] && before[j] in before;
    }
    GetByPathFirst(after, |before|);
  }

  /** Under the primary key, looking a row's id up finds that row. */
  lemma FindFileByOwnId(files: seq<FileRec>, i: nat)
    requires UniqueFileIds(files) && i < |files|
    ensures FindFile(files, files[i].id) == Some(files[i])
  {
    var r := FindFile(files, files[i].id);
    assert r.Some?;
    var j :| 0 <= j < |files| && files[j] == r.value && FileId(files[j]) == files[i].id
             && forall m :: 0 <= m < j ==> FileId(files[m]) != files[i].id;
    assert files[j].id == files[i].id;
    if j < i {
      assert false;
    } else if j > i {
      assert FileId(files[i]) == files[i].id;
    }
  }
}

=== FILE: tables_base.dfy ===
/** The two generic table kinds of the storage layer.

    A UUID table is a list of rows, each with an id; lookups by a column
    return the first matching row, as `SELECT ... LIMIT 1` does.

    A relationship table is a list of (key1, key2) rows in storage order; the
    unique index on (key1, key2) and `ON CONFLICT DO NOTHING` keep the rows
    distinct. Queries return rows ordered by (key1, key2). */
module TablesBase {
  import opened Wrappers
  import opened Seqs
  import opened Sorting
  import opened Strings

  type Id = string

  datatype Pair = Pair(key1: Id, key2: Id)

  /** `ORDER BY key1, key2`. */
  predicate PairLe(p: Pair, q: Pair) {
    if p.key1 == q.key1 then Lex(p.key2, q.key2) else Lex(p.key1, q.key1)
  }

  lemma PairLeIsTotalOrder()
    ensures TotalOrder(PairLe)
  {
    LexIsTotalOrder();
  }

  // ---------------------------------------------------------------------
  // Relationship tables

  type Rows = seq<Pair>

  /** INSERT ... ON CONFLICT(key1, key2) DO NOTHING. */
  function AddRelationship(rows: Rows, key1: Id, key2: Id): (r: Rows)
    ensures Elems(r) == Elems(rows) + {Pair(key1, key2)}
    ensures Pair(key1, key2) in rows ==> r == rows
    ensures Distinct(rows) ==> Distinct(r)
  {
    if Pair(key1, key2) in rows then rows else rows + [Pair(key1, key2)]
  }

  /** DELETE WHERE key1 = :value1 AND key2 = :value2. */
  function RemoveRelationship(rows: Rows, key1: Id, key2: Id): (r: Rows)
    ensures Elems(r) == Elems(rows) - {Pair(key1, key2)}
    ensures Pair(key1, key2) !in rows ==> r == rows
    ensures Distinct(rows) ==> Distinct(r)
  {
    var r := Filter((p: Pair) => p != Pair(key1, key2), rows);
    assert Pair(key1, key2) !in rows ==> r == rows by {
      if Pair(key1, key2) !in rows { FilterKeepsAll(rows, Pair(key1, key2)); }
    }
    r
  }

  lemma {:induction false} FilterKeepsAll(rows: Rows, gone: Pair)
    requires gone !in rows
    ensures Filter((p: Pair) => p != gone, rows) == rows
  {
    if rows != [] {
      FilterKeepsAll(rows[1..], gone);
      assert rows == [rows[0]] + rows[1..];
    }
  }

  /** The rows in (key1, key2) order: the same rows, no new duplicates. */
  function SortRows(rows: Rows): (r: Rows)
    ensures Sorted(PairLe, r)
    ensures multiset(r) == multiset(rows)
    ensures forall p :: p in r <==> p in rows
    ensures Distinct(rows) ==> Distinct(r)
  {
    PairLeIsTotalOrder();
    var r := Sort(PairLe, rows);
    assert Distinct(rows) ==> Distinct(r) by { if Distinct(rows) { DistinctPermutation(rows, r); } }
    assert forall p :: p in r <==> p in multiset(rows);
    r
  }

  /** Rows in (key1, key2) order; exactly the rows of the table. */
  function FindAll(rows: Rows): (r: Rows)
    ensures Sorted(PairLe, r)
    ensures multiset(r) == multiset(rows)
  {
    SortRows(rows)
  }

  /** Rows whose key1 is `key1`, in (key1, key2) order. */
  function FindAllByKey1(rows: Rows, key1: Id): (r: Rows)
    ensures Sorted(PairLe, r)
    ensures forall p :: p in r <==> p in rows && p.key1 == key1
    ensures Distinct(rows) ==> Distinct(r)
  {
    SortRows(Filter((p: Pair) => p.key1 == key1, rows))
  }

  /** Rows whose key2 is `key2`, in (key1, key2) order. */
  function FindAllByKey2(rows: Rows, key2: Id): (r: Rows)
    ensures Sorted(PairLe, r)
    ensures forall p :: p in r <==> p in rows && p.key2 == key2
    ensures Distinct(rows) ==> Distinct(r)
  {
    SortRows(Filter((p: Pair) => p.key2 == key2, rows))
  }

  /** Adding a pair that is already present changes nothing; adding twice is
      adding once. */
  lemma AddRelationshipIdempotent(rows: Rows, key1: Id, key2: Id)
    ensures AddRelationship(AddRelationship(rows, key1, key2), key1, key2) == AddRelationship(rows, key1, key2)
  {
  }

  /** Removing a pair just added to a table that lacked it restores the table
      row for row. */
  lemma AddThenRemove(rows: Rows, key1: Id, key2: Id)
    requires Pair(key1, key2) !in rows
    ensures RemoveRelationship(AddRelationship(rows, key1, key2), key1, key2) == rows
  {
    var added := rows + [Pair(key1, key2)];
    FilterAppend(rows, [Pair(key1, key2)], (p: Pair) => p != Pair(key1, key2));
    FilterKeepsAll(rows, Pair(key1, key2));
  }

  lemma {:induction false} FilterAppend<T(!new)>(a: seq<T>, b: seq<T>, keep: T -> bool)
    ensures Filter(keep, a + b) == Filter(keep, a) + Filter(keep, b)
  {
    if a == [] {
      assert a + b == b;
    } else {
      var ab := a + b;
      assert ab[0] == a[0] && ab[1..] == a[1..] + b;
      FilterAppend(a[1..], b, keep);
      var tail := Filter(keep, a[1..]) + Filter(keep, b);
      if keep(a[0]) {
        calc {
          Filter(keep, ab);
          [a[0]] + Filter(keep, a[1..] + b);
          [a[0]] + tail;
          ([a[0]] + Filter(keep, a[1..])) + Filter(keep, b);
          Filter(keep, a) + Filter(keep, b);
        }
      } else {
        assert Filter(keep, ab) == Filter(keep, a[1..] + b);
        assert Filter(keep, a) == Filter(keep, a[1..]);
      }
    }
  }

  // ---------------------------------------------------------------------
  // UUID tables

  /** The first row whose `key` column equals `k` (`WHERE col = :k LIMIT 1`). */
  function FindFirst<T(!new)>(rows: seq<T>, key: T -> string, k: string): (r: Option<T>)
    ensures r.None? <==> forall i :: 0 <= i < |rows| ==> key(rows[i]) != k
    ensures r.Some? ==> exists i :: 0 <= i < |rows| && rows[i] == r.value && key(rows[i]) == k
                          && forall j :: 0 <= j < i ==> key(rows[j]) != k
  {
    if rows == [] then None
    else if key(rows[0]) == k then Some(rows[0])
    else
      var r := FindFirst(rows[1..], key, k);
      assert r.Some? ==> exists i :: 0 <= i < |rows| && rows[i] == r.value && key(rows[i]) == k
                            && forall j :: 0 <= j < i ==> key(rows[j]) != k by {
        if r.Some? {
          var i :| 0 <= i < |rows[1..]| && rows[1..][i] == r.value && key(rows[1..][i]) == k
                   && forall j :: 0 <= j < i ==> key(rows[1..][j]) != k;
          assert rows[i + 1] == r.value;
          assert forall j :: 0 <= j < i + 1 ==> key(rows[j]) != k by {
            forall j | 0 <= j < i + 1 ensures key(rows[j]) != k {
              if j > 0 { assert rows[j] == rows[1..][j - 1]; }
            }
          }
        }
      }
      r
  }

  /** Appending a row never changes what an earlier match answers; a key
      without one is answered by the new row when it carries that key. */
  lemma {:induction false} FindFirstAppend<T(!new)>(rows: seq<T>, x: T, key: T -> string)
    ensures forall k :: FindFirst(rows + [x], key, k)
                        == if FindFirst(rows, key, k).Some? then FindFirst(rows, key, k)
                           else if key(x) == k then Some(x) else None
  {
    if rows == [] {
      assert rows + [x] == [x] && [x][1..] == [];
    } else {
      FindFirstAppend(rows[1..], x, key);
      assert (rows + [x])[0] == rows[0] && (rows + [x])[1..] == rows[1..] + [x];
    }
  }

  /** `DELETE FROM table WHERE col = :k`: every row with that key goes, every
      other row stays, in order. */
  function RemoveWhere<T(!new)>(rows: seq<T>, key: T -> string, k: string): (r: seq<T>)
    ensures forall x :: x in r <==> x in rows && key(x) != k
    ensures (forall i :: 0 <= i < |rows| ==> key(rows[i]) != k) ==> r == rows
  {
    if rows == [] then []
    else if key(rows[0]) == k then RemoveWhere(rows[1..], key, k)
    else
      assert rows == [rows[0]] + rows[1..];
      [rows[0]] + RemoveWhere(rows[1..], key, k)
  }
}

=== FILE: utils.dfy ===
/** Pure helpers: `toArray`, `flatten` and the SQL script splitter.

    JavaScript values are modelled by `JsValue`. Numbers are integers here
    (only their truthiness matters to the helpers); an object is its list of
    own enumerable fields in key order. */
module Utils {
  import opened Wrappers
  import opened Seqs
  import opened Strings

  datatype JsValue =
    | Undefined
    | Null
    | Bool(b: bool)
    | Num(n: int)
    | Str(s: string)
    | Arr(items: seq<JsValue>)
    | Obj(fields: seq<Field>)

  datatype Field = Field(key: string, value: JsValue)

  /** JavaScript truthiness: `undefined`, `null`, `false`, `0` and `""` are falsy. */
  predicate Truthy(v: JsValue) {
    match v
    case Undefined => false
    case Null => false
    case Bool(b) => b
    case Num(n) => n != 0
    case Str(s) => s != ""
    case Arr(_) => true
    case Obj(_) => true
  }

  /** `typeof v === 'object' && v !== null`: arrays and objects. */
  predicate IsObject(v: JsValue) {
    v.Arr? || v.Obj?
  }

  // ---------------------------------------------------------------------
  // toArray

  /** `toArray(value)`: an array is returned as it is, any other truthy
      value is wrapped, a falsy value gives the empty array. */
  function ToArray(v: JsValue): (r: seq<JsValue>)
    ensures v.Arr? ==> r == v.items
    ensures !v.Arr? && Truthy(v) ==> r == [v]
    ensures !Truthy(v) ==> r == []
  {
    if v.Arr? then v.items else if Truthy(v) then [v] else []
  }

  /** Normalising twice is normalising once. */
  lemma ToArrayIdempotent(v: JsValue)
    ensures ToArray(Arr(ToArray(v))) == ToArray(v)
  {
  }

  /** A manager argument declared as "one string or a list of strings",
      possibly left out. */
  datatype MaybeArray = Missing | One(s: string) | Many(items: seq<string>)

  function AsJs(m: MaybeArray): JsValue {
    match m
    case Missing => Undefined
    case One(s) => Str(s)
    case Many(items) => Arr(Map((x: string) => Str(x), items))
  }

  /** `toArray(arg)` on such an argument, as a list of strings. */
  function Items(m: MaybeArray): (r: seq<string>)
    ensures m.Missing? ==> r == []
    ensures m.One? ==> r == (if m.s == "" then [] else [m.s])
    ensures m.Many? ==> r == m.items
  {
    match m
    case Missing => []
    case One(s) => if s == "" then [] else [s]
    case Many(items) => items
  }

  /** `Items` is `toArray` read back as strings. */
  lemma ItemsAgreeWithToArray(m: MaybeArray)
    ensures ToArray(AsJs(m)) == Map((x: string) => Str(x), Items(m))
  {
  }

  /** `arg[idx]` on the argument as the caller passed it, before `toArray`:
      an array's element, or, for a single string, its idx-th character. */
  function RawIndex(m: MaybeArray, idx: nat): (r: Option<string>)
    ensures m.Many? && idx < |m.items| ==> r == Some(m.items[idx])
    ensures m.One? && idx < |m.s| ==> r == Some([m.s[idx]])
    ensures m.Missing? ==> r.None?
  {
    match m
    case Missing => None
    case One(s) => if idx < |s| then Some([s[idx]]) else None
    case Many(items) => if idx < |items| then Some(items[idx]) else None
  }

  // ---------------------------------------------------------------------
  // flatten

  /** The prefix for the keys at one level: nothing at the top level,
      otherwise the parent key followed by the separator. */
  function Pre(prefix: string, separator: string): string {
    if |prefix| > 0 then prefix + separator else ""
  }

  function ItemKey(key: string, index: nat): string {
    key + "[" + NatToString(index) + "]"
  }

  /** A flattened object holds no objects or arrays. */
  predicate AllPrimitive(m: map<string, JsValue>) {
    forall k :: k in m ==> !IsObject(m[k])
  }

  /** `flatten(obj, prefix, separator)`: nested objects become dotted keys,
      array items become `key[i]` keys; later keys overwrite earlier ones,
      as `Object.assign` and plain assignment do. */
  function Flatten(fields: seq<Field>, prefix: string, separator: string): (r: map<string, JsValue>)
    ensures AllPrimitive(r)
    decreases fields, 1
  {
    if fields == [] then map[]
    else
      var acc := Flatten(fields[..|fields| - 1], prefix, separator);
      var last := fields[|fields| - 1];
      acc + FlattenValue(last.key, last.value, Pre(prefix, separator), separator)
  }

  /** The entries a field with key `key` and value `v` contributes. */
  function FlattenValue(key: string, v: JsValue, pre: string, separator: string): (r: map<string, JsValue>)
    ensures AllPrimitive(r)
    decreases v, 2
  {
    match v
    case Arr(items) => FlattenItems(items, pre + key, separator, |items|)
    case Obj(fields) => Flatten(fields, pre + key, separator)
    case _ => map[pre + key := v]
  }

  /** The entries the first `n` items of an array under `key` contribute. */
  function FlattenItems(items: seq<JsValue>, key: string, separator: string, n: nat): (r: map<string, JsValue>)
    requires n <= |items|
    ensures AllPrimitive(r)
    decreases items, n
  {
    if n == 0 then map[]
    else
      var acc := FlattenItems(items, key, separator, n - 1);
      var item := items[n - 1];
      if IsObject(item) then acc + FlattenObject(item, ItemKey(key, n - 1), separator)
      else acc[ItemKey(key, n - 1) := item]
  }

  /** `flatten(item, prefix)` for an object or array item. */
  function FlattenObject(v: JsValue, prefix: string, separator: string): (r: map<string, JsValue>)
    requires IsObject(v)
    ensures AllPrimitive(r)
    decreases v, 0
  {
    if v.Obj? then Flatten(v.fields, prefix, separator)
    else FlattenArrayAsObject(v.items, prefix, separator, |v.items|)
  }

  /** `flatten` of an array: its keys are the indices "0", "1", ... */
  function FlattenArrayAsObject(items: seq<JsValue>, prefix: string, separator: string, n: nat)
    : (r: map<string, JsValue>)
    requires n <= |items|
    ensures AllPrimitive(r)
    decreases items, n
  {
    if n == 0 then map[]
    else
      var acc := FlattenArrayAsObject(items, prefix, separator, n - 1);
      acc + FlattenValue(NatToString(n - 1), items[n - 1], Pre(prefix, separator), separator)
  }

  /** A primitive field lands at `prefix + separator + key`, or at `key` alone
      at the top level. */
  lemma FlattenPrimitive(key: string, v: JsValue, prefix: string, separator: string)
    requires !IsObject(v)
    ensures Flatten([Field(key, v)], prefix, separator)
         == map[(if prefix == "" then key else prefix + separator + key) := v]
  {
    assert [Field(key, v)][..0] == [];
    assert "" + key == key;
  }

  /** A nested object is flattened with the parent key as its prefix. */
  lemma FlattenNested(key: string, fields: seq<Field>, prefix: string, separator: string)
    ensures Flatten([Field(key, Obj(fields))], prefix, separator) == Flatten(fields, Pre(prefix, separator) + key, separator)
  {
    assert [Field(key, Obj(fields))][..0] == [];
  }

  /** A primitive array item lands at `key[i]`, whatever the other items. */
  lemma FlattenArrayItem(key: string, items: seq<JsValue>, i: nat, prefix: string, separator: string)
    requires i < |items| && !IsObject(items[i])
    ensures var r := Flatten([Field(key, Arr(items))], prefix, separator);
            ItemKey(Pre(prefix, separator) + key, i) in r && r[ItemKey(Pre(prefix, separator) + key, i)] == items[i]
  {
    assert [Field(key, Arr(items))][..0] == [];
    var ik := ItemKey(Pre(prefix, separator) + key, i);
    assert ik[..|ik|] == ik;
    LaterItemsKeep(items, Pre(prefix, separator) + key, separator, i, |items|, ik);
  }

  /** An object or array item is flattened under `key[i]`, whatever the
      other items. */
  lemma FlattenArrayObjectItem(key: string, items: seq<JsValue>, i: nat, prefix: string, separator: string)
    requires i < |items| && IsObject(items[i])
    ensures var r := Flatten([Field(key, Arr(items))], prefix, separator);
            var sub := FlattenObject(items[i], ItemKey(Pre(prefix, separator) + key, i), separator);
            forall k :: k in sub ==> k in r && r[k] == sub[k]
  {
    assert [Field(key, Arr(items))][..0] == [];
    var ik := ItemKey(Pre(prefix, separator) + key, i);
    var sub := FlattenObject(items[i], ik, separator);
    forall k | k in sub
      ensures var r := FlattenItems(items, Pre(prefix, separator) + key, separator, |items|); k in r && r[k] == sub[k]
    {
      ObjectKeysExtend(items[i], ik, separator, k);
      LaterItemsKeep(items, Pre(prefix, separator) + key, separator, i, |items|, k);
    }
  }

  predicate HasPrefix(s: string, p: string) {
    |p| <= |s| && s[..|p|] == p
  }

  /** An entry written under item i is never overwritten by a later item:
      every key a later item j writes starts with `key[j]`. */
  lemma {:induction false} LaterItemsKeep(items: seq<JsValue>, key: string, separator: string, i: nat, n: nat, k: string)
    requires i < n <= |items|
    requires HasPrefix(k, ItemKey(key, i))
    requires k in FlattenItems(items, key, separator, i + 1)
    ensures var r := FlattenItems(items, key, separator, n);
            k in r && r[k] == FlattenItems(items, key, separator, i + 1)[k]
    decreases n
  {
    if n > i + 1 {
      LaterItemsKeep(items, key, separator, i, n - 1, k);
      var jk := ItemKey(key, n - 1);
      if IsObject(items[n - 1]) {
        if k in FlattenObject(items[n - 1], jk, separator) {
          ObjectKeysExtend(items[n - 1], jk, separator, k);
          ItemKeysApart(key, i, n - 1, k);
        }
      } else if k == jk {
        assert HasPrefix(k, jk);
        ItemKeysApart(key, i, n - 1, k);
      }
    }
  }

  /** No key starts with both `key[i]` and `key[j]` for distinct indices:
      after the shorter index comes `]`, where the longer one has a digit. */
  lemma ItemKeysApart(key: string, i: nat, j: nat, k: string)
    requires HasPrefix(k, ItemKey(key, i)) && HasPrefix(k, ItemKey(key, j))
    ensures i == j
  {
    var ki := ItemKey(key, i);
    var kj := ItemKey(key, j);
    ItemKeyShape(key, i);
    ItemKeyShape(key, j);
    assert forall q :: 0 <= q < |ki| && q < |kj| ==> ki[q] == kj[q] by {
      forall q | 0 <= q < |ki| && q < |kj| ensures ki[q] == kj[q] {
        assert ki[q] == k[..|ki|][q] && kj[q] == k[..|kj|][q];
      }
    }
    assert |NatToString(i)| == |NatToString(j)|;
    assert ki == kj;
    ItemKeyInjective(key, i, j);
  }

  /** `key[i]`: the key, `[`, the digits of i, `]`. */
  lemma ItemKeyShape(key: string, i: nat)
    ensures var a := NatToString(i); var ki := ItemKey(key, i);
      && |ki| == |key| + |a| + 2
      && ki[|key| + 1 + |a|] == ']'
      && forall q :: 0 <= q < |a| ==> ki[|key| + 1 + q] == a[q] && a[q] != ']'
  {
  }

  lemma ItemKeyInjective(key: string, i: nat, j: nat)
    requires ItemKey(key, i) == ItemKey(key, j)
    ensures i == j
  {
    var a := NatToString(i);
    var b := NatToString(j);
    assert ItemKey(key, i) == key + "[" + a + "]";
    assert |a| == |b|;
    assert a == ItemKey(key, i)[|key| + 1..|key| + 1 + |a|];
    assert b == ItemKey(key, j)[|key| + 1..|key| + 1 + |b|];
    NatToStringInjective(i, j);
  }

  lemma {:induction false} NatToStringInjective(i: nat, j: nat)
    ensures NatToString(i) == NatToString(j) ==> i == j
  {
    if NatToString(i) == NatToString(j) {
      if i >= 10 && j >= 10 {
        var a := NatToString(i);
        assert NatToString(i / 10) == a[..|a| - 1];
        assert NatToString(j / 10) == a[..|a| - 1];
        NatToStringInjective(i / 10, j / 10);
        assert DigitChar(i % 10) == DigitChar(j % 10);
      } else if i < 10 && j < 10 {
        assert DigitChar(i) == DigitChar(j);
      }
    }
  }

  /** Below the top level every key carries the parent prefix and separator. */
  lemma {:induction false} FlattenKeysExtendPrefix(fields: seq<Field>, prefix: string, separator: string, k: string)
    requires prefix != ""
    requires k in Flatten(fields, prefix, separator)
    ensures |prefix + separator| <= |k| && k[..|prefix + separator|] == prefix + separator
    decreases fields, 1
  {
    var last := fields[|fields| - 1];
    if k !in FlattenValue(last.key, last.value, Pre(prefix, separator), separator) {
      FlattenKeysExtendPrefix(fields[..|fields| - 1], prefix, separator, k);
    } else {
      ValueKeysExtend(last.key, last.value, prefix + separator, separator, k);
    }
  }

  lemma {:induction false} ValueKeysExtend(key: string, v: JsValue, pre: string, separator: string, k: string)
    requires k in FlattenValue(key, v, pre, separator)
    ensures |pre| <= |k| && k[..|pre|] == pre
    decreases v, 2
  {
    match v
    case Arr(items) =>
      ItemKeysExtend(items, pre + key, separator, |items|, k);
      assert k[..|pre|] == k[..|pre + key|][..|pre|];
    case Obj(fields) =>
      if pre + key != "" {
        FlattenKeysExtendPrefix(fields, pre + key, separator, k);
        assert k[..|pre|] == k[..|pre + key + separator|][..|pre|];
      }
    case _ =>
  }

  lemma {:induction false} ItemKeysExtend(items: seq<JsValue>, key: string, separator: string, n: nat, k: string)
    requires n <= |items|
    requires k in FlattenItems(items, key, separator, n)
    ensures |key| <= |k| && k[..|key|] == key
    decreases items, n
  {
    var item := items[n - 1];
    var ik := ItemKey(key, n - 1);
    assert ik[..|key|] == key;
    if k in FlattenItems(items, key, separator, n - 1) {
      ItemKeysExtend(items, key, separator, n - 1, k);
    } else if IsObject(item) {
      ObjectKeysExtend(item, ik, separator, k);
      assert k[..|key|] == k[..|ik|][..|key|];
    }
  }

  lemma {:induction false} ObjectKeysExtend(v: JsValue, prefix: string, separator: string, k: string)
    requires IsObject(v) && prefix != ""
    requires k in FlattenObject(v, prefix, separator)
    ensures |prefix| <= |k| && k[..|prefix|] == prefix
    decreases v, 0
  {
    if v.Obj? {
      FlattenKeysExtendPrefix(v.fields, prefix, separator, k);
      assert k[..|prefix|] == k[..|prefix + separator|][..|prefix|];
    } else {
      ArrayKeysExtend(v.items, prefix, separator, |v.items|, k);
      assert k[..|prefix|] == k[..|prefix + separator|][..|prefix|];
    }
  }

  lemma {:induction false} ArrayKeysExtend(items: seq<JsValue>, prefix: string, separator: string, n: nat, k: string)
    requires n <= |items| && prefix != ""
    requires k in FlattenArrayAsObject(items, prefix, separator, n)
    ensures |prefix + separator| <= |k| && k[..|prefix + separator|] == prefix + separator
    decreases items, n
  {
    if k in FlattenArrayAsObject(items, prefix, separator, n - 1) {
      ArrayKeysExtend(items, prefix, separator, n - 1, k);
    } else {
      ValueKeysExtend(NatToString(n - 1), items[n - 1], prefix + separator, separator, k);
    }
  }

  /** An object built from its fields by plain assignment, in order
      (`Object.fromEntries`): a later field overwrites an earlier one. */
  function FromEntries(fields: seq<Field>): map<string, JsValue> {
    if fields == [] then map[]
    else FromEntries(fields[..|fields| - 1])[fields[|fields| - 1].key := fields[|fields| - 1].value]
  }

  /** An object whose values are all primitive flattens at the top level to
      itself. */
  lemma {:induction false} FlattenOfFlat(fields: seq<Field>, separator: string)
    requires forall i :: 0 <= i < |fields| ==> !IsObject(fields[i].value)
    ensures Flatten(fields, "", separator) == FromEntries(fields)
  {
    if fields != [] {
      FlattenOfFlat(fields[..|fields| - 1], separator);
      var last := fields[|fields| - 1];
      assert "" + last.key == last.key;
    }
  }

  // ---------------------------------------------------------------------
  // SQL scripts

  function AllButLast<T>(xs: seq<T>): seq<T>
    requires |xs| >= 1
  {
    xs[..|xs| - 1]
  }

  /** `sql.split(';').slice(0, -1)` with `;` put back on each: every
      statement closed by a `;`, the text after the last `;` dropped. */
  function Statements(sql: string): (r: seq<string>)
    ensures |r| == Count(sql, ';')
    ensures forall i :: 0 <= i < |r| ==> |r[i]| > 0 && r[i][|r[i]| - 1] == ';' && ';' !in r[i][..|r[i]| - 1]
  {
    SplitCount(sql, ';');
    var pieces := Split(sql, ';');
    var r := Map((s: string) => s + ";", AllButLast(pieces));
    assert forall i :: 0 <= i < |r| ==> r[i][..|r[i]| - 1] == pieces[i];
    r
  }

  function Concat(xs: seq<string>): string {
    if xs == [] then "" else xs[0] + Concat(xs[1..])
  }

  /** The statements followed by the dropped tail spell the script again. */
  lemma StatementsRebuildScript(sql: string)
    ensures Concat(Statements(sql)) + Split(sql, ';')[|Split(sql, ';')| - 1] == sql
  {
    SplitJoin(sql, ';');
    JoinAsConcat(Split(sql, ';'));
  }

  lemma {:induction false} JoinAsConcat(xs: seq<string>)
    requires |xs| >= 1
    ensures Concat(Map((s: string) => s + ";", AllButLast(xs))) + xs[|xs| - 1] == Join(xs, ";")
  {
    if |xs| > 1 {
      JoinAsConcat(xs[1..]);
      assert AllButLast(xs)[1..] == AllButLast(xs[1..]);
      var m := Map((s: string) => s + ";", AllButLast(xs));
      assert m[1..] == Map((s: string) => s + ";", AllButLast(xs[1..]));
      assert Concat(m) == xs[0] + ";" + Concat(m[1..]);
    } else {
      assert AllButLast(xs) == [];
    }
  }

  /** Running a script against a database: a statement may fail to
      prepare (invalid SQL, or a table it names does not exist yet) or to
      run. Whether a statement prepares depends on the database it is
      prepared against. The database is a type parameter. */
  datatype SqlError = PrepareFailed(statement: string) | RunFailed(statement: string)

  /** One statement: `db.prepare(stmt)` against `db`, then `.run()`. */
  function Step<Db>(db: Db, statement: string, prepares: (Db, string) -> bool, run: (Db, string) -> Option<Db>)
    : Result<Db, SqlError>
  {
    if !prepares(db, statement) then Err(PrepareFailed(statement))
    else match run(db, statement)
      case None => Err(RunFailed(statement))
      case Some(db1) => Ok(db1)
  }

  /** `runSQLSequentially`: each statement is prepared against the database
      the statements before it produced, then run; the first failure stops
      the run, and nothing is rolled back. */
  function RunSequentially<Db>(db: Db, statements: seq<string>, prepares: (Db, string) -> bool,
                               run: (Db, string) -> Option<Db>)
    : (r: (Db, Option<SqlError>))
    ensures r.1.Some? ==> r.1.value.statement in statements
    ensures r.1.Some? && r.1.value.PrepareFailed? ==> !prepares(r.0, r.1.value.statement)
    ensures r.1.Some? && r.1.value.RunFailed? ==> prepares(r.0, r.1.value.statement)
    // the failure reported is the first one, and the database keeps the
    // effects of every statement before it
    ensures r.1.Some? ==>
              exists k :: 0 <= k < |statements|
                && RunSequentially(db, statements[..k], prepares, run) == (r.0, None)
                && Step(r.0, statements[k], prepares, run) == Err(r.1.value)
    decreases |statements|
  {
    if statements == [] then (db, None)
    else match Step(db, statements[0], prepares, run)
      case Err(e) =>
        assert statements[..0] == [];
        (db, Some(e))
      case Ok(db1) =>
        var r := RunSequentially(db1, statements[1..], prepares, run);
        assert r.1.Some? ==>
                 exists k :: 0 <= k < |statements|
                   && RunSequentially(db, statements[..k], prepares, run) == (r.0, None)
                   && Step(r.0, statements[k], prepares, run) == Err(r.1.value) by {
          if r.1.Some? {
            var k :| 0 <= k < |statements[1..]|
              && RunSequentially(db1, statements[1..][..k], prepares, run) == (r.0, None)
              && Step(r.0, statements[1..][k], prepares, run) == Err(r.1.value);
            assert statements[..k + 1][1..] == statements[1..][..k];
            assert statements[1..][k] == statements[k + 1];
          }
        }
        r
  }

  /** A script split in two runs as its first part followed, when that
      succeeds, by its second part from where the first left off. */
  lemma {:induction false} RunSequentiallyAppend<Db>(db: Db, s1: seq<string>, s2: seq<string>,
                                                     prepares: (Db, string) -> bool, run: (Db, string) -> Option<Db>)
    ensures RunSequentially(db, s1 + s2, prepares, run)
         == (var p := RunSequentially(db, s1, prepares, run);
             if p.1.Some? then p else RunSequentially(p.0, s2, prepares, run))
    decreases |s1|
  {
    if s1 == [] {
      assert s1 + s2 == s2;
    } else {
      assert (s1 + s2)[0] == s1[0];
      assert (s1 + s2)[1..] == s1[1..] + s2;
      match Step(db, s1[0], prepares, run)
      case Err(_) =>
      case Ok(db1) =>
        RunSequentiallyAppend(db1, s1[1..], s2, prepares, run);
    }
  }

  /** The preparation check of a runner that has already prepared every
      statement: it accepts every statement against every database. */
  predicate PreparesEverything<Db>(db: Db, statement: string) {
    true
  }

  /** `runSQLAsTransaction`: every statement is prepared against the
      starting database before any of them runs; then all run inside one
      transaction, which a failure rolls back. */
  function RunAsTransaction<Db>(db: Db, statements: seq<string>, prepares: (Db, string) -> bool,
                                run: (Db, string) -> Option<Db>)
    : (r: (Db, Option<SqlError>))
    ensures r.1.Some? ==> r.0 == db
    ensures r.1.Some? ==> r.1.value.statement in statements
    ensures (exists i :: 0 <= i < |statements| && !prepares(db, statements[i])) <==> r.1.Some? && r.1.value.PrepareFailed?
    ensures r.1.Some? && r.1.value.PrepareFailed? ==>
              exists k :: 0 <= k < |statements|
                && r.1.value.statement == statements[k] && !prepares(db, statements[k])
                && forall j :: 0 <= j < k ==> prepares(db, statements[j])
    ensures r.1.None? || r.1.value.RunFailed? ==>
      r.1 == RunSequentially(db, statements, PreparesEverything, run).1
    ensures r.1.None? ==> r.0 == RunSequentially(db, statements, PreparesEverything, run).0
  {
    if exists i :: 0 <= i < |statements| && !prepares(db, statements[i]) then
      var k := FirstUnprepared(db, statements, prepares);
      (db, Some(PrepareFailed(statements[k])))
    else
      var (db1, err) := RunSequentially(db, statements, PreparesEverything, run);
      if err.Some? then (db, err) else (db1, None)
  }

  /** The position of the first statement that does not prepare against
      `db`: the one on which `map(stmt => db.prepare(...))` throws. */
  function FirstUnprepared<Db>(db: Db, statements: seq<string>, prepares: (Db, string) -> bool): (k: nat)
    requires exists i :: 0 <= i < |statements| && !prepares(db, statements[i])
    ensures k < |statements| && !prepares(db, statements[k])
    ensures forall j :: 0 <= j < k ==> prepares(db, statements[j])
  {
    if !prepares(db, statements[0]) then 0
    else
      assert exists i :: 0 <= i < |statements[1..]| && !prepares(db, statements[1..][i]) by {
        var i :| 0 <= i < |statements| && !prepares(db, statements[i]);
        assert statements[1..][i - 1] == statements[i];
      }
      var k := FirstUnprepared(db, statements[1..], prepares);
      assert forall j :: 1 <= j < k + 1 ==> statements[j] == statements[1..][j - 1];
      k + 1
  }

  /** A sequential run that succeeds would also succeed with statements
      prepared in advance, reaching the same database. */
  lemma {:induction false} SucceedsWhenPrepared<Db>(db: Db, statements: seq<string>, prepares: (Db, string) -> bool,
                                                    run: (Db, string) -> Option<Db>)
    requires RunSequentially(db, statements, prepares, run).1.None?
    ensures RunSequentially(db, statements, PreparesEverything, run) == RunSequentially(db, statements, prepares, run)
    decreases |statements|
  {
    if statements != [] {
      match Step(db, statements[0], prepares, run)
      case Err(_) =>
      case Ok(db1) =>
        SucceedsWhenPrepared(db1, statements[1..], prepares, run);
    }
  }

  /** The runners agree when every statement prepares against the starting
      database and the sequential run succeeds. */
  lemma RunnersAgreeOnSuccess<Db>(db: Db, statements: seq<string>, prepares: (Db, string) -> bool,
                                  run: (Db, string) -> Option<Db>)
    requires forall i :: 0 <= i < |statements| ==> prepares(db, statements[i])
    requires RunSequentially(db, statements, prepares, run).1.None?
    ensures RunAsTransaction(db, statements, prepares, run) == RunSequentially(db, statements, prepares, run)
  {
    SucceedsWhenPrepared(db, statements, prepares, run);
  }

  const CreateT: string := "CREATE TABLE t(x INTEGER);"
  const InsertT: string := "INSERT INTO t VALUES (1);"

  /** A database reduced to the set of its table names: a statement that
      names `t` prepares only once `t` exists. */
  predicate PreparesOnTables(tables: set<string>, statement: string) {
    statement == CreateT || "t" in tables
  }

  function RunOnTables(tables: set<string>, statement: string): Option<set<string>> {
    if statement == CreateT then Some(tables + {"t"}) else Some(tables)
  }

  /** A schema script whose second statement uses the table its first one
      creates: the sequential runner succeeds, while the transaction fails
      to prepare the second statement and leaves the database empty. */
  lemma RunnersDivergeOnForwardReference()
    ensures RunSequentially({}, [CreateT, InsertT], PreparesOnTables, RunOnTables) == ({"t"}, None)
    ensures RunAsTransaction({}, [CreateT, InsertT], PreparesOnTables, RunOnTables) == ({}, Some(PrepareFailed(InsertT)))
  {
    var s := [CreateT, InsertT];
    assert s[1..] == [InsertT] && [InsertT][1..] == [];
    var empty: set<string> := {};
    assert empty + {"t"} == {"t"};
    assert Step({}, CreateT, PreparesOnTables, RunOnTables) == Ok({"t"});
    assert Step({"t"}, InsertT, PreparesOnTables, RunOnTables) == Ok({"t"});
    assert RunSequentially({"t"}, [], PreparesOnTables, RunOnTables) == ({"t"}, None);
    assert RunSequentially({"t"}, [InsertT], PreparesOnTables, RunOnTables) == ({"t"}, None);
    assert !PreparesOnTables({}, s[1]);
  }
}

=== FILE: views.dfy ===
/** The file-access view and the resolver on top of it.

    The view lists one row per (file, user, grant path). A user reaches a
    file along four paths: a direct grant, a team granted the file, a
    collection containing the file granted to the user, or a team granted a
    collection containing the file. Access is purely additive.

    The resolver reads the matching rows and returns
    `[...new Set(ids)].sort()`: each id once, ascending. */
module Views {
  import opened Seqs
  import opened Sorting
  import opened Strings
  import opened TablesBase
  import opened Relations

  datatype AccessType = ViaUser | ViaTeam | ViaCollection | ViaCollectionTeam

  datatype AccessRow = AccessRow(fileId: Id, userId: Id, accessType: AccessType)

  /** The pairs (p.key1, q.key2) for q in `y` joining `p` on p.key2 = q.key1. */
  function Extend(p: Pair, y: Rows): (r: Rows)
    ensures forall q :: q in r <==> q.key1 == p.key1 && Pair(p.key2, q.key2) in y
  {
    if y == [] then []
    else if y[0].key1 == p.key2 then [Pair(p.key1, y[0].key2)] + Extend(p, y[1..])
    else Extend(p, y[1..])
  }

  /** Relational composition: (a, c) whenever (a, b) is in `x` and (b, c) in `y`. */
  function Compose(x: Rows, y: Rows): (r: Rows)
    ensures forall q :: q in r <==> exists b :: Pair(q.key1, b) in x && Pair(b, q.key2) in y
  {
    if x == [] then []
    else
      var head := Extend(x[0], y);
      var tail := Compose(x[1..], y);
      assert forall q :: q in head + tail <==> exists b :: Pair(q.key1, b) in x && Pair(b, q.key2) in y by {
        forall q
          ensures q in head + tail <==> exists b :: Pair(q.key1, b) in x && Pair(b, q.key2) in y
        {
          if exists b :: Pair(q.key1, b) in x && Pair(b, q.key2) in y {
            var b :| Pair(q.key1, b) in x && Pair(b, q.key2) in y;
            if Pair(q.key1, b) == x[0] {
              assert q in head;
            } else {
              assert Pair(q.key1, b) in x[1..];
            }
          }
          if q in head {
            assert Pair(q.key1, x[0].key2) in x;
          }
        }
      }
      head + tail
  }

  /** The same pairs with the keys swapped. */
  function Flip(x: Rows): (r: Rows)
    ensures forall a, b :: Pair(a, b) in r <==> Pair(b, a) in x
  {
    if x == [] then [] else [Pair(x[0].key2, x[0].key1)] + Flip(x[1..])
  }

  /** (file, user) pairs as view rows of one access type. */
  function Tag(rows: Rows, t: AccessType): (r: seq<AccessRow>)
    ensures forall row :: row in r <==> row.accessType == t && Pair(row.fileId, row.userId) in rows
  {
    if rows == [] then [] else [AccessRow(rows[0].key1, rows[0].key2, t)] + Tag(rows[1..], t)
  }

  /** `files_access_view`: the rows of the four grant paths. */
  function ViewRows(rels: Relations): seq<AccessRow> {
    var byCollection := Flip(rels.collectionFiles);
    Tag(rels.fileUsers, ViaUser)
    + Tag(Compose(rels.fileTeams, rels.teamUsers), ViaTeam)
    + Tag(Compose(byCollection, rels.collectionUsers), ViaCollection)
    + Tag(Compose(Compose(byCollection, rels.collectionTeams), rels.teamUsers), ViaCollectionTeam)
  }

  // ---------------------------------------------------------------------
  // The four grant paths, stated directly on the relations

  ghost predicate DirectGrant(rels: Relations, f: Id, u: Id) {
    Pair(f, u) in rels.fileUsers
  }

  ghost predicate TeamGrant(rels: Relations, f: Id, u: Id) {
    exists t :: Pair(f, t) in rels.fileTeams && Pair(t, u) in rels.teamUsers
  }

  ghost predicate CollectionGrant(rels: Relations, f: Id, u: Id) {
    exists c :: Pair(c, f) in rels.collectionFiles && Pair(c, u) in rels.collectionUsers
  }

  ghost predicate CollectionTeamGrant(rels: Relations, f: Id, u: Id) {
    exists c, t :: Pair(c, f) in rels.collectionFiles && Pair(c, t) in rels.collectionTeams
                   && Pair(t, u) in rels.teamUsers
  }

  ghost predicate HasAccess(rels: Relations, f: Id, u: Id) {
    DirectGrant(rels, f, u) || TeamGrant(rels, f, u) || CollectionGrant(rels, f, u) || CollectionTeamGrant(rels, f, u)
  }

  /** Some row of `rows` pairs file `f` with user `u`. */
  ghost predicate Lists(rows: seq<AccessRow>, f: Id, u: Id) {
    exists row :: row in rows && row.fileId == f && row.userId == u
  }

  lemma ListsAppend(a: seq<AccessRow>, b: seq<AccessRow>, f: Id, u: Id)
    ensures Lists(a + b, f, u) <==> Lists(a, f, u) || Lists(b, f, u)
  {
    if Lists(a + b, f, u) {
      var row :| row in a + b && row.fileId == f && row.userId == u;
      assert row in a || row in b;
    }
    if Lists(a, f, u) {
      var row :| row in a && row.fileId == f && row.userId == u;
      assert row in a + b;
    }
    if Lists(b, f, u) {
      var row :| row in b && row.fileId == f && row.userId == u;
      assert row in a + b;
    }
  }

  lemma ListsTag(rows: Rows, t: AccessType, f: Id, u: Id)
    ensures Lists(Tag(rows, t), f, u) <==> Pair(f, u) in rows
  {
    if Pair(f, u) in rows {
      assert AccessRow(f, u, t) in Tag(rows, t);
    }
  }

  /** The pairs listed by the view, path by path. */
  lemma ViewRowsListPairs(rels: Relations, f: Id, u: Id)
    ensures Lists(ViewRows(rels), f, u) <==>
      || Pair(f, u) in rels.fileUsers
      || Pair(f, u) in Compose(rels.fileTeams, rels.teamUsers)
      || Pair(f, u) in Compose(Flip(rels.collectionFiles), rels.collectionUsers)
      || Pair(f, u) in Compose(Compose(Flip(rels.collectionFiles), rels.collectionTeams), rels.teamUsers)
  {
    var byCollection := Flip(rels.collectionFiles);
    var r0, r1 := rels.fileUsers, Compose(rels.fileTeams, rels.teamUsers);
    var r2, r3 := Compose(byCollection, rels.collectionUsers), Compose(Compose(byCollection, rels.collectionTeams), rels.teamUsers);
    var t0, t1, t2, t3 := Tag(r0, ViaUser), Tag(r1, ViaTeam), Tag(r2, ViaCollection), Tag(r3, ViaCollectionTeam);
    assert ViewRows(rels) == t0 + t1 + t2 + t3;
    ListsAppend(t0 + t1 + t2, t3, f, u);
    ListsAppend(t0 + t1, t2, f, u);
    ListsAppend(t0, t1, f, u);
    ListsTag(r0, ViaUser, f, u);
    ListsTag(r1, ViaTeam, f, u);
    ListsTag(r2, ViaCollection, f, u);
    ListsTag(r3, ViaCollectionTeam, f, u);
  }

  lemma CollectionRowsMatch(rels: Relations, f: Id, u: Id)
    ensures Pair(f, u) in Compose(Flip(rels.collectionFiles), rels.collectionUsers) <==> CollectionGrant(rels, f, u)
  {
    if CollectionGrant(rels, f, u) {
      var c :| Pair(c, f) in rels.collectionFiles && Pair(c, u) in rels.collectionUsers;
      assert Pair(f, c) in Flip(rels.collectionFiles);
    }
  }

  lemma CollectionTeamRowsMatch(rels: Relations, f: Id, u: Id)
    ensures Pair(f, u) in Compose(Compose(Flip(rels.collectionFiles), rels.collectionTeams), rels.teamUsers)
            <==> CollectionTeamGrant(rels, f, u)
  {
    var byCollection := Flip(rels.collectionFiles);
    var links := Compose(byCollection, rels.collectionTeams);
    if CollectionTeamGrant(rels, f, u) {
      var c, t :| Pair(c, f) in rels.collectionFiles && Pair(c, t) in rels.collectionTeams
                  && Pair(t, u) in rels.teamUsers;
      assert Pair(f, c) in byCollection;
      assert Pair(f, t) in links;
    }
    if Pair(f, u) in Compose(links, rels.teamUsers) {
      var t :| Pair(f, t) in links && Pair(t, u) in rels.teamUsers;
      var c :| Pair(f, c) in byCollection && Pair(c, t) in rels.collectionTeams;
      assert Pair(c, f) in rels.collectionFiles;
    }
  }

  /** The view lists (f, u) exactly when one of the four grant paths connects them. */
  lemma ViewRowsMatchGrantPaths(rels: Relations, f: Id, u: Id)
    ensures Lists(ViewRows(rels), f, u) <==> HasAccess(rels, f, u)
  {
    ViewRowsListPairs(rels, f, u);
    CollectionRowsMatch(rels, f, u);
    CollectionTeamRowsMatch(rels, f, u);
  }

  // ---------------------------------------------------------------------
  // FileAccess.findAllUsersIds / findAllFileIds

  /** The user ids of the rows for file `fileId`, each once, ascending. */
  function FindAllUsersIds(rows: seq<AccessRow>, fileId: Id): (r: seq<Id>)
    ensures Sorted(Lex, r) && Distinct(r)
    ensures forall u :: u in r <==> Lists(rows, fileId, u)
  {
    LexIsTotalOrder();
    var matching := Filter((row: AccessRow) => row.fileId == fileId, rows);
    var ids := Map((row: AccessRow) => row.userId, matching);
    var r := SortedUnique(Lex, ids);
    assert forall u :: u in ids <==> Lists(rows, fileId, u) by {
      forall u
        ensures u in ids <==> Lists(rows, fileId, u)
      {
        if u in ids {
          var i :| 0 <= i < |ids| && ids[i] == u;
          assert matching[i] in matching;
        }
        if Lists(rows, fileId, u) {
          var row :| row in rows && row.fileId == fileId && row.userId == u;
          var i :| 0 <= i < |matching| && matching[i] == row;
          assert ids[i] == u;
        }
      }
    }
    r
  }

  /** The file ids of the rows for user `userId`, each once, ascending. */
  function FindAllFileIds(rows: seq<AccessRow>, userId: Id): (r: seq<Id>)
    ensures Sorted(Lex, r) && Distinct(r)
    ensures forall f :: f in r <==> Lists(rows, f, userId)
  {
    LexIsTotalOrder();
    var matching := Filter((row: AccessRow) => row.userId == userId, rows);
    var ids := Map((row: AccessRow) => row.fileId, matching);
    var r := SortedUnique(Lex, ids);
    assert forall f :: f in ids <==> Lists(rows, f, userId) by {
      forall f
        ensures f in ids <==> Lists(rows, f, userId)
      {
        if f in ids {
          var i :| 0 <= i < |ids| && ids[i] == f;
          assert matching[i] in matching;
        }
        if Lists(rows, f, userId) {
          var row :| row in rows && row.fileId == f && row.userId == userId;
          var i :| 0 <= i < |matching| && matching[i] == row;
          assert ids[i] == f;
        }
      }
    }
    r
  }

  /** The resolver's answer depends only on which rows the view holds, not
      on the order the query returns them in or on repeated rows. */
  lemma FindAllUsersIdsCanonical(rows1: seq<AccessRow>, rows2: seq<AccessRow>, fileId: Id)
    requires forall row :: row in rows1 <==> row in rows2
    ensures FindAllUsersIds(rows1, fileId) == FindAllUsersIds(rows2, fileId)
  {
    LexIsTotalOrder();
    var a := FindAllUsersIds(rows1, fileId);
    var b := FindAllUsersIds(rows2, fileId);
    assert forall u :: Lists(rows1, fileId, u) <==> Lists(rows2, fileId, u);
    SortedDistinctUnique(Lex, a, b);
  }

  /** Same for the per-user query. */
  lemma FindAllFileIdsCanonical(rows1: seq<AccessRow>, rows2: seq<AccessRow>, userId: Id)
    requires forall row :: row in rows1 <==> row in rows2
    ensures FindAllFileIds(rows1, userId) == FindAllFileIds(rows2, userId)
  {
    LexIsTotalOrder();
    var a := FindAllFileIds(rows1, userId);
    var b := FindAllFileIds(rows2, userId);
    assert forall f :: Lists(rows1, f, userId) <==> Lists(rows2, f, userId);
    SortedDistinctUnique(Lex, a, b);
  }

  /** Both queries filter the same view: u is resolved for f exactly when f
      is resolved for u. */
  lemma AccessSymmetric(rows: seq<AccessRow>, f: Id, u: Id)
    ensures u in FindAllUsersIds(rows, f) <==> f in FindAllFileIds(rows, u)
  {
  }

  /** The resolved users of a file are exactly those with a grant path. */
  lemma ResolvedUsersAreGrantees(rels: Relations, f: Id, u: Id)
    ensures u in FindAllUsersIds(ViewRows(rels), f) <==> HasAccess(rels, f, u)
  {
    ViewRowsMatchGrantPaths(rels, f, u);
  }

  /** Grant paths only use membership of pairs, so more pairs never lose access. */
  lemma HasAccessMonotone(small: Relations, big: Relations, f: Id, u: Id)
    requires forall k, p :: p in small.Get(k) ==> p in big.Get(k)
    requires HasAccess(small, f, u)
    ensures HasAccess(big, f, u)
  {
    assert forall p :: p in small.fileUsers ==> p in big.fileUsers by {
      assert small.Get(FileUsers) == small.fileUsers && big.Get(FileUsers) == big.fileUsers;
    }
    assert forall p :: p in small.fileTeams ==> p in big.fileTeams by {
      assert small.Get(FileTeams) == small.fileTeams && big.Get(FileTeams) == big.fileTeams;
    }
    assert forall p :: p in small.teamUsers ==> p in big.teamUsers by {
      assert small.Get(TeamUsers) == small.teamUsers && big.Get(TeamUsers) == big.teamUsers;
    }
    assert forall p :: p in small.collectionFiles ==> p in big.collectionFiles by {
      assert small.Get(CollectionFiles) == small.collectionFiles && big.Get(CollectionFiles) == big.collectionFiles;
    }
    assert forall p :: p in small.collectionUsers ==> p in big.collectionUsers by {
      assert small.Get(CollectionUsers) == small.collectionUsers && big.Get(CollectionUsers) == big.collectionUsers;
    }
    assert forall p :: p in small.collectionTeams ==> p in big.collectionTeams by {
      assert small.Get(CollectionTeams) == small.collectionTeams && big.Get(CollectionTeams) == big.collectionTeams;
    }
    if TeamGrant(small, f, u) {
      var t :| Pair(f, t) in small.fileTeams && Pair(t, u) in small.teamUsers;
      assert TeamGrant(big, f, u);
    } else if CollectionGrant(small, f, u) {
      var c :| Pair(c, f) in small.collectionFiles && Pair(c, u) in small.collectionUsers;
      assert CollectionGrant(big, f, u);
    } else if CollectionTeamGrant(small, f, u) {
      var c, t :| Pair(c, f) in small.collectionFiles && Pair(c, t) in small.collectionTeams
                  && Pair(t, u) in small.teamUsers;
      assert CollectionTeamGrant(big, f, u);
    }
  }

  /** Adding any grant or membership never shrinks a file's resolved users. */
  lemma AddNeverRevokes(rels: Relations, link: Link, f: Id, u: Id)
    requires u in FindAllUsersIds(ViewRows(rels), f)
    ensures u in FindAllUsersIds(ViewRows(Add(rels, link)), f)
  {
    ResolvedUsersAreGrantees(rels, f, u);
    var big := Add(rels, link);
    assert forall k, p :: p in rels.Get(k) ==> p in big.Get(k) by {
      forall k, p | p in rels.Get(k) ensures p in big.Get(k) {
        if k == link.Kind() { assert p in Elems(rels.Get(k)); }
      }
    }
    HasAccessMonotone(rels, big, f, u);
    ResolvedUsersAreGrantees(big, f, u);
  }

  /** Removing any grant or membership never adds a resolved user. */
  lemma RemoveNeverGrants(rels: Relations, link: Link, f: Id, u: Id)
    requires u in FindAllUsersIds(ViewRows(Remove(rels, link)), f)
    ensures u in FindAllUsersIds(ViewRows(rels), f)
  {
    var small := Remove(rels, link);
    ResolvedUsersAreGrantees(small, f, u);
    assert forall k, p :: p in small.Get(k) ==> p in rels.Get(k) by {
      forall k, p | p in small.Get(k) ensures p in rels.Get(k) {
        if k == link.Kind() { assert p in Elems(small.Get(k)); }
      }
    }
    HasAccessMonotone(small, rels, f, u);
    ResolvedUsersAreGrantees(rels, f, u);
  }
}

=== FILE: wrappers.dfy ===
/** Failure-carrying datatypes shared by the whole model: Option (a lookup
    that may find nothing), Result (an operation that may fail) and the
    tri-state Response every manager mutation returns. */
module Wrappers {

  datatype Option<+T> = None | Some(value: T) {
    function GetOr(default: T): T {
      match this
      case Some(v) => v
      case None => default
    }
  }

  datatype Result<+T, +E> = Ok(value: T) | Err(error: E)

  /** The kinds of entity a message can name. */
  datatype EntityKind = UserKind | TeamKind | CollectionKind | FileKind

  /** The structured part of a warning or error: what went wrong and which
      key the caller supplied, enough for a presentation layer to build a
      hint such as "run the list command". */
  datatype Notice =
    | AlreadyExists(kind: EntityKind, key: string)
    | NotFound(kind: EntityKind, key: string)
    | NotModified(path: string)
    | MissingPrivateKey(operation: string, email: string)
    | Failed(reason: string)

  /** Success carries a payload; Warning means "skipped, nothing changed";
      Error means the operation failed. */
  datatype Response<+T> = Success(value: T) | Warning(notice: Notice) | Error(notice: Notice)

  /** JavaScript truthiness of an optional string: absent and "" are falsy. */
  predicate Present(o: Option<string>) {
    o.Some? && o.value != ""
  }
}
